=== FILE: README.md ===
# My Smart VPN — decision logic in Dafny

This project models the pure decision logic of the My Smart VPN Android client (a Kotlin app built on Open SSTP Client):

- **Server-list feed parser** (`VpnRepository`). Comma-separated VPNGate text becomes `SstpServer` records:
  - blank, comment and header lines are skipped;
  - each data line is checked and normalised on its own (eight columns, no Iranian servers, non-empty host and IP, gateway suffix appended, unparsable numbers read as 0);
  - the accepted records are sorted stably by sessions, then speed, both descending.
- **Quality-of-service ranker** (`ServerSorter`):
  - unreachable servers are dropped;
  - the effective speed is `speed / (sessions + 1)`;
  - speed and latency are min/max-normalised over the batch, and the score is `0.6 * speed + 0.4 * latency`;
  - the ranking, top-N, best server and displayed percentage are built on that score.
- **Self-updater** (`UpdateManager`, `UpdateCheckResults`):
  - dotted version comparison;
  - the result of an update check, built from the HTTP status and an already decoded release;
  - the first-`.apk` asset selection;
  - the download percentage;
  - the two shorthand result factories.
- **Host-name history** (`HostnameHistory`): the most-recently-used list behind the manual-connect box.
- **Connection status** (`ConnectionStateManager`): the four-state record, its update rules and the broadcast each update sends.
- **Server list adapter** (`ServerListAdapter`): the flag emoji, the megabit figure and the list handling of the server cards.

Helper modules model the Kotlin standard library behaviour the core relies on:

- `Text`: `trim`, `isBlank`, `split`, `lines`, ASCII case-insensitive comparisons and `removePrefix`.
- `Decimal`: `toIntOrNull` / `toLongOrNull` and the decimal rendering of numbers.
- `KotlinInts`: `Int`/`Long` ranges, 64-bit wrap-around and truncating division.
- `StableSort`: a stable insertion sort parameterised by a strict weak order, standing for `sortedWith` / `sortedByDescending`.
- `Wrappers`: `Option`.

Modelling choices:

- `Double` arithmetic is modelled with exact `real`s.
- Kotlin `String`s are sequences of Unicode scalar values. Where the JVM counts UTF-16 units (`getFlagEmoji`), the count is written out.
- I/O is replaced by values that describe what it produced:
  - the feed download becomes a `FetchOutcome`;
  - the release request becomes a `ReleaseFetch`;
  - a download becomes the sizes of the chunks it read;
  - the history preference becomes a `Stored` value that is absent, a decoded list, or undecodable.
- The ranker reads a latency property called `realPing`, which `SstpServer` does not declare. Its only latency field is `ping`, so the model uses `ping` throughout.

## Model

| member | source | states |
|---|---|---|
| VpnRepository.FixHostName | app/src/main/java/kittoku/osc/repository/VpnRepository.kt:169-171 | The host always ends with ".opengw.net" in some casing. A host that already does is unchanged; any other host gets the suffix appended. |
| VpnRepository.FixHostNameIdempotent | app/src/main/java/kittoku/osc/repository/VpnRepository.kt:169-171 | Fixing an already fixed host is a no-op. |
| VpnRepository.FixHostNameExample | app/src/main/java/kittoku/osc/repository/VpnRepository.kt:169-171 | "a.example" becomes "a.example.opengw.net". |
| VpnRepository.ParseServerLine | app/src/main/java/kittoku/osc/repository/VpnRepository.kt:146-201 | `parseServerLine` returns a record exactly for an accepted line: at least 8 fields, a country code other than "IR" in any casing, and a non-empty host and ip. |
| VpnRepository.AcceptedIff | app/src/main/java/kittoku/osc/repository/VpnRepository.kt:146-178 | A line yields a record exactly when all of the following hold: it has at least 8 comma-separated fields; its trimmed column 6 is not "IR" in any casing; its trimmed columns 0 and 1 are non-empty. |
| VpnRepository.ParsedColumns | app/src/main/java/kittoku/osc/repository/VpnRepository.kt:156-200 | Each field of an accepted line's record comes from its fixed column: host (0, suffixed), ip (1), ping (3, `toIntOrNull` or 0), speed (4, `toLongOrNull` or 0), country (5), code (6), sessions (7, `toLongOrNull` or 0). |
| VpnRepository.ParseJoinedColumns | app/src/main/java/kittoku/osc/repository/VpnRepository.kt:146-201 | Eight delimiter-free columns joined with commas parse to the record those columns describe, when the host, ip and code columns pass. |
| VpnRepository.ParseFeedLine | app/src/main/java/kittoku/osc/repository/VpnRepository.kt:146-201 | Round trip: writing a canonical record as a feed line and parsing it gives the record back. |
| VpnRepository.LongColumn | app/src/main/java/kittoku/osc/repository/VpnRepository.kt:184-190 | A rendered `Long` has no comma, survives trimming, and `toLongOrNull() ?: 0` gives it back. |
| VpnRepository.IntColumn | app/src/main/java/kittoku/osc/repository/VpnRepository.kt:181 | A rendered `Int` has no comma, survives trimming, and `toIntOrNull() ?: 0` gives it back. |
| VpnRepository.FeedTextColumns | app/src/main/java/kittoku/osc/repository/VpnRepository.kt:163-187 | The host, ip, country and code columns of a canonical record's line trim to the record's own fields. |
| VpnRepository.FeedNumberColumns | app/src/main/java/kittoku/osc/repository/VpnRepository.kt:181-190 | The ping, speed and sessions columns of a canonical record's line parse back to its numbers. |
| VpnRepository.FeedColumnsLackDelimiter | app/src/main/java/kittoku/osc/repository/VpnRepository.kt:148 | No column of a canonical record's line contains a comma, so `split(",")` recovers the columns. |
| VpnRepository.NonBlank | app/src/main/java/kittoku/osc/repository/VpnRepository.kt:109 | Every kept line is a non-blank input line, every non-blank input line is kept, and an all-blank input gives nothing. |
| VpnRepository.NonBlankCounts | app/src/main/java/kittoku/osc/repository/VpnRepository.kt:109 | Each non-blank line is kept exactly as often as it occurs in the input; a blank line is never kept. |
| VpnRepository.NonBlankAppend | app/src/main/java/kittoku/osc/repository/VpnRepository.kt:109 | Filtering a concatenation is the concatenation of the filtered parts, so the kept lines stay in input order. |
| VpnRepository.HeaderLinesSkipped | app/src/main/java/kittoku/osc/repository/VpnRepository.kt:115-120 | `IsHeaderLine` holds for every line starting with `*` or `#`, and for every line containing "HostName" in any casing, wherever it appears. |
| VpnRepository.LineRecord | app/src/main/java/kittoku/osc/repository/VpnRepository.kt:113-131 | What the loop body makes of one line: a record `s` exactly when the line yields `s`, that is, it is not a comment or header line and `parseServerLine` returns `s`. |
| VpnRepository.ParseLines | app/src/main/java/kittoku/osc/repository/VpnRepository.kt:113-131 | Completeness of the per-line loop: every line that yields a record puts it in the result. The result has no more records than lines. |
| VpnRepository.ParseLinesSingle | app/src/main/java/kittoku/osc/repository/VpnRepository.kt:113-131 | One line gives `[s]` exactly when it yields `s`, and nothing exactly when it is a header line or `parseServerLine` rejects it. |
| VpnRepository.ParseLinesAppend | app/src/main/java/kittoku/osc/repository/VpnRepository.kt:113-131 | The records of a concatenation are the records of the first part followed by those of the second, so records keep line order. |
| VpnRepository.ParseLinesOrigin | app/src/main/java/kittoku/osc/repository/VpnRepository.kt:113-131 | Every record of the per-line loop is yielded by one of its lines: that line is not a comment or header line, and `parseServerLine` returns the record for it. |
| VpnRepository.ParseCsv | app/src/main/java/kittoku/osc/repository/VpnRepository.kt:107-140 | The result is a permutation of the accepted records and is ordered by sessions descending, then speed descending. It has at most as many entries as the feed has non-blank lines. |
| VpnRepository.RanksBeforeIsStrictWeakOrder | app/src/main/java/kittoku/osc/repository/VpnRepository.kt:136-139 | The two-key descending comparison is a strict weak order, so the sort is well defined. |
| VpnRepository.ParseCsvStable | app/src/main/java/kittoku/osc/repository/VpnRepository.kt:136-139 | Records that tie on sessions and speed keep their feed order, because `sortedWith` is stable. |
| VpnRepository.AcceptedRecordsOrigin | app/src/main/java/kittoku/osc/repository/VpnRepository.kt:109-131 | Every accepted record comes from a non-blank feed line that yields it. |
| VpnRepository.DataLineOrigin | app/src/main/java/kittoku/osc/repository/VpnRepository.kt:109 | A line the parser loops over is a non-blank line of the feed. |
| VpnRepository.RecordsComeFromDataLines | app/src/main/java/kittoku/osc/repository/VpnRepository.kt:109-131 | Every output record comes from a non-blank line that is neither a comment (`*`, `#`) nor a "HostName" header, so such lines never produce a record. |
| VpnRepository.BlankFeedYieldsNothing | app/src/main/java/kittoku/osc/repository/VpnRepository.kt:107-140 | A blank feed yields the empty list. |
| VpnRepository.ParseCsvComplete | app/src/main/java/kittoku/osc/repository/VpnRepository.kt:107-140 | Every non-blank feed line that yields a record puts that record in the parsed list. |
| VpnRepository.ParseCsvMembership | app/src/main/java/kittoku/osc/repository/VpnRepository.kt:107-140 | A record is in the parsed list exactly when some non-blank feed line yields it. |
| VpnRepository.DeliveredServers | app/src/main/java/kittoku/osc/repository/VpnRepository.kt:60-96 | A 2xx response with a non-blank body delivers exactly that body's parse, and a non-empty delivered list implies such a response. A non-2xx status, a missing or blank body and every failure path deliver the empty list. |
| ServerSorter.SessionsWithUs | app/src/main/java/kittoku/osc/repository/ServerSorter.kt:124 | `sessions + 1` is a `Long`. For a session count from 0 up to below `Long.MAX_VALUE` it is exactly one more and positive. |
| ServerSorter.EffectiveSpeed | app/src/main/java/kittoku/osc/repository/ServerSorter.kt:123-126 | The effective speed times `sessions + 1` is the speed. |
| ServerSorter.EffectiveSpeedFallsWithSessions | app/src/main/java/kittoku/osc/repository/ServerSorter.kt:123-126 | On equal bandwidth, more sessions never raise the effective speed. It stays between 0 and the raw speed. |
| ServerSorter.FilterReachable | app/src/main/java/kittoku/osc/repository/ServerSorter.kt:183-187 | Only servers with ping > 0 remain, and the list never grows. |
| ServerSorter.FilterReachableMembers | app/src/main/java/kittoku/osc/repository/ServerSorter.kt:183-187 | A server is kept if and only if it is in the input and reachable. |
| ServerSorter.FilterReachableEmpty | app/src/main/java/kittoku/osc/repository/ServerSorter.kt:74-75 | The filter leaves nothing exactly when every server timed out. |
| ServerSorter.FilterReachableAppend | app/src/main/java/kittoku/osc/repository/ServerSorter.kt:184 | Filtering distributes over concatenation, so kept servers keep their original order. |
| ServerSorter.FilterReachableKeepsReachable | app/src/main/java/kittoku/osc/repository/ServerSorter.kt:184 | A list with no timed-out server is returned unchanged. |
| ServerSorter.FilterReachableIdempotent | app/src/main/java/kittoku/osc/repository/ServerSorter.kt:183-187 | Filtering twice is filtering once. |
| ServerSorter.UnparsedPingIsUnreachable | app/src/main/java/kittoku/osc/repository/ServerSorter.kt:74-75 | An accepted feed line whose trimmed ping column is not a signed decimal, or is one outside the `Int` range, yields ping 0, and the ranker's filter drops that record. |
| ServerSorter.MinOr | app/src/main/java/kittoku/osc/repository/ServerSorter.kt:82-84 | `minOrNull() ?: d`: the default for an empty list; otherwise an element that no element undercuts. |
| ServerSorter.MaxOr | app/src/main/java/kittoku/osc/repository/ServerSorter.kt:83-85 | `maxOrNull() ?: d`: the default for an empty list; otherwise an element that no element exceeds. |
| ServerSorter.BatchBounds | app/src/main/java/kittoku/osc/repository/ServerSorter.kt:82-85 | Every server of the batch lies within the computed speed and ping extremes. |
| ServerSorter.BatchBoundsAttained | app/src/main/java/kittoku/osc/repository/ServerSorter.kt:82-85 | In a non-empty batch each of the four extremes belongs to some server. |
| ServerSorter.NormalizeSpeed | app/src/main/java/kittoku/osc/repository/ServerSorter.kt:94-98 | With a positive range the result is the min-max formula: result × (max − min) = speed − min. Within the bounds it is in 0..1, 1 at the maximum and 0 at the minimum; a zero range gives 1.0. |
| ServerSorter.NormalizePing | app/src/main/java/kittoku/osc/repository/ServerSorter.kt:101-105 | With a positive range the result is the inverted min-max formula: (1 − result) × (max − min) = ping − min. Within the bounds it is in 0..1, 1 at the minimum ping and 0 at the maximum; a zero range gives 1.0. |
| ServerSorter.NormalizeSpeedMonotone | app/src/main/java/kittoku/osc/repository/ServerSorter.kt:94-98 | A faster server never gets a lower normalised speed. |
| ServerSorter.NormalizePingAntitone | app/src/main/java/kittoku/osc/repository/ServerSorter.kt:101-105 | A server with higher latency never gets a higher normalised latency score. |
| ServerSorter.ScoreOf | app/src/main/java/kittoku/osc/repository/ServerSorter.kt:90-117 | One server's score record: its effective speed; normalised speed and ping that are the min-max values against the bounds (ping inverted, 1.0 on a zero-width range); score = 0.6·speed + 0.4·ping; all three figures in 0..1 within the bounds. |
| ServerSorter.ScoreBatch | app/src/main/java/kittoku/osc/repository/ServerSorter.kt:90-117 | One score per server, in order, each carrying the min-max figures against the shared bounds, on the 0..1 scale and weighted 0.6/0.4. |
| ServerSorter.CalculateScores | app/src/main/java/kittoku/osc/repository/ServerSorter.kt:70-118 | Exactly one entry per reachable server, in input order. Each entry's normalised speed and ping are the min-max values against the extremes of the reachable batch, each figure is in 0..1, and each score is the 0.6/0.4 weighting. |
| ServerSorter.CalculateScoresMinMax | app/src/main/java/kittoku/osc/repository/ServerSorter.kt:77-105 | Any one score returned has its server's effective speed, and its normalised figures are that speed's and ping's min-max values against the reachable batch's extremes. |
| ServerSorter.ScoresAreBatchScores | app/src/main/java/kittoku/osc/repository/ServerSorter.kt:78-117 | Each entry is its server scored against the extremes of the reachable servers of the whole batch. |
| ServerSorter.ScoresIgnoreUnreachable | app/src/main/java/kittoku/osc/repository/ServerSorter.kt:71-75 | Scoring the filtered list gives the same scores as scoring the raw one: timed-out servers do not affect the normalisation. |
| ServerSorter.EqualSpeedsNormalizeToOne | app/src/main/java/kittoku/osc/repository/ServerSorter.kt:94-98 | When all reachable servers share one effective speed, every normalised speed is 1.0. |
| ServerSorter.EqualPingsNormalizeToOne | app/src/main/java/kittoku/osc/repository/ServerSorter.kt:101-105 | When all reachable servers share one ping, every normalised latency is 1.0. |
| ServerSorter.ScoreOfTop | app/src/main/java/kittoku/osc/repository/ServerSorter.kt:108 | At the maximum speed and minimum ping of the bounds the score is exactly 1.0. |
| ServerSorter.FastestAndNearestScoresOne | app/src/main/java/kittoku/osc/repository/ServerSorter.kt:82-108 | The reachable server with both the highest effective speed and the lowest ping scores 1.0. |
| ServerSorter.ScoreOfDominates | app/src/main/java/kittoku/osc/repository/ServerSorter.kt:94-108 | Against the same bounds, being at least as fast and at least as near never lowers the score. |
| ServerSorter.DominantServerScoresHigher | app/src/main/java/kittoku/osc/repository/ServerSorter.kt:82-108 | Within a batch, a server at least as fast and as near as another scores at least as high. |
| ServerSorter.ScoresHigherIsStrictWeakOrder | app/src/main/java/kittoku/osc/repository/ServerSorter.kt:148 | "Higher quality score" is a strict weak order. |
| ServerSorter.RankedScores | app/src/main/java/kittoku/osc/repository/ServerSorter.kt:147-148 | The sorted scores are a permutation of the computed scores, in non-increasing score order. |
| ServerSorter.RankedScoresStable | app/src/main/java/kittoku/osc/repository/ServerSorter.kt:148 | Entries with equal scores keep their input order, because `sortedByDescending` is stable. |
| ServerSorter.ServersOf | app/src/main/java/kittoku/osc/repository/ServerSorter.kt:158 | `map { it.server }`: the i-th server is the i-th score's server. |
| ServerSorter.ServersOfPermutation | app/src/main/java/kittoku/osc/repository/ServerSorter.kt:158 | Permuting the scores permutes their servers the same way. |
| ServerSorter.RankedAreBatchScores | app/src/main/java/kittoku/osc/repository/ServerSorter.kt:147-148 | Every ranked entry belongs to a reachable server and is that server's batch score. |
| ServerSorter.SortByScore | app/src/main/java/kittoku/osc/repository/ServerSorter.kt:144-162 | The result is a permutation of the reachable servers: only ping > 0, and none lost. The servers' batch scores never increase along the list. |
| ServerSorter.SortByScoreRanks | app/src/main/java/kittoku/osc/repository/ServerSorter.kt:147-158 | For a non-empty batch, the sorted servers are the servers of the ranked scores. |
| ServerSorter.GetTopServers | app/src/main/java/kittoku/osc/repository/ServerSorter.kt:167-169 | The first min(count, n) servers of the ranking, where n is the number of reachable servers; a negative count is refused. |
| ServerSorter.GetTopServersDefault | app/src/main/java/kittoku/osc/repository/ServerSorter.kt:167-169 | `getTopServers(servers)` with the default count: the first min(3, n) servers of the ranking. |
| ServerSorter.GetBestServer | app/src/main/java/kittoku/osc/repository/ServerSorter.kt:175-177 | `firstOrNull` of the ranking: None exactly when every server timed out; otherwise the first server of `sortByScore`, which is a reachable server of the input. |
| ServerSorter.BestServerScoresHighest | app/src/main/java/kittoku/osc/repository/ServerSorter.kt:175-177 | No reachable server of the batch has a higher batch score than the best server. |
| ServerSorter.CalculateScore | app/src/main/java/kittoku/osc/repository/ServerSorter.kt:132-135 | -1.0 for a timed-out server; otherwise its effective speed. |
| ServerSorter.FindByHost | app/src/main/java/kittoku/osc/repository/ServerSorter.kt:195 | `find` by host name: none exactly when no score has that host; otherwise the first score with that host. |
| ServerSorter.FirstWithHostUnique | app/src/main/java/kittoku/osc/repository/ServerSorter.kt:195 | There is only one first match. |
| ServerSorter.NoScoreForAbsentHost | app/src/main/java/kittoku/osc/repository/ServerSorter.kt:193-195 | A host no reachable server has is not found among the scores. |
| ServerSorter.DoubleToInt | app/src/main/java/kittoku/osc/repository/ServerSorter.kt:196 | `toInt()` gives an `Int`, and in 0..Int.MAX it is the floor. |
| ServerSorter.Percent | app/src/main/java/kittoku/osc/repository/ServerSorter.kt:196 | A 0..1 score becomes floor(100·score), within 0..100. |
| ServerSorter.GetDisplayScore | app/src/main/java/kittoku/osc/repository/ServerSorter.kt:193-197 | The displayed percentage is always within 0..100. |
| ServerSorter.DisplayScoreMeaning | app/src/main/java/kittoku/osc/repository/ServerSorter.kt:193-197 | The display is 0 for a host no reachable server of the batch has; otherwise it is floor(100·score) of the first server with that host. |
| ServerSorter.ExampleBounds | app/src/main/java/kittoku/osc/repository/ServerSorter.kt:82-85 | In the two-server example, the bounds are speed 100..300 and ping 50..150. |
| ServerSorter.ExampleScores | app/src/main/java/kittoku/osc/repository/ServerSorter.kt:94-108 | In the two-server example, A scores 0.4 and B scores 0.6. |
| ServerSorter.TwoServerScores | app/src/main/java/kittoku/osc/repository/ServerSorter.kt:70-118 | A at 100 bit/s and 50 ms and B at 300 bit/s and 150 ms, neither with sessions, score 0.4 and 0.6. |
| ServerSorter.TwoServerRankedScores | app/src/main/java/kittoku/osc/repository/ServerSorter.kt:148 | Ranking that pair puts B's score first and A's second. |
| ServerSorter.TwoServerRanking | app/src/main/java/kittoku/osc/repository/ServerSorter.kt:144-162 | `sortByScore` returns B, then A. |
| ServerSorter.ExactScoreDisplay | app/src/main/java/kittoku/osc/repository/ServerSorter.kt:94-108 | A server a quarter of the way up the speed range and 35% of the way down the latency range scores exactly 0.29, which displays as 29. |
| UpdateManager.VersionParts | app/src/main/java/kittoku/osc/update/UpdateManager.kt:245-246 | One number per dotted component, and at least one. Each is that component's `toIntOrNull() ?: 0`. |
| UpdateManager.NewerFrom | app/src/main/java/kittoku/osc/update/UpdateManager.kt:248-258 | The comparison loop returns true exactly when the first differing 0-padded component is larger in the new version. |
| UpdateManager.IsNewerVersion | app/src/main/java/kittoku/osc/update/UpdateManager.kt:243-263 | True exactly when the new version's padded parts are lexicographically greater than the current version's. |
| UpdateManager.NewerIrreflexive | app/src/main/java/kittoku/osc/update/UpdateManager.kt:250-258 | No part list is newer than itself. |
| UpdateManager.VersionIrreflexive | app/src/main/java/kittoku/osc/update/UpdateManager.kt:243-263 | `isNewerVersion(v, v)` is false for every v. |
| UpdateManager.NewerAsymmetric | app/src/main/java/kittoku/osc/update/UpdateManager.kt:248-256 | Two versions are never each newer than the other. |
| UpdateManager.NewerTransitive | app/src/main/java/kittoku/osc/update/UpdateManager.kt:248-256 | Newer-than is transitive. |
| UpdateManager.NewerTotal | app/src/main/java/kittoku/osc/update/UpdateManager.kt:248-258 | Two versions are either equal once padded, or one is newer than the other. |
| UpdateManager.NewerRespectsSameVersion | app/src/main/java/kittoku/osc/update/UpdateManager.kt:248-256 | Part lists equal after padding compare alike against every other list, in both positions. |
| UpdateManager.ComparesAlike | app/src/main/java/kittoku/osc/update/UpdateManager.kt:245-256 | Version strings whose parts are equal after padding compare alike against every version. |
| UpdateManager.AppendComponent | app/src/main/java/kittoku/osc/update/UpdateManager.kt:245-246 | Appending "." and a dot-free component appends that component's number to the parts. |
| UpdateManager.TrailingZeroIgnored | app/src/main/java/kittoku/osc/update/UpdateManager.kt:248-252 | A trailing ".0" never changes the outcome, in either argument. |
| UpdateManager.NonNumericIsZero | app/src/main/java/kittoku/osc/update/UpdateManager.kt:245-246 | A component that is not a signed decimal, or is one outside the `Int` range, compares exactly like "0". |
| UpdateManager.TrailingZeroNeverNewer | app/src/main/java/kittoku/osc/update/UpdateManager.kt:248-258 | "v" and "v.0" are never newer than each other. |
| UpdateManager.NonNumericNeverNewer | app/src/main/java/kittoku/osc/update/UpdateManager.kt:245-258 | "v.x" (x not a signed decimal in the `Int` range) and "v.0" are never newer than each other. |
| UpdateManager.FirstApk | app/src/main/java/kittoku/osc/update/UpdateManager.kt:75-83 | None exactly when no asset name ends in ".apk"; otherwise the first asset whose name does. |
| UpdateManager.ApkDownload | app/src/main/java/kittoku/osc/update/UpdateManager.kt:71-83 | The URL and size of the first ".apk" asset; without one, no URL and size 0. |
| UpdateManager.TagVersion | app/src/main/java/kittoku/osc/update/UpdateManager.kt:66 | A tag starting with "v" loses exactly that one "v"; any other tag is the version unchanged. |
| UpdateManager.TagVersionRoundTrip | app/src/main/java/kittoku/osc/update/UpdateManager.kt:66 | Reading the tag "v" + version gives the version back. |
| UpdateManager.CheckForUpdates | app/src/main/java/kittoku/osc/update/UpdateManager.kt:44-108 | An exception gives `error(cv, message or "Unknown error")`, and a non-2xx status gives `error(cv, "HTTP <code>")`. Otherwise there is no error, the latest version is the stripped tag, and an update is offered exactly when that is newer than the current version. The result is always coherent. |
| UpdateManager.CheckReportsRelease | app/src/main/java/kittoku/osc/update/UpdateManager.kt:66-95 | A successful check reports the release's notes, its date, and the first APK's URL and size. |
| UpdateManager.SameReleaseOffersNothing | app/src/main/java/kittoku/osc/update/UpdateManager.kt:66-85 | A release tagged "v" plus the installed version, or the installed version itself, offers no update. |
| UpdateManager.Progress | app/src/main/java/kittoku/osc/update/UpdateManager.kt:156-160 | A percentage is reported only when the content length is positive. While `totalRead <= contentLength` it is floor(100·read/length), within 0..100. |
| UpdateManager.ProgressQuotient | app/src/main/java/kittoku/osc/update/UpdateManager.kt:157 | The `Long` quotient lies in 0..100 when nothing overflows. |
| UpdateManager.ProgressMonotone | app/src/main/java/kittoku/osc/update/UpdateManager.kt:157 | More bytes read never lower the percentage. |
| UpdateManager.ProgressComplete | app/src/main/java/kittoku/osc/update/UpdateManager.kt:157 | The whole body reads as 100. |
| UpdateManager.TotalRead | app/src/main/java/kittoku/osc/update/UpdateManager.kt:149-154 | The running `Long` total of the chunks read. |
| UpdateManager.TotalReadIsSum | app/src/main/java/kittoku/osc/update/UpdateManager.kt:149-154 | Without overflow, the running total of every prefix is the exact byte count, and it grows. |
| UpdateManager.ProgressReports | app/src/main/java/kittoku/osc/update/UpdateManager.kt:152-162 | The download loop reports nothing for an unknown length. Otherwise it makes one report per chunk, equal to the percentage of the bytes read so far. |
| UpdateManager.ReportsClimb | app/src/main/java/kittoku/osc/update/UpdateManager.kt:152-162 | When the chunks add up to at most the length, the reports lie in 0..100 and never decrease. |
| UpdateManager.PrefixSums | app/src/main/java/kittoku/osc/update/UpdateManager.kt:154 | Longer prefixes of non-negative chunks hold at least as many bytes, without overflow. |
| UpdateManager.ReportsFinish | app/src/main/java/kittoku/osc/update/UpdateManager.kt:152-162 | When the chunks add up to the announced length, the final report is 100. |
| UpdateCheckResults.NoUpdate | app/src/main/java/kittoku/osc/update/UpdateCheckResult.kt:17-24 | `noUpdate(cv)`: no update and no error; the latest version equals the current version, cv; no URL, notes or date; apkSize 0. |
| UpdateCheckResults.Error | app/src/main/java/kittoku/osc/update/UpdateCheckResult.kt:26-34 | `error(cv, msg)`: no update, error = msg, currentVersion = cv; the latest version, URL, notes and date are all null, and apkSize is 0. |
| UpdateCheckResults.FactoriesAreCoherent | app/src/main/java/kittoku/osc/update/UpdateCheckResult.kt:6-34 | Both factories build coherent results, only `error` builds a failure, and the two never coincide. |
| HostnameHistory.GetHistory | app/src/main/java/kittoku/osc/repository/HostnameHistoryManager.kt:44-54 | The stored list, or empty when nothing is stored or the value cannot be decoded. |
| HostnameHistory.ClearHistory | app/src/main/java/kittoku/osc/repository/HostnameHistoryManager.kt:59-62 | After clearing, the history reads as empty. |
| HostnameHistory.FirstIndex | app/src/main/java/kittoku/osc/repository/HostnameHistoryManager.kt:26 | The position of the first occurrence. |
| HostnameHistory.RemoveFirst | app/src/main/java/kittoku/osc/repository/HostnameHistoryManager.kt:26 | `remove(h)` shortens the list by one when h is present, and returns the list unchanged when h is absent. |
| HostnameHistory.RemoveFirstMultiset | app/src/main/java/kittoku/osc/repository/HostnameHistoryManager.kt:26 | Exactly one h is taken away when there is one, and nothing else changes. |
| HostnameHistory.RemovedEntry | app/src/main/java/kittoku/osc/repository/HostnameHistoryManager.kt:26 | The entries left keep their relative order. |
| HostnameHistory.RemoveFirstNoDuplicates | app/src/main/java/kittoku/osc/repository/HostnameHistoryManager.kt:26 | On a duplicate-free list, removal keeps it duplicate-free and leaves no h. |
| HostnameHistory.Take | app/src/main/java/kittoku/osc/repository/HostnameHistoryManager.kt:32-34 | The trimming loop keeps the first min(n, size) entries. |
| HostnameHistory.Save | app/src/main/java/kittoku/osc/repository/HostnameHistoryManager.kt:19-39 | A blank name changes nothing. Otherwise the name comes first and there are at most 10 entries; the rest is a prefix of the old list with the name removed, and it is the whole of that list unless the cap was reached. |
| HostnameHistory.SaveNewName | app/src/main/java/kittoku/osc/repository/HostnameHistoryManager.kt:26-34 | A name not yet in the history goes in front; the old entries follow in their order, and only the oldest beyond 10 drop off. |
| HostnameHistory.SaveHostname | app/src/main/java/kittoku/osc/repository/HostnameHistoryManager.kt:19-39 | A blank name writes nothing. Otherwise the stored list becomes the saved list. |
| HostnameHistory.SaveNoDuplicates | app/src/main/java/kittoku/osc/repository/HostnameHistoryManager.kt:26-34 | A duplicate-free history stays duplicate-free. |
| HostnameHistory.SaveIdempotent | app/src/main/java/kittoku/osc/repository/HostnameHistoryManager.kt:19-39 | Saving the same name twice in a row is the same as saving it once. |
| HostnameHistory.SaveAddsOnlyTheName | app/src/main/java/kittoku/osc/repository/HostnameHistoryManager.kt:26-34 | Every entry after saving is the saved name or was already in the history. |
| HostnameHistory.SaveAfterClear | app/src/main/java/kittoku/osc/repository/HostnameHistoryManager.kt:44-62 | After clearing, saving gives the one-entry list. An undecodable store behaves like an empty one. |
| ConnectionStateManager.SetState | app/src/main/java/kittoku/osc/repository/ConnectionStateManager.kt:40-57 | The state becomes the new state. The name is replaced only when one is passed. The manual flag is set exactly when `isManual` holds and the state is CONNECTING or CONNECTED. One broadcast carries the state's name and the resulting server name. |
| ConnectionStateManager.Reset | app/src/main/java/kittoku/osc/repository/ConnectionStateManager.kt:69-71 | DISCONNECTED and not manual, keeping the previous server name, and broadcasting "DISCONNECTED". |
| ConnectionStateManager.GetCurrentState | app/src/main/java/kittoku/osc/repository/ConnectionStateManager.kt:62-64 | The state held by the manager, which CurrentStateAfterRun ties to the last call made. |
| ConnectionStateManager.CurrentStateAfterRun | app/src/main/java/kittoku/osc/repository/ConnectionStateManager.kt:40-71 | After a run of calls, `getCurrentState()` is the state the last call set, or the starting state when there was no call. |
| ConnectionStateManager.InitialIsDisconnected | app/src/main/java/kittoku/osc/repository/ConnectionStateManager.kt:28-35 | At start-up the state is DISCONNECTED, with no server and not manual. |
| ConnectionStateManager.NamesIdentifyStates | app/src/main/java/kittoku/osc/repository/ConnectionStateManager.kt:21-26 | The broadcast names of the four states are pairwise different. |
| ConnectionStateManager.SetStateIdempotent | app/src/main/java/kittoku/osc/repository/ConnectionStateManager.kt:40-57 | Repeating the same `setState` call leaves the manager and the broadcast as the first call did. |
| ConnectionStateManager.ApplyFacts | app/src/main/java/kittoku/osc/repository/ConnectionStateManager.kt:40-71 | Any single call sets its target state, names it in its broadcast and keeps the manager coherent. |
| ConnectionStateManager.RunManager | app/src/main/java/kittoku/osc/repository/ConnectionStateManager.kt:40-71 | After a run of calls, the state is the last call's, the server name is the last one passed, and the manager stays coherent. |
| ConnectionStateManager.RunBroadcasts | app/src/main/java/kittoku/osc/repository/ConnectionStateManager.kt:52-56 | A run sends exactly one broadcast per call, each naming the state its call set. |
| ConnectionStateManager.RunFacts | app/src/main/java/kittoku/osc/repository/ConnectionStateManager.kt:40-71 | The two facts above, combined for any run of calls. |
| ServerListAdapter.Utf16LengthTwo | app/src/main/java/kittoku/osc/adapter/ServerListAdapter.kt:58 | A JVM length of 2 means two BMP characters or one supplementary character. |
| ServerListAdapter.Indicator | app/src/main/java/kittoku/osc/adapter/ServerListAdapter.kt:61-66 | The offset code point `cp - 0x41 + 0x1F1E6`, or nothing exactly when it exceeds U+10FFFF and `toChars` throws. |
| ServerListAdapter.LetterIndicator | app/src/main/java/kittoku/osc/adapter/ServerListAdapter.kt:60-62 | An ASCII letter of either case maps to the regional indicator `0x1F1E6 + (upper(letter) - 'A')`. |
| ServerListAdapter.FlagEmoji | app/src/main/java/kittoku/osc/adapter/ServerListAdapter.kt:57-67 | A length other than 2 gives the globe, and two ASCII letters give their two regional indicators. The result is the globe or two characters. |
| ServerListAdapter.FlagIgnoresCase | app/src/main/java/kittoku/osc/adapter/ServerListAdapter.kt:60 | Upper- and lower-case codes give the same flag. |
| ServerListAdapter.BmpPairGivesFlag | app/src/main/java/kittoku/osc/adapter/ServerListAdapter.kt:58-63 | Two BMP characters never give the globe. |
| ServerListAdapter.OverflowGivesGlobe | app/src/main/java/kittoku/osc/adapter/ServerListAdapter.kt:61-66 | A high supplementary character overflows past U+10FFFF and gives the globe instead of an exception. |
| ServerListAdapter.SpeedMbps | app/src/main/java/kittoku/osc/adapter/ServerListAdapter.kt:45 | `speed / 1000000` rounded toward zero, for either sign. |
| ServerListAdapter.BindCard | app/src/main/java/kittoku/osc/adapter/ServerListAdapter.kt:36-52 | The card shows the flag of `country` and the text "country\nhost". |
| ServerListAdapter.FlagUsesCountryName | app/src/main/java/kittoku/osc/adapter/ServerListAdapter.kt:40 | The flag comes from the long country name, so a name not 2 UTF-16 units long always shows the globe. |
| ServerListAdapter.SpeedLabelRoundTrip | app/src/main/java/kittoku/osc/adapter/ServerListAdapter.kt:45-46 | The speed label is the megabit count followed by " Mbps", and the count parses back. |
| ServerListAdapter.SessionsLabelRoundTrip | app/src/main/java/kittoku/osc/adapter/ServerListAdapter.kt:48 | The sessions label is the count followed by " Sessions", and for a `Long` count the text before it parses back to the count. |
| ServerListAdapter.UpdateList | app/src/main/java/kittoku/osc/adapter/ServerListAdapter.kt:17-20 | The list is replaced wholesale. The item count is the new list's length, and every position binds the new list's server. |
| ServerListAdapter.ItemCount | app/src/main/java/kittoku/osc/adapter/ServerListAdapter.kt:54 | `getItemCount` is the number of servers in the list. |
| Text.Trim | app/src/main/java/kittoku/osc/repository/VpnRepository.kt:163 | No surrounding whitespace remains, and the result is empty exactly for a blank string. |
| Text.TrimInfix | app/src/main/java/kittoku/osc/repository/VpnRepository.kt:163 | The trimmed string is an infix of the original that starts after the leading whitespace. |
| Text.TrimCutsWhitespace | app/src/main/java/kittoku/osc/repository/VpnRepository.kt:163 | Everything trimmed away, at either end, is whitespace. |
| Text.TrimNoOp | app/src/main/java/kittoku/osc/repository/VpnRepository.kt:163 | A string with no whitespace at either end is left unchanged. |
| Text.TrimIdempotent | app/src/main/java/kittoku/osc/repository/VpnRepository.kt:163 | Trimming twice is trimming once. |
| Text.Split | app/src/main/java/kittoku/osc/repository/VpnRepository.kt:148 | At least one part, and no part contains the delimiter. |
| Text.JoinSplit | app/src/main/java/kittoku/osc/repository/VpnRepository.kt:148 | Joining the parts of a split gives the string back. |
| Text.SplitJoin | app/src/main/java/kittoku/osc/repository/VpnRepository.kt:148 | Splitting delimiter-free parts joined by the delimiter gives the parts back. |
| Text.Lines | app/src/main/java/kittoku/osc/repository/VpnRepository.kt:109 | At least one line, and no line contains a line break; text without a break is a single line. |
| Text.LinesAfterBreak | app/src/main/java/kittoku/osc/repository/VpnRepository.kt:109 | After break-free text, an LF, a CRLF, or a CR not followed by LF ends exactly one line, and the rest of the text is cut the same way. |
| Text.JoinLines | app/src/main/java/kittoku/osc/repository/VpnRepository.kt:109 | For text broken only by LF, joining the lines with LF gives the text back. |
| Text.LinesOfBlank | app/src/main/java/kittoku/osc/repository/VpnRepository.kt:109 | Every line of a blank text is blank. |
| Text.RemovePrefix | app/src/main/java/kittoku/osc/update/UpdateManager.kt:66 | One copy of the prefix is removed when present; otherwise the string is unchanged. |
| Text.UpperAsciiString | app/src/main/java/kittoku/osc/adapter/ServerListAdapter.kt:60 | Upper-casing is applied character by character and keeps the length. |
| Decimal.ParseSigned | app/src/main/java/kittoku/osc/repository/VpnRepository.kt:181-190 | A value exactly for an optional `+` or `-` followed by at least one digit whose signed value lies in the type's range, and then that signed value. |
| Decimal.PlusSignIgnored | app/src/main/java/kittoku/osc/repository/VpnRepository.kt:181-190 | A leading `+` in front of digits parses like the digits alone. |
| Decimal.MinusSignNegates | app/src/main/java/kittoku/osc/repository/VpnRepository.kt:181-190 | A leading `-` in front of digits gives minus their value, when that is in range. |
| Decimal.LoneSignRejected | app/src/main/java/kittoku/osc/repository/VpnRepository.kt:181-190 | "+" and "-" on their own are not numbers. |
| Decimal.StrayCharRejected | app/src/main/java/kittoku/osc/repository/VpnRepository.kt:181-190 | Any non-digit after the first character, such as the unit in "5ms", makes the string unparsable. |
| Decimal.ToIntOrNull | app/src/main/java/kittoku/osc/repository/VpnRepository.kt:181 | A value exactly for a signed decimal whose value fits in an `Int`, and then that value; `null` for anything else, including the empty string and a bare sign. |
| Decimal.ToLongOrNull | app/src/main/java/kittoku/osc/repository/VpnRepository.kt:184-190 | A value exactly for a signed decimal whose value fits in a `Long`, and then that value; `null` for anything else, including the empty string and a bare sign. |
| Decimal.ParseDecimalString | app/src/main/java/kittoku/osc/repository/VpnRepository.kt:181-190 | Parsing the rendering of an in-range number gives it back. |
| Decimal.ToIntRoundTrip | app/src/main/java/kittoku/osc/repository/VpnRepository.kt:181 | `toIntOrNull` and `toLongOrNull` invert the rendering of an `Int`. |
| Decimal.DecimalString | app/src/main/java/kittoku/osc/adapter/ServerListAdapter.kt:46 | A non-empty rendering without superfluous leading zeros: canonical digits, after a '-' for negatives, and never "-0". |
| Decimal.NatString | app/src/main/java/kittoku/osc/adapter/ServerListAdapter.kt:46 | The shortest digits of a natural number: canonical, starting with '0' only for 0, with the number as their value. |
| Decimal.CanonicalIsNatString | app/src/main/java/kittoku/osc/adapter/ServerListAdapter.kt:46 | Every digit string without a superfluous leading zero is the rendering of its own value, so the rendering is unique. |
| KotlinInts.WrapLong | app/src/main/java/kittoku/osc/repository/ServerSorter.kt:124 | A `Long` congruent to the exact value modulo 2^64, and equal to it when it fits. |
| KotlinInts.ToInt | app/src/main/java/kittoku/osc/update/UpdateManager.kt:157 | `Long.toInt()`: an `Int` congruent modulo 2^32, and equal when it fits. |
| KotlinInts.TruncDiv | app/src/main/java/kittoku/osc/adapter/ServerListAdapter.kt:45 | The JVM quotient: its magnitude is the floor of the magnitudes' quotient, and its sign is the product of the operands' signs. |
| StableSort.Sort | app/src/main/java/kittoku/osc/repository/VpnRepository.kt:136-139 | The result is sorted and a permutation of the input. |
| StableSort.SortStable | app/src/main/java/kittoku/osc/repository/VpnRepository.kt:136-139 | Elements that tie keep their relative order. |
| StableSort.MapPermutation | app/src/main/java/kittoku/osc/repository/ServerSorter.kt:158 | Mapping a permutation gives a permutation of the images. |

## Left out

- Network and platform code: OkHttp requests, `org.json` decoding, SharedPreferences, file streaming, `installApk`, LiveData and LocalBroadcastManager delivery, and logging. These calls into library code are not modelled; their results enter as parameters.
- `getCurrentVersion` and `shouldAutoCheck` in UpdateManager.kt: they read `BuildConfig`, the package manager and the preferences, and hold no logic of their own.
- PingUpdateManager.kt and the UI files (fragments, activities, the update dialog, preferences): view and lifecycle wiring around the core.
- The `setState` update is applied at once. The deferral of `postValue` is not modelled.
- `getCurrentState`'s fallback to DISCONNECTED: the live data starts non-null and is only ever set to a state, so the fallback cannot be reached. The model returns the stored state.
- The `catch` branches in `isNewerVersion` and in the per-line loop of `parseCsv`: nothing inside them can throw, so those paths are unreachable.
- ServerSorter.CalculateScores: it requires every reachable server to have `sessions + 1 != 0` (`Scorable`). Only a session count of -1 makes that divisor zero; the app then gets an infinite or NaN speed, which has no `real` counterpart. (`Long.MAX_VALUE + 1` wraps to `Long.MIN_VALUE`, which is not zero.)
- ServerSorter.SortByScore, ServerSorter.RankedScores, ServerSorter.GetTopServers, ServerSorter.GetBestServer and ServerSorter.GetDisplayScore require the same `Scorable` condition, for the same reason.
- ServerSorter.EffectiveSpeed and ServerSorter.CalculateScore require a non-zero `sessions + 1` for a reachable server, for the same reason.
- ServerSorter.GetDisplayScore: its own contract only bounds the percentage. What the percentage is (floor of 100 times the first same-named server's score, or 0) is stated in ServerSorter.DisplayScoreMeaning.
- ServerSorter.GetTopServers: a negative `count` makes Kotlin's `take` throw. The model returns no list there.
- IEEE-754 rounding: scores are exact reals. The model and the app can display different percentages. A normalised speed of 0.25 and a normalised latency of 0.35 give an exact score of 0.29, which the model displays as 29 (ServerSorter.ExactScoreDisplay). In binary64, `score * 100` is 28.999999999999996 and the app displays 28.
- The feed parser's literal worked example (`a.example,1.2.3.4,_,50,10000000,US,US,9`) is not restated as a lemma. VpnRepository.ParseJoinedColumns states it for every such line, and VpnRepository.FixHostNameExample gives the host part.
- UpdateManager.SameReleaseOffersNothing: an installed version that itself starts with "v" and is tagged without a second "v" is excluded. The tag's "v" is stripped, so such a release is compared against a shorter string.
- Case-insensitive comparisons (`equals`/`endsWith`/`contains` with `ignoreCase`) and `uppercase(Locale.ROOT)` in `getFlagEmoji` are modelled for ASCII letters only. Other letters are compared as they are.
- Decimal.ParseSigned, Decimal.ToIntOrNull and Decimal.ToLongOrNull accept only the ASCII digits 0-9. Kotlin reads digits with `Character.digit`, which also accepts other Unicode decimal digits (Arabic-Indic, fullwidth and so on). On such input the model gives no number, so a feed's ping, speed or sessions column and a version component written that way read as 0 in the model.
- Whitespace for `trim`/`isBlank` is a fixed set of characters: the JVM's `Character.isWhitespace` and space separators.

=== FILE: connection_state.dfy ===
/**
 * The app-wide connection status: one of four states, the name of the
 * server in use and whether the user started the connection by hand. Each
 * update is applied at once (the deferral of `postValue` is not modelled)
 * and produces the broadcast the fragments listen for.
 */
module ConnectionStateManager {
  import opened Wrappers

  datatype ConnectionState = Disconnected | Connecting | Connected | Disconnecting {

    /** The enum constant's `name`, as put into the broadcast. */
    function Name(): (n: string)
      ensures |n| > 0
    {
      match this
      case Disconnected => "DISCONNECTED"
      case Connecting => "CONNECTING"
      case Connected => "CONNECTED"
      case Disconnecting => "DISCONNECTING"
    }
  }

  const ACTION_STATE_CHANGED: string := "kittoku.osc.CONNECTION_STATE_CHANGED"

  /** The state, the current server's name, and the manual-connection flag. */
  datatype Manager = Manager(state: ConnectionState, serverName: Option<string>, isManualConnection: bool)

  /** The broadcast intent: its action and its `state` and `server_name` extras. */
  datatype StateChanged = StateChanged(action: string, state: string, serverName: Option<string>)

  /** The manager after an update, and the one broadcast the update sent. */
  datatype Update = Update(manager: Manager, broadcast: StateChanged)

  /** At start-up: disconnected, no server, not manual. */
  const INITIAL: Manager := Manager(Disconnected, None, false)

  /** The states in which a connection can be marked as manual. */
  predicate MayBeManual(s: ConnectionState) {
    s == Connecting || s == Connected
  }

  /** What every reachable manager satisfies: only a live connection is marked manual. */
  predicate Coherent(m: Manager) {
    m.isManualConnection ==> MayBeManual(m.state)
  }

  /**
   * `setState(newState, serverName, isManual)`: the state is replaced, the
   * server name only when a new one is given, and the manual flag is kept
   * only for a connecting or connected state. One broadcast carries the
   * new state's name and the resulting server name.
   */
  function SetState(m: Manager, newState: ConnectionState, serverName: Option<string>, isManual: bool): (u: Update)
    ensures u.manager.state == newState && Coherent(u.manager)
    ensures serverName.Some? ==> u.manager.serverName == serverName
    ensures serverName.None? ==> u.manager.serverName == m.serverName
    ensures u.manager.isManualConnection <==> isManual && MayBeManual(newState)
    ensures u.broadcast == StateChanged(ACTION_STATE_CHANGED, newState.Name(), u.manager.serverName)
  {
    var name := if serverName.Some? then serverName else m.serverName;
    var manual := if newState == Connecting || newState == Connected then isManual else false;
    var next := Manager(newState, name, manual);
    Update(next, StateChanged(ACTION_STATE_CHANGED, newState.Name(), name))
  }

  /** `getCurrentState()`: the state last set. */
  function GetCurrentState(m: Manager): (s: ConnectionState)
    ensures s == m.state
  {
    m.state
  }

  /** `reset()`: disconnected and not manual; the server name stays, since none is passed. */
  function Reset(m: Manager): (u: Update)
    ensures u.manager == Manager(Disconnected, m.serverName, false)
    ensures u.broadcast.state == Disconnected.Name()
  {
    SetState(m, Disconnected, None, false)
  }

  /** The start-up manager is disconnected and coherent. */
  lemma InitialIsDisconnected()
    ensures GetCurrentState(INITIAL) == Disconnected && Coherent(INITIAL)
    ensures INITIAL.serverName.None? && !INITIAL.isManualConnection
  {
  }

  /** Different states broadcast different names, so a listener can tell them apart. */
  lemma NamesIdentifyStates(a: ConnectionState, b: ConnectionState)
    ensures a.Name() == b.Name() <==> a == b
  {
  }

  /** Setting the same state twice leaves the manager as setting it once. */
  lemma SetStateIdempotent(m: Manager, s: ConnectionState, name: Option<string>, isManual: bool)
    ensures var once := SetState(m, s, name, isManual);
      SetState(once.manager, s, name, isManual) == once
  {
  }

  /** A call the fragments and the service make. */
  datatype Call =
    | SetStateCall(state: ConnectionState, serverName: Option<string>, isManual: bool)
    | ResetCall

  function Apply(m: Manager, c: Call): (u: Update) {
    match c
    case SetStateCall(s, name, manual) => SetState(m, s, name, manual)
    case ResetCall => Reset(m)
  }

  /** The state a call sets. */
  function TargetState(c: Call): ConnectionState {
    match c
    case SetStateCall(s, _, _) => s
    case ResetCall => Disconnected
  }

  /** The server name a call passes, if any. */
  function PassedName(c: Call): Option<string> {
    match c
    case SetStateCall(_, name, _) => name
    case ResetCall => None
  }

  /** The last name passed by any of the calls, or `previous` when none passed one. */
  function LastName(calls: seq<Call>, previous: Option<string>): Option<string> {
    if |calls| == 0 then previous
    else
      var last := PassedName(calls[|calls| - 1]);
      if last.Some? then last else LastName(calls[..|calls| - 1], previous)
  }

  /** The manager after a run of calls, and the broadcasts they sent in order. */
  datatype Run = Run(manager: Manager, broadcasts: seq<StateChanged>)

  function RunCalls(m: Manager, calls: seq<Call>): Run {
    if |calls| == 0 then Run(m, [])
    else
      var before := RunCalls(m, calls[..|calls| - 1]);
      var u := Apply(before.manager, calls[|calls| - 1]);
      Run(u.manager, before.broadcasts + [u.broadcast])
  }

  /** One call: it sets its target state, names it in its broadcast, and keeps the manager coherent. */
  lemma ApplyFacts(m: Manager, c: Call)
    ensures var u := Apply(m, c);
      && u.manager.state == TargetState(c) && Coherent(u.manager)
      && u.broadcast.state == TargetState(c).Name()
      && u.manager.serverName == (if PassedName(c).Some? then PassedName(c) else m.serverName)
  {
  }

  /** The manager after a run: the last call's state, the last name passed, still coherent. */
  lemma {:induction false} RunManager(m: Manager, calls: seq<Call>)
    requires Coherent(m)
    ensures var r := RunCalls(m, calls).manager;
      && (|calls| > 0 ==> r.state == TargetState(calls[|calls| - 1]))
      && r.serverName == LastName(calls, m.serverName)
      && Coherent(r)
  {
    if |calls| > 0 {
      var init, last := calls[..|calls| - 1], calls[|calls| - 1];
      RunManager(m, init);
      var before := RunCalls(m, init).manager;
      ApplyFacts(before, last);
      assert RunCalls(m, calls).manager == Apply(before, last).manager;
    }
  }

  /** `getCurrentState()` after a run of calls: the state the last call set, or the one before any call. */
  lemma CurrentStateAfterRun(m: Manager, calls: seq<Call>)
    requires Coherent(m)
    ensures GetCurrentState(RunCalls(m, calls).manager) == if |calls| == 0 then m.state else TargetState(calls[|calls| - 1])
  {
    RunManager(m, calls);
  }

  /** The broadcasts of a run: one per call, each naming the state its call set. */
  lemma {:induction false} RunBroadcasts(m: Manager, calls: seq<Call>)
    ensures var b := RunCalls(m, calls).broadcasts;
      |b| == |calls| && forall i :: 0 <= i < |calls| ==> b[i].state == TargetState(calls[i]).Name()
  {
    if |calls| > 0 {
      var init, last := calls[..|calls| - 1], calls[|calls| - 1];
      RunBroadcasts(m, init);
      var before := RunCalls(m, init);
      var u := Apply(before.manager, last);
      ApplyFacts(before.manager, last);
      var broadcasts := before.broadcasts + [u.broadcast];
      assert RunCalls(m, calls).broadcasts == broadcasts;
      forall i | 0 <= i < |calls| ensures broadcasts[i].state == TargetState(calls[i]).Name() {
        if i < |init| {
          assert broadcasts[i] == before.broadcasts[i] && calls[i] == init[i];
        } else {
          assert broadcasts[i] == u.broadcast && calls[i] == last;
        }
      }
    }
  }

  /**
   * Over any run of calls: exactly one broadcast per call, each naming the
   * state its call set; the final state is the last call's; the server name
   * is the last one passed (or the starting one); and the manager stays
   * coherent.
   */
  lemma RunFacts(m: Manager, calls: seq<Call>)
    requires Coherent(m)
    ensures var r := RunCalls(m, calls);
      && |r.broadcasts| == |calls|
      && (forall i :: 0 <= i < |calls| ==> r.broadcasts[i].state == TargetState(calls[i]).Name())
      && (|calls| > 0 ==> r.manager.state == TargetState(calls[|calls| - 1]))
      && r.manager.serverName == LastName(calls, m.serverName)
      && Coherent(r.manager)
  {
    RunManager(m, calls);
    RunBroadcasts(m, calls);
  }
}

=== FILE: decimal.dfy ===
/**
 * Kotlin's `String.toIntOrNull()` / `toLongOrNull()` (radix 10) and the
 * decimal rendering of a number in a string template (`"$n"`).
 */
module Decimal {
  import opened Wrappers
  import opened KotlinInts

  predicate IsDigit(c: char) { '0' <= c <= '9' }

  predicate AllDigits(s: string) {
    forall i :: 0 <= i < |s| ==> IsDigit(s[i])
  }

  function DigitValue(c: char): nat
    requires IsDigit(c)
  {
    c as int - '0' as int
  }

  function DigitChar(d: nat): (c: char)
    requires d < 10
    ensures IsDigit(c) && DigitValue(c) == d
  {
    ('0' as int + d) as char
  }

  /** The value of a run of decimal digits, most significant first. */
  function DigitsValue(ds: string): nat
    requires AllDigits(ds)
  {
    if |ds| == 0 then 0 else DigitsValue(ds[..|ds| - 1]) * 10 + DigitValue(ds[|ds| - 1])
  }

  /** An optional `+` or `-` followed by at least one decimal digit. */
  predicate IsSignedDecimal(s: string) {
    || (|s| > 0 && AllDigits(s))
    || (|s| > 1 && (s[0] == '+' || s[0] == '-') && AllDigits(s[1..]))
  }

  /** The value of a signed decimal: the digits' value, negated after a `-`. */
  function SignedValue(s: string): int
    requires IsSignedDecimal(s)
  {
    if s[0] == '-' then 0 - DigitsValue(s[1..])
    else if s[0] == '+' then DigitsValue(s[1..])
    else DigitsValue(s)
  }

  /** A signed decimal whose value lies in `lo..hi`; anything else is `None`. */
  function ParseSigned(s: string, lo: int, hi: int): (r: Option<int>)
    ensures r.Some? <==> IsSignedDecimal(s) && lo <= SignedValue(s) <= hi
    ensures r.Some? ==> r.value == SignedValue(s)
  {
    if |s| == 0 then None
    else
      var negative := s[0] == '-';
      var digits := if s[0] == '-' || s[0] == '+' then s[1..] else s;
      if |digits| == 0 || !AllDigits(digits) then None
      else
        var v: int := if negative then 0 - DigitsValue(digits) as int else DigitsValue(digits);
        if lo <= v <= hi then Some(v) else None
  }

  /** `toIntOrNull()`: `None` also when the value does not fit in 32 bits. */
  function ToIntOrNull(s: string): (r: Option<int>)
    ensures r.Some? <==> IsSignedDecimal(s) && IsInt(SignedValue(s))
    ensures r.Some? ==> r.value == SignedValue(s)
  {
    ParseSigned(s, INT_MIN, INT_MAX)
  }

  /** `toLongOrNull()`: `None` also when the value does not fit in 64 bits. */
  function ToLongOrNull(s: string): (r: Option<int>)
    ensures r.Some? <==> IsSignedDecimal(s) && IsLong(SignedValue(s))
    ensures r.Some? ==> r.value == SignedValue(s)
  {
    ParseSigned(s, LONG_MIN, LONG_MAX)
  }

  /** A `+` in front of digits changes nothing. */
  lemma PlusSignIgnored(d: string, lo: int, hi: int)
    requires |d| > 0 && AllDigits(d)
    ensures ParseSigned("+" + d, lo, hi) == ParseSigned(d, lo, hi)
  {
    assert ("+" + d)[0] == '+' && ("+" + d)[1..] == d;
  }

  /** A `-` in front of digits negates their value. */
  lemma MinusSignNegates(d: string, lo: int, hi: int)
    requires |d| > 0 && AllDigits(d)
    ensures ParseSigned("-" + d, lo, hi) == (if lo <= 0 - DigitsValue(d) <= hi then Some(0 - DigitsValue(d)) else None)
  {
    assert ("-" + d)[0] == '-' && ("-" + d)[1..] == d;
  }

  /** A sign on its own is not a number. */
  lemma LoneSignRejected(lo: int, hi: int)
    ensures ParseSigned("+", lo, hi) == None && ParseSigned("-", lo, hi) == None
  {
  }

  /** Anything but a digit after the first character makes the whole string unparsable. */
  lemma StrayCharRejected(s: string, i: nat, lo: int, hi: int)
    requires 0 < i < |s| && !IsDigit(s[i])
    ensures ParseSigned(s, lo, hi) == None
  {
    assert !AllDigits(s);
    if |s| > 1 {
      assert s[1..][i - 1] == s[i];
    }
  }

  /** `toLongOrNull() ?: 0`: the value when `s` is a `Long`, otherwise 0. */
  function LongOrZero(s: string): (n: int)
    ensures IsLong(n)
  {
    ToLongOrNull(s).GetOr(0)
  }

  /** `toIntOrNull() ?: 0`: the value when `s` is an `Int`, otherwise 0. */
  function IntOrZero(s: string): (n: int)
    ensures IsInt(n)
  {
    ToIntOrNull(s).GetOr(0)
  }

  /** Digits without a superfluous leading zero: "0" itself, or a first digit other than '0'. */
  predicate CanonicalDigits(ds: string) {
    |ds| > 0 && AllDigits(ds) && (|ds| == 1 || ds[0] != '0')
  }

  /** The shortest decimal digits of `n`. */
  function NatString(n: nat): (s: string)
    ensures CanonicalDigits(s)
    ensures DigitsValue(s) == n
    ensures s[0] == '0' <==> n == 0
  {
    if n < 10 then [DigitChar(n)]
    else
      var s := NatString(n / 10) + [DigitChar(n % 10)];
      assert s[..|s| - 1] == NatString(n / 10);
      s
  }

  /** Digits that do not start with '0' have a positive value. */
  lemma {:induction false} LeadingDigitPositive(ds: string)
    requires |ds| > 0 && AllDigits(ds) && ds[0] != '0'
    ensures DigitsValue(ds) >= 1
    decreases |ds|
  {
    if |ds| > 1 {
      var init := ds[..|ds| - 1];
      assert init[0] == ds[0];
      LeadingDigitPositive(init);
    }
  }

  /** Every canonical digit string is the rendering of its own value, so the rendering is unique. */
  lemma {:induction false} CanonicalIsNatString(ds: string)
    requires CanonicalDigits(ds)
    ensures NatString(DigitsValue(ds)) == ds
    decreases |ds|
  {
    var n := DigitsValue(ds);
    if |ds| > 1 {
      var init, last := ds[..|ds| - 1], ds[|ds| - 1];
      assert init[0] == ds[0];
      LeadingDigitPositive(init);
      assert n / 10 == DigitsValue(init) && n % 10 == DigitValue(last);
      CanonicalIsNatString(init);
      assert ds == init + [last];
    }
  }

  /** A number as a string template renders it: a `-` for negatives, no leading zeros. */
  function DecimalString(n: int): (s: string)
    ensures |s| > 0
    ensures n >= 0 ==> CanonicalDigits(s)
    ensures n < 0 ==> s[0] == '-' && CanonicalDigits(s[1..]) && s[1] != '0'
  {
    if n < 0 then
      var s := "-" + NatString(0 - n);
      assert s[1..] == NatString(0 - n);
      s
    else NatString(n)
  }

  /** Parsing a rendered number gives the number back whenever it is in range. */
  lemma ParseDecimalString(n: int, lo: int, hi: int)
    requires lo <= n <= hi
    ensures ParseSigned(DecimalString(n), lo, hi) == Some(n)
  {
    if n < 0 {
      assert DecimalString(n)[1..] == NatString(-n);
    }
  }

  /** `toIntOrNull` and `toLongOrNull` invert the rendering of their own types. */
  lemma ToIntRoundTrip(n: int)
    requires IsInt(n)
    ensures ToIntOrNull(DecimalString(n)) == Some(n)
    ensures ToLongOrNull(DecimalString(n)) == Some(n)
  {
    ParseDecimalString(n, INT_MIN, INT_MAX);
    ParseDecimalString(n, LONG_MIN, LONG_MAX);
  }
}

=== FILE: hostname_history.dfy ===
/**
 * The most-recently-used list of host names typed into the manual-connect
 * screen. The preference that stores it is modelled as a value: absent, a
 * decodable JSON array of strings, or anything else.
 */
module HostnameHistory {
  import opened Text

  const MAX_HISTORY_SIZE: nat := 10

  /** What the `hostname_history` preference holds. */
  datatype Stored =
    | Absent
    | Entries(names: seq<string>)
    | Undecodable

  /** `getHistory`: the stored names, or none when the value is missing or cannot be decoded. */
  function GetHistory(stored: Stored): (h: seq<string>)
    ensures stored.Entries? ==> h == stored.names
    ensures !stored.Entries? ==> h == []
  {
    match stored
    case Entries(names) => names
    case _ => []
  }

  /** `clearHistory`: the preference is removed. */
  function ClearHistory(stored: Stored): (r: Stored)
    ensures GetHistory(r) == []
  {
    Absent
  }

  predicate NoDuplicates<T(==)>(xs: seq<T>) {
    forall i, j :: 0 <= i < j < |xs| ==> xs[i] != xs[j]
  }

  /** No entry of `xs` is `h`. */
  predicate Missing<T(==)>(xs: seq<T>, h: T) {
    forall i :: 0 <= i < |xs| ==> xs[i] != h
  }

  /** The position of the first `h` in `xs`. */
  function FirstIndex<T(==)>(xs: seq<T>, h: T): (i: nat)
    requires !Missing(xs, h)
    ensures i < |xs| && xs[i] == h
    ensures forall j :: 0 <= j < i ==> xs[j] != h
  {
    if xs[0] == h then 0
    else
      var i := 1 + FirstIndex(xs[1..], h);
      assert forall j :: 1 <= j <= i ==> xs[j] == xs[1..][j - 1];
      i
  }

  /**
   * `MutableList.remove(h)`: only the first occurrence goes, the others
   * keep their order, and a list without `h` is returned as it is.
   */
  function RemoveFirst<T(==)>(xs: seq<T>, h: T): (r: seq<T>)
    ensures |r| == if Missing(xs, h) then |xs| else |xs| - 1
    ensures Missing(xs, h) ==> r == xs
  {
    if Missing(xs, h) then xs
    else
      var i := FirstIndex(xs, h);
      xs[..i] + xs[i + 1..]
  }

  /** The first `n` entries, or all of them when there are fewer. */
  function Take<T(==)>(xs: seq<T>, n: nat): (r: seq<T>)
    ensures |r| <= n && |r| <= |xs| && r == xs[..|r|]
    ensures |xs| <= n ==> r == xs
    ensures |xs| > n ==> |r| == n
  {
    if |xs| <= n then xs else xs[..n]
  }

  /**
   * The list logic of `saveHostname`: a blank name changes nothing; any
   * other name moves (or is added) to the front, and the list is cut to
   * `MAX_HISTORY_SIZE` entries.
   */
  function Save(history: seq<string>, hostname: string): (r: seq<string>)
    ensures IsBlank(hostname) ==> r == history
    ensures !IsBlank(hostname) ==> 0 < |r| <= MAX_HISTORY_SIZE && r[0] == hostname
    ensures !IsBlank(hostname) ==> r[1..] <= RemoveFirst(history, hostname)
    ensures !IsBlank(hostname) ==> |r| == MAX_HISTORY_SIZE || r[1..] == RemoveFirst(history, hostname)
  {
    if IsBlank(hostname) then history
    else Take([hostname] + RemoveFirst(history, hostname), MAX_HISTORY_SIZE)
  }

  /**
   * A name not yet in the history goes in front of the old entries, which
   * keep their order; only the oldest ones beyond the limit drop off.
   */
  lemma SaveNewName(history: seq<string>, hostname: string)
    requires !IsBlank(hostname) && Missing(history, hostname)
    ensures var r := Save(history, hostname);
      r[0] == hostname && |r| == if |history| < MAX_HISTORY_SIZE then |history| + 1 else MAX_HISTORY_SIZE
    ensures var r := Save(history, hostname);
      r[1..] == history[..|r| - 1]
  {
    var r := Save(history, hostname);
    assert r == Take([hostname] + history, MAX_HISTORY_SIZE);
    assert r[1..] == ([hostname] + history)[1..|r|];
    assert ([hostname] + history)[1..|r|] == history[..|r| - 1];
  }

  /** `saveHostname` on the preference: a decoded list is rewritten, a blank name writes nothing. */
  function SaveHostname(stored: Stored, hostname: string): (r: Stored)
    ensures IsBlank(hostname) ==> r == stored
    ensures !IsBlank(hostname) ==> r.Entries? && GetHistory(r) == Save(GetHistory(stored), hostname)
  {
    if IsBlank(hostname) then stored else Entries(Save(GetHistory(stored), hostname))
  }

  lemma RemoveFirstSplits<T>(xs: seq<T>, h: T)
    requires !Missing(xs, h)
    ensures var i := FirstIndex(xs, h); RemoveFirst(xs, h) == xs[..i] + xs[i + 1..]
  {
  }

  /** `RemoveFirst` takes exactly one `h` away when there is one, and nothing else. */
  lemma {:induction false} RemoveFirstMultiset<T>(xs: seq<T>, h: T)
    ensures multiset(RemoveFirst(xs, h)) == multiset(xs) - multiset{h}
  {
    if !Missing(xs, h) {
      var i := FirstIndex(xs, h);
      RemoveFirstSplits(xs, h);
      assert xs == xs[..i] + [h] + xs[i + 1..];
    } else {
      assert h !in multiset(xs);
    }
  }

  /** Where each entry of `RemoveFirst(xs, h)` sat in `xs`. */
  lemma {:induction false} RemovedEntry<T>(xs: seq<T>, h: T, a: nat)
    requires !Missing(xs, h) && a < |RemoveFirst(xs, h)|
    ensures var i := FirstIndex(xs, h);
      RemoveFirst(xs, h)[a] == xs[if a < i then a else a + 1]
  {
    var i := FirstIndex(xs, h);
    var left, right := xs[..i], xs[i + 1..];
    RemoveFirstSplits(xs, h);
    assert (left + right)[a] == xs[if a < i then a else a + 1] by {
      if a < i {
        assert (left + right)[a] == left[a];
      } else {
        assert (left + right)[a] == right[a - i];
      }
    }
  }

  /** Removing the first occurrence keeps a list free of duplicates, and then `h` is gone. */
  lemma RemoveFirstNoDuplicates<T>(xs: seq<T>, h: T)
    requires NoDuplicates(xs)
    ensures NoDuplicates(RemoveFirst(xs, h)) && Missing(RemoveFirst(xs, h), h)
  {
    var r := RemoveFirst(xs, h);
    if !Missing(xs, h) {
      var i := FirstIndex(xs, h);
      forall a, b | 0 <= a < b < |r| ensures r[a] != r[b] {
        RemovedEntry(xs, h, a);
        RemovedEntry(xs, h, b);
      }
      forall a | 0 <= a < |r| ensures r[a] != h {
        RemovedEntry(xs, h, a);
      }
    }
  }

  /** Saving keeps a duplicate-free history duplicate-free. */
  lemma SaveNoDuplicates(history: seq<string>, hostname: string)
    requires NoDuplicates(history)
    ensures NoDuplicates(Save(history, hostname))
  {
    if !IsBlank(hostname) {
      var rest := RemoveFirst(history, hostname);
      RemoveFirstNoDuplicates(history, hostname);
      var full := [hostname] + rest;
      assert NoDuplicates(full) by {
        forall a, b | 0 <= a < b < |full| ensures full[a] != full[b] {
          assert full[b] == rest[b - 1];
        }
      }
      var r := Save(history, hostname);
      assert r == full[..|r|];
      forall a, b | 0 <= a < b < |r| ensures r[a] != r[b] {
        assert r[a] == full[a] && r[b] == full[b];
      }
    }
  }

  /** Saving the same name twice in a row is the same as saving it once. */
  lemma SaveIdempotent(history: seq<string>, hostname: string)
    ensures Save(Save(history, hostname), hostname) == Save(history, hostname)
  {
    if !IsBlank(hostname) {
      var once := Save(history, hostname);
      assert RemoveFirst(once, hostname) == once[1..];
      assert [hostname] + once[1..] == once;
    }
  }

  /** Saving adds no name but the saved one: every other entry was already in the history. */
  lemma SaveAddsOnlyTheName(history: seq<string>, hostname: string, k: nat)
    requires k < |Save(history, hostname)|
    ensures var e := Save(history, hostname)[k];
      e == hostname || exists j :: 0 <= j < |history| && history[j] == e
  {
    var r := Save(history, hostname);
    if !IsBlank(hostname) && k > 0 {
      var rest := RemoveFirst(history, hostname);
      assert r[k] == rest[k - 1];
      if !Missing(history, hostname) {
        RemovedEntry(history, hostname, k - 1);
        var i := FirstIndex(history, hostname);
        var j := if k - 1 < i then k - 1 else k;
        assert history[j] == r[k];
      } else {
        assert history[k - 1] == r[k];
      }
    } else if IsBlank(hostname) {
      assert history[k] == r[k];
    }
  }

  /** After clearing, and for a store that cannot be decoded, saving starts a fresh list. */
  lemma SaveAfterClear(stored: Stored, hostname: string)
    requires !IsBlank(hostname)
    ensures GetHistory(SaveHostname(ClearHistory(stored), hostname)) == [hostname]
    ensures SaveHostname(Undecodable, hostname) == SaveHostname(Absent, hostname)
  {
    assert RemoveFirst([], hostname) == [];
  }
}

=== FILE: kotlin_ints.dfy ===
/**
 * The fixed-width integer arithmetic of the JVM, written out over Dafny's
 * unbounded `int`: the ranges of `Int` and `Long`, two's-complement
 * wrap-around, the narrowing `Long.toInt()` and the truncating division `/`.
 */
module KotlinInts {

  const INT_MIN: int := -0x8000_0000
  const INT_MAX: int := 0x7FFF_FFFF
  const LONG_MIN: int := -0x8000_0000_0000_0000
  const LONG_MAX: int := 0x7FFF_FFFF_FFFF_FFFF

  const TWO_32: int := 0x1_0000_0000
  const TWO_64: int := 0x1_0000_0000_0000_0000

  predicate IsInt(x: int) { INT_MIN <= x <= INT_MAX }

  predicate IsLong(x: int) { LONG_MIN <= x <= LONG_MAX }

  /** The `Long` that a 64-bit register holds after computing `x`. */
  function WrapLong(x: int): (r: int)
    ensures IsLong(r)
    ensures (x - r) % TWO_64 == 0
    ensures IsLong(x) ==> r == x
  {
    var m := x % TWO_64;
    if m <= LONG_MAX then m else m - TWO_64
  }

  /** `Long.toInt()`: keeps the low 32 bits, read as a signed value. */
  function ToInt(x: int): (r: int)
    ensures IsInt(r)
    ensures (x - r) % TWO_32 == 0
    ensures IsInt(x) ==> r == x
  {
    var m := x % TWO_32;
    if m <= INT_MAX then m else m - TWO_32
  }

  function Abs(x: int): nat { if x < 0 then -x else x }

  /** The JVM's integer `/`: the quotient rounded toward zero. */
  function TruncDiv(a: int, b: int): (q: int)
    requires b != 0
    ensures Abs(q) * Abs(b) <= Abs(a) < (Abs(q) + 1) * Abs(b)
    ensures q != 0 ==> ((q > 0) <==> ((a > 0) == (b > 0)))
  {
    var n, d := Abs(a), Abs(b);
    QuotientBounds(n, d);
    if (a < 0) == (b < 0) then n / d else -(n / d)
  }

  /** Division of naturals brackets the dividend between two multiples of the divisor. */
  lemma QuotientBounds(n: nat, d: nat)
    requires d > 0
    ensures 0 <= n / d && (n / d) * d <= n < (n / d + 1) * d
    ensures n / d != 0 ==> n >= d
  {
    var q, m := n / d, n % d;
    assert n == q * d + m && 0 <= m < d;
    assert (q + 1) * d == q * d + d;
    if q != 0 {
      MulMono(q, d);
    }
  }

  /** For a non-negative dividend and a positive divisor, truncation is Dafny's division. */
  lemma TruncDivNonNegative(a: int, b: int)
    requires a >= 0 && b > 0
    ensures TruncDiv(a, b) == a / b
  {
  }

  lemma MulMono(q: int, d: int)
    requires q >= 1 && d >= 0
    ensures q * d >= d
  {
  }
}

=== FILE: server_list_adapter.dfy ===
/**
 * What the server list shows for each server: a flag emoji, the country
 * and host, the speed in whole megabits per second and the session count.
 * Strings are sequences of Unicode scalar values; where the JVM counts
 * UTF-16 code units, that count is written out.
 */
module ServerListAdapter {
  import opened Wrappers
  import opened KotlinInts
  import opened Text
  import opened Decimal
  import opened VpnRepository

  /** U+1F310, shown whenever no flag can be built. */
  const GLOBE: string := "\U{1F310}"
  /** REGIONAL INDICATOR SYMBOL LETTER A. */
  const REGIONAL_A: int := 0x1F1E6
  const MAX_CODE_POINT: int := 0x10FFFF
  const BITS_PER_MEGABIT: int := 1000000

  /** The UTF-16 code units a character takes: two for a supplementary character. */
  function Utf16Units(c: char): nat {
    if c as int < 0x10000 then 1 else 2
  }

  /** `String.length` on the JVM. */
  function Utf16Length(s: string): (n: nat)
    ensures n >= |s|
  {
    if |s| == 0 then 0 else Utf16Units(s[0]) + Utf16Length(s[1..])
  }

  /** A JVM string of length 2 is two BMP characters or one supplementary character. */
  lemma Utf16LengthTwo(s: string)
    ensures Utf16Length(s) == 2 <==>
      || (|s| == 2 && s[0] as int < 0x10000 && s[1] as int < 0x10000)
      || (|s| == 1 && s[0] as int >= 0x10000)
  {
    if |s| >= 2 {
      assert Utf16Length(s) == Utf16Units(s[0]) + Utf16Units(s[1]) + Utf16Length(s[2..]) by {
        assert s[1..][0] == s[1] && s[1..][1..] == s[2..];
      }
    }
  }

  /** The low surrogate of a supplementary character's UTF-16 form. */
  function LowSurrogate(c: char): (u: int)
    requires c as int >= 0x10000
    ensures 0xDC00 <= u <= 0xDFFF
  {
    0xDC00 + (c as int - 0x10000) % 0x400
  }

  /**
   * `Character.toChars(cp - 0x41 + 0x1F1E6)`: the character at that offset
   * from REGIONAL INDICATOR A, or nothing where `toChars` throws because the
   * result exceeds U+10FFFF.
   */
  function Indicator(cp: nat): (r: Option<char>)
    ensures r.Some? <==> cp - 0x41 + REGIONAL_A <= MAX_CODE_POINT
    ensures r.Some? ==> r.value as int == cp - 0x41 + REGIONAL_A
  {
    var v := cp - 0x41 + REGIONAL_A;
    if v <= MAX_CODE_POINT then Some(v as char) else None
  }

  /** The regional indicator for an ASCII letter of either case. */
  function LetterIndicator(c: char): (r: char)
    requires IsAsciiLetter(c)
    ensures REGIONAL_A <= r as int < REGIONAL_A + 26
    ensures r as int == REGIONAL_A + (UpperAscii(c) as int - 'A' as int)
  {
    (REGIONAL_A + (UpperAscii(c) as int - 'A' as int)) as char
  }

  predicate IsAsciiLetter(c: char) {
    'A' <= c <= 'Z' || 'a' <= c <= 'z'
  }

  /**
   * `getFlagEmoji`: an input whose JVM length is not 2 gives the globe.
   * Otherwise the input is upper-cased, the code points at UTF-16 positions
   * 0 and 1 are shifted onto the regional indicators, and the globe is the
   * answer when either shifted value is not a code point.
   */
  function FlagEmoji(code: string): (r: string)
    ensures Utf16Length(code) != 2 ==> r == GLOBE
    ensures |code| == 2 && IsAsciiLetter(code[0]) && IsAsciiLetter(code[1]) ==>
      r == [LetterIndicator(code[0]), LetterIndicator(code[1])]
    ensures r == GLOBE || |r| == 2
  {
    Utf16LengthTwo(code);
    if Utf16Length(code) != 2 then GLOBE
    else
      var upper := UpperAsciiString(code);
      var first: nat := upper[0] as int;
      var second: nat := if |upper| == 2 then upper[1] as int else LowSurrogate(upper[0]);
      match (Indicator(first), Indicator(second))
      case (Some(a), Some(b)) => [a, b]
      case _ => GLOBE
  }

  /** Upper- and lower-case codes give the same flag. */
  lemma FlagIgnoresCase(code: string)
    ensures FlagEmoji(UpperAsciiString(code)) == FlagEmoji(code)
  {
    var upper := UpperAsciiString(code);
    Utf16LengthTwo(code);
    Utf16LengthTwo(upper);
    if |code| == 2 {
      assert UpperAsciiString(upper) == upper;
    } else if |code| == 1 {
      assert UpperAsciiString(upper) == upper;
    }
  }

  /** Two BMP characters always give two regional indicators, never the globe. */
  lemma BmpPairGivesFlag(code: string)
    requires |code| == 2 && code[0] as int < 0x10000 && code[1] as int < 0x10000
    ensures |FlagEmoji(code)| == 2
    ensures REGIONAL_A - 0x41 <= FlagEmoji(code)[0] as int && REGIONAL_A - 0x41 <= FlagEmoji(code)[1] as int
  {
    Utf16LengthTwo(code);
  }

  /** A single supplementary character near the top of the code space overflows into the globe. */
  lemma OverflowGivesGlobe(c: char)
    requires c as int > MAX_CODE_POINT - REGIONAL_A + 0x41
    ensures FlagEmoji([c]) == GLOBE
  {
    Utf16LengthTwo([c]);
  }

  /** The displayed megabits: `speed / 1000000`, rounded toward zero. */
  function SpeedMbps(speed: int): (mbps: int)
    ensures speed >= 0 ==> 0 <= mbps && mbps * BITS_PER_MEGABIT <= speed < (mbps + 1) * BITS_PER_MEGABIT
    ensures speed < 0 ==> mbps <= 0 && -mbps * BITS_PER_MEGABIT <= -speed < (-mbps + 1) * BITS_PER_MEGABIT
  {
    TruncDiv(speed, BITS_PER_MEGABIT)
  }

  /** The texts of one card. */
  datatype Card = Card(flag: string, host: string, speed: string, sessions: string)

  /** `onBindViewHolder` for one server. */
  function BindCard(server: SstpServer): (c: Card)
    ensures c.flag == FlagEmoji(server.country)
    ensures c.host == server.country + "\n" + server.hostName
  {
    Card(
      FlagEmoji(server.country),
      server.country + "\n" + server.hostName,
      DecimalString(SpeedMbps(server.speed)) + " Mbps",
      DecimalString(server.sessions) + " Sessions")
  }

  /**
   * The flag comes from the country's long name, not its code: a server
   * whose country name is not two UTF-16 units long shows the globe
   * whatever its country code is.
   */
  lemma FlagUsesCountryName(server: SstpServer)
    requires Utf16Length(server.country) != 2
    ensures BindCard(server).flag == GLOBE
  {
  }

  /** The speed shown reads back as the truncated megabit count. */
  lemma SpeedLabelRoundTrip(server: SstpServer)
    requires IsLong(server.speed)
    ensures var shown := BindCard(server).speed;
      |shown| > 5 && shown[|shown| - 5..] == " Mbps"
      && ToLongOrNull(shown[..|shown| - 5]) == Some(SpeedMbps(server.speed))
  {
    var digits := DecimalString(SpeedMbps(server.speed));
    var shown := digits + " Mbps";
    assert shown[..|shown| - 5] == digits;
    assert IsLong(SpeedMbps(server.speed)) by {
      assert Abs(SpeedMbps(server.speed)) <= Abs(server.speed);
    }
    ParseDecimalString(SpeedMbps(server.speed), LONG_MIN, LONG_MAX);
  }

  /** The sessions label is the count followed by " Sessions", and the count reads back exactly. */
  lemma SessionsLabelRoundTrip(server: SstpServer)
    requires IsLong(server.sessions)
    ensures var shown := BindCard(server).sessions;
      |shown| > 9 && shown[|shown| - 9..] == " Sessions"
      && ToLongOrNull(shown[..|shown| - 9]) == Some(server.sessions)
  {
    var digits := DecimalString(server.sessions);
    var shown := digits + " Sessions";
    assert shown[..|shown| - 9] == digits;
    ParseDecimalString(server.sessions, LONG_MIN, LONG_MAX);
  }

  /** The adapter's list of servers. */
  datatype Adapter = Adapter(serverList: seq<SstpServer>)

  /** `updateList`: the list is replaced wholesale. */
  function UpdateList(a: Adapter, newList: seq<SstpServer>): (r: Adapter)
    ensures ItemCount(r) == |newList|
    ensures forall i :: 0 <= i < |newList| ==> Bind(r, i) == BindCard(newList[i])
  {
    Adapter(newList)
  }

  /** `getItemCount`. */
  function ItemCount(a: Adapter): (n: nat)
    ensures n == |a.serverList|
  {
    |a.serverList|
  }

  /** The card at a position of the list. */
  function Bind(a: Adapter, position: nat): Card
    requires position < ItemCount(a)
  {
    BindCard(a.serverList[position])
  }
}

=== FILE: server_sorter.dfy ===
/**
 * The quality-of-service ranking of the server list. Unreachable servers
 * (no measured latency) are dropped; each remaining server gets an effective
 * speed (its bandwidth shared with the sessions already on it plus ours),
 * speed and latency are min/max-normalised over the batch, and the quality
 * score 0.6 * speed + 0.4 * latency orders the list, best first. Doubles are
 * modelled as exact reals.
 */
module ServerSorter {
  import opened Wrappers
  import opened KotlinInts
  import opened StableSort
  import opened Text
  import opened Decimal
  import opened VpnRepository

  const WEIGHT_SPEED: real := 0.6
  const WEIGHT_PING: real := 0.4

  /** The default of `getTopServers`' `count`. */
  const DEFAULT_TOP_COUNT: int := 3

  /** One server with the figures it was ranked by. */
  datatype ServerScore = ServerScore(
    server: SstpServer,
    effectiveSpeed: real,
    normalizedSpeed: real,
    normalizedPing: real,
    qualityScore: real)

  /** A measured latency; 0 or less means the server timed out. */
  predicate Reachable(s: SstpServer) { s.ping > 0 }

  /** `sessions + 1` as a `Long`, which wraps at `Long.MAX_VALUE`. */
  function SessionsWithUs(s: SstpServer): (n: int)
    ensures IsLong(n)
    ensures IsLong(s.sessions) && s.sessions >= 0 && s.sessions < LONG_MAX ==> n == s.sessions + 1 && n > 0
  {
    WrapLong(s.sessions + 1)
  }

  /** The effective speed is a finite number: the divisor is not zero. */
  predicate FiniteSpeed(s: SstpServer) { SessionsWithUs(s) != 0 }

  /** Every reachable server in the batch has a finite effective speed. */
  predicate Scorable(servers: seq<SstpServer>) {
    forall i :: 0 <= i < |servers| && Reachable(servers[i]) ==> FiniteSpeed(servers[i])
  }

  /** Every server of the list has a finite effective speed. */
  predicate AllFinite(valid: seq<SstpServer>) {
    forall i :: 0 <= i < |valid| ==> FiniteSpeed(valid[i])
  }

  /** The bandwidth left per connection once we join the server. */
  function EffectiveSpeed(s: SstpServer): (r: real)
    requires FiniteSpeed(s)
    ensures r * SessionsWithUs(s) as real == s.speed as real
  {
    s.speed as real / SessionsWithUs(s) as real
  }

  /** More sessions on the same bandwidth leave less of it to us. */
  lemma EffectiveSpeedFallsWithSessions(a: SstpServer, b: SstpServer)
    requires a.speed == b.speed && a.speed >= 0
    requires 0 <= a.sessions <= b.sessions < LONG_MAX
    ensures FiniteSpeed(a) && FiniteSpeed(b)
    ensures 0.0 <= EffectiveSpeed(b) <= EffectiveSpeed(a) <= a.speed as real
  {
    var x, y := SessionsWithUs(a) as real, SessionsWithUs(b) as real;
    var v := a.speed as real;
    assert 1.0 <= x <= y;
    assert v / y <= v / x by { DivAntitone(v, x, y); }
    assert v / x <= v by { DivAntitone(v, 1.0, x); }
  }

  lemma DivAntitone(v: real, x: real, y: real)
    requires v >= 0.0 && 0.0 < x <= y
    ensures 0.0 <= v / y <= v / x
  {
    assert v / y * y == v;
    assert v / x * x == v;
  }

  /** The reachable servers, in their original order. */
  function FilterReachable(servers: seq<SstpServer>): (r: seq<SstpServer>)
    ensures |r| <= |servers|
    ensures forall i :: 0 <= i < |r| ==> Reachable(r[i])
  {
    if |servers| == 0 then []
    else (if Reachable(servers[0]) then [servers[0]] else []) + FilterReachable(servers[1..])
  }

  /** The filter keeps exactly the reachable servers. */
  lemma {:induction false} FilterReachableMembers(servers: seq<SstpServer>)
    ensures forall s :: s in FilterReachable(servers) <==> s in servers && Reachable(s)
    decreases |servers|
  {
    if |servers| > 0 {
      FilterReachableMembers(servers[1..]);
      assert servers == [servers[0]] + servers[1..];
    }
  }

  /** Nothing is left exactly when every server timed out. */
  lemma FilterReachableEmpty(servers: seq<SstpServer>)
    ensures FilterReachable(servers) == [] <==> forall i :: 0 <= i < |servers| ==> !Reachable(servers[i])
  {
    FilterReachableMembers(servers);
    if FilterReachable(servers) != [] {
      assert FilterReachable(servers)[0] in FilterReachable(servers);
    } else {
      forall i | 0 <= i < |servers| ensures !Reachable(servers[i]) {
        assert servers[i] in servers;
      }
    }
  }

  /** In a scorable batch every reachable server has a finite effective speed. */
  lemma {:induction false} ReachableScorable(servers: seq<SstpServer>)
    requires Scorable(servers)
    ensures AllFinite(FilterReachable(servers))
    decreases |servers|
  {
    if |servers| > 0 {
      ReachableScorable(servers[1..]);
    }
  }

  /** Filtering distributes over concatenation, so it keeps the order of what it keeps. */
  lemma {:induction false} FilterReachableAppend(a: seq<SstpServer>, b: seq<SstpServer>)
    ensures FilterReachable(a + b) == FilterReachable(a) + FilterReachable(b)
    decreases |a|
  {
    if |a| == 0 {
      assert a + b == b;
    } else {
      assert (a + b)[1..] == a[1..] + b;
      FilterReachableAppend(a[1..], b);
    }
  }

  /** A batch with no timed-out server is left as it is. */
  lemma {:induction false} FilterReachableKeepsReachable(servers: seq<SstpServer>)
    requires forall i :: 0 <= i < |servers| ==> Reachable(servers[i])
    ensures FilterReachable(servers) == servers
    decreases |servers|
  {
    if |servers| > 0 {
      FilterReachableKeepsReachable(servers[1..]);
    }
  }

  /** Filtering twice filters nothing more. */
  lemma FilterReachableIdempotent(servers: seq<SstpServer>)
    ensures FilterReachable(FilterReachable(servers)) == FilterReachable(servers)
  {
    FilterReachableKeepsReachable(FilterReachable(servers));
  }

  /** A feed line whose latency column is not a number yields a record with ping 0, which the filter drops. */
  lemma UnparsedPingIsUnreachable(line: string)
    requires LineAccepted(line) && (!IsSignedDecimal(Trim(Split(line, ',')[3])) || !IsInt(SignedValue(Trim(Split(line, ',')[3]))))
    ensures ParseServerLine(line).Some? && ParseServerLine(line).value.ping == 0
    ensures FilterReachable([ParseServerLine(line).value]) == []
  {
    AcceptedIff(line);
    ParsedColumns(line);
  }

  /** `minOrNull() ?: d`. */
  function MinOr(xs: seq<real>, d: real): (m: real)
    ensures |xs| == 0 ==> m == d
    ensures |xs| > 0 ==> exists i :: 0 <= i < |xs| && xs[i] == m
    ensures forall i :: 0 <= i < |xs| ==> m <= xs[i]
  {
    if |xs| == 0 then d
    else if |xs| == 1 then xs[0]
    else
      var m := MinOr(xs[1..], d);
      assert forall i :: 1 <= i < |xs| ==> xs[i] == xs[1..][i - 1];
      if xs[0] <= m then xs[0] else m
  }

  /** `maxOrNull() ?: d`. */
  function MaxOr(xs: seq<real>, d: real): (m: real)
    ensures |xs| == 0 ==> m == d
    ensures |xs| > 0 ==> exists i :: 0 <= i < |xs| && xs[i] == m
    ensures forall i :: 0 <= i < |xs| ==> xs[i] <= m
  {
    if |xs| == 0 then d
    else if |xs| == 1 then xs[0]
    else
      var m := MaxOr(xs[1..], d);
      assert forall i :: 1 <= i < |xs| ==> xs[i] == xs[1..][i - 1];
      if xs[0] >= m then xs[0] else m
  }

  /** The effective speeds of a batch, in order. */
  function Speeds(valid: seq<SstpServer>): (r: seq<real>)
    requires AllFinite(valid)
    ensures |r| == |valid| && forall i :: 0 <= i < |valid| ==> r[i] == EffectiveSpeed(valid[i])
  {
    if |valid| == 0 then [] else [EffectiveSpeed(valid[0])] + Speeds(valid[1..])
  }

  /** The latencies of a batch, in order. */
  function Pings(valid: seq<SstpServer>): (r: seq<real>)
    ensures |r| == |valid| && forall i :: 0 <= i < |valid| ==> r[i] == valid[i].ping as real
  {
    if |valid| == 0 then [] else [valid[0].ping as real] + Pings(valid[1..])
  }

  /** The extremes the batch is normalised against. */
  datatype Bounds = Bounds(minSpeed: real, maxSpeed: real, minPing: real, maxPing: real)

  /** Every server of `valid` lies within `b`. */
  predicate WithinBounds(valid: seq<SstpServer>, b: Bounds)
    requires AllFinite(valid)
  {
    forall i :: 0 <= i < |valid| ==>
      b.minSpeed <= EffectiveSpeed(valid[i]) <= b.maxSpeed && b.minPing <= valid[i].ping as real <= b.maxPing
  }

  /** The extremes of a batch; the defaults only apply to an empty one. */
  function BatchBounds(valid: seq<SstpServer>): (b: Bounds)
    requires AllFinite(valid)
    ensures WithinBounds(valid, b)
  {
    var speeds, pings := Speeds(valid), Pings(valid);
    Bounds(MinOr(speeds, 0.0), MaxOr(speeds, 1.0), MinOr(pings, 0.0), MaxOr(pings, 1000.0))
  }

  /** Each extreme of a non-empty batch is attained by one of its servers. */
  lemma BatchBoundsAttained(valid: seq<SstpServer>)
    requires AllFinite(valid) && |valid| > 0
    ensures var b := BatchBounds(valid);
      && (exists i :: 0 <= i < |valid| && EffectiveSpeed(valid[i]) == b.minSpeed)
      && (exists i :: 0 <= i < |valid| && EffectiveSpeed(valid[i]) == b.maxSpeed)
      && (exists i :: 0 <= i < |valid| && valid[i].ping as real == b.minPing)
      && (exists i :: 0 <= i < |valid| && valid[i].ping as real == b.maxPing)
  {
    var speeds, pings := Speeds(valid), Pings(valid);
    var i0 :| 0 <= i0 < |speeds| && speeds[i0] == MinOr(speeds, 0.0);
    var i1 :| 0 <= i1 < |speeds| && speeds[i1] == MaxOr(speeds, 1.0);
    var i2 :| 0 <= i2 < |pings| && pings[i2] == MinOr(pings, 0.0);
    var i3 :| 0 <= i3 < |pings| && pings[i3] == MaxOr(pings, 1000.0);
  }

  /** Speed on a 0..1 scale over the batch, higher is better; 1 when all are equal. */
  function NormalizeSpeed(x: real, b: Bounds): (r: real)
    ensures b.minSpeed <= x <= b.maxSpeed ==> 0.0 <= r <= 1.0
    ensures b.minSpeed < b.maxSpeed && x == b.maxSpeed ==> r == 1.0
    ensures b.minSpeed < b.maxSpeed && x == b.minSpeed ==> r == 0.0
    ensures b.maxSpeed <= b.minSpeed ==> r == 1.0
    ensures b.minSpeed < b.maxSpeed ==> r * (b.maxSpeed - b.minSpeed) == x - b.minSpeed
  {
    var range := b.maxSpeed - b.minSpeed;
    if range > 0.0 then
      var q := (x - b.minSpeed) / range;
      assert q * range == x - b.minSpeed && (x == b.maxSpeed ==> q == 1.0) by { DivTimes(x - b.minSpeed, range); }
      assert b.minSpeed <= x <= b.maxSpeed ==> q <= 1.0 by {
        if b.minSpeed <= x <= b.maxSpeed { DivAntitone(x - b.minSpeed, range, range); DivAtMostOne(x - b.minSpeed, range); }
      }
      q
    else 1.0
  }

  /** Latency on a 0..1 scale over the batch, lower latency is better; 1 when all are equal. */
  function NormalizePing(p: real, b: Bounds): (r: real)
    ensures b.minPing <= p <= b.maxPing ==> 0.0 <= r <= 1.0
    ensures b.minPing < b.maxPing && p == b.minPing ==> r == 1.0
    ensures b.minPing < b.maxPing && p == b.maxPing ==> r == 0.0
    ensures b.maxPing <= b.minPing ==> r == 1.0
    ensures b.minPing < b.maxPing ==> (1.0 - r) * (b.maxPing - b.minPing) == p - b.minPing
  {
    var range := b.maxPing - b.minPing;
    if range > 0.0 then
      var q := (p - b.minPing) / range;
      assert q * range == p - b.minPing && (p == b.maxPing ==> q == 1.0) by { DivTimes(p - b.minPing, range); }
      assert b.minPing <= p <= b.maxPing ==> 0.0 <= q <= 1.0 by {
        if b.minPing <= p <= b.maxPing { DivAntitone(p - b.minPing, range, range); DivAtMostOne(p - b.minPing, range); }
      }
      1.0 - q
    else 1.0
  }

  lemma DivTimes(a: real, c: real)
    requires c > 0.0
    ensures a / c * c == a
    ensures a == c ==> a / c == 1.0
  {
  }

  lemma DivAtMostOne(a: real, c: real)
    requires 0.0 <= a <= c && c > 0.0
    ensures a / c <= 1.0
  {
    assert a / c * c == a;
  }

  /**
   * The normalised figures of `r` are the min-max values of its effective
   * speed and its ping against `b`: the ping inverted, and 1.0 on a range
   * of zero width.
   */
  predicate MinMaxFigures(r: ServerScore, b: Bounds) {
    && (b.minSpeed < b.maxSpeed ==> r.normalizedSpeed * (b.maxSpeed - b.minSpeed) == r.effectiveSpeed - b.minSpeed)
    && (b.maxSpeed <= b.minSpeed ==> r.normalizedSpeed == 1.0)
    && (b.minPing < b.maxPing ==> (1.0 - r.normalizedPing) * (b.maxPing - b.minPing) == r.server.ping as real - b.minPing)
    && (b.maxPing <= b.minPing ==> r.normalizedPing == 1.0)
  }

  /** The weighted score of one server against the batch extremes. */
  function ScoreOf(s: SstpServer, b: Bounds): (r: ServerScore)
    requires FiniteSpeed(s)
    ensures r.server == s && r.effectiveSpeed == EffectiveSpeed(s)
    ensures r.qualityScore == WEIGHT_SPEED * r.normalizedSpeed + WEIGHT_PING * r.normalizedPing
    ensures b.minSpeed <= EffectiveSpeed(s) <= b.maxSpeed && b.minPing <= s.ping as real <= b.maxPing ==>
      && 0.0 <= r.normalizedSpeed <= 1.0 && 0.0 <= r.normalizedPing <= 1.0 && 0.0 <= r.qualityScore <= 1.0
    ensures MinMaxFigures(r, b)
  {
    var eff := EffectiveSpeed(s);
    var normSpeed := NormalizeSpeed(eff, b);
    var normPing := NormalizePing(s.ping as real, b);
    ServerScore(s, eff, normSpeed, normPing, WEIGHT_SPEED * normSpeed + WEIGHT_PING * normPing)
  }

  /** The score of each server of `valid` against the same extremes, in order. */
  function ScoreBatch(valid: seq<SstpServer>, b: Bounds): (r: seq<ServerScore>)
    requires AllFinite(valid) && WithinBounds(valid, b)
    ensures |r| == |valid|
    ensures forall i :: 0 <= i < |r| ==> r[i].server == valid[i]
    ensures forall i :: 0 <= i < |r| ==>
      && 0.0 <= r[i].normalizedSpeed <= 1.0 && 0.0 <= r[i].normalizedPing <= 1.0
      && 0.0 <= r[i].qualityScore <= 1.0
      && r[i].qualityScore == WEIGHT_SPEED * r[i].normalizedSpeed + WEIGHT_PING * r[i].normalizedPing
    ensures forall i :: 0 <= i < |r| ==> MinMaxFigures(r[i], b)
  {
    if |valid| == 0 then [] else [ScoreOf(valid[0], b)] + ScoreBatch(valid[1..], b)
  }

  lemma {:induction false} ScoreBatchElements(valid: seq<SstpServer>, b: Bounds)
    requires AllFinite(valid) && WithinBounds(valid, b)
    ensures forall i :: 0 <= i < |valid| ==> ScoreBatch(valid, b)[i] == ScoreOf(valid[i], b)
    decreases |valid|
  {
    if |valid| > 0 {
      ScoreBatchElements(valid[1..], b);
    }
  }

  /**
   * The quality score of every reachable server: one entry per reachable
   * server, in input order, each figure on the 0..1 scale.
   */
  function CalculateScores(servers: seq<SstpServer>): (r: seq<ServerScore>)
    requires Scorable(servers)
    ensures |r| == |FilterReachable(servers)|
    ensures forall i :: 0 <= i < |r| ==> r[i].server == FilterReachable(servers)[i]
    ensures forall i :: 0 <= i < |r| ==> Reachable(r[i].server) && FiniteSpeed(r[i].server)
    ensures forall i :: 0 <= i < |r| ==>
      && 0.0 <= r[i].normalizedSpeed <= 1.0 && 0.0 <= r[i].normalizedPing <= 1.0
      && 0.0 <= r[i].qualityScore <= 1.0
      && r[i].qualityScore == WEIGHT_SPEED * r[i].normalizedSpeed + WEIGHT_PING * r[i].normalizedPing
    ensures AllFinite(FilterReachable(servers)) &&
      forall i :: 0 <= i < |r| ==> MinMaxFigures(r[i], BatchBounds(FilterReachable(servers)))
  {
    if |servers| == 0 then []
    else
      var valid := FilterReachable(servers);
      ReachableScorable(servers);
      if |valid| == 0 then [] else ScoreBatch(valid, BatchBounds(valid))
  }

  /** The score `s` receives as a member of the batch `servers`. */
  function BatchScore(servers: seq<SstpServer>, s: SstpServer): (r: ServerScore)
    requires Scorable(servers) && FiniteSpeed(s)
    ensures r.server == s
  {
    ReachableScorable(servers);
    ScoreOf(s, BatchBounds(FilterReachable(servers)))
  }

  /** Each entry of `CalculateScores` is the batch score of its server. */
  lemma ScoresAreBatchScores(servers: seq<SstpServer>)
    requires Scorable(servers)
    ensures forall i :: 0 <= i < |CalculateScores(servers)| ==>
      CalculateScores(servers)[i] == BatchScore(servers, CalculateScores(servers)[i].server)
  {
    CalculateScoresUnfold(servers);
  }

  /**
   * Every score `calculateScores` returns carries the min-max figures of
   * its server against the extremes of the reachable batch.
   */
  lemma CalculateScoresMinMax(servers: seq<SstpServer>, i: nat)
    requires Scorable(servers) && i < |CalculateScores(servers)|
    ensures AllFinite(FilterReachable(servers))
    ensures var e := CalculateScores(servers)[i];
      e.effectiveSpeed == EffectiveSpeed(e.server) && MinMaxFigures(e, BatchBounds(FilterReachable(servers)))
  {
    var valid := FilterReachable(servers);
    assert AllFinite(valid) by { ReachableScorable(servers); }
    var b, e := BatchBounds(valid), CalculateScores(servers)[i];
    assert FiniteSpeed(e.server);
    assert e == ScoreOf(e.server, b) by { ScoresAreBatchScores(servers); }
  }

  /** Timed-out servers take no part in the normalisation. */
  lemma ScoresIgnoreUnreachable(servers: seq<SstpServer>)
    requires Scorable(servers)
    ensures Scorable(FilterReachable(servers))
    ensures CalculateScores(FilterReachable(servers)) == CalculateScores(servers)
  {
    var valid := FilterReachable(servers);
    FilterReachableIdempotent(servers);
    ReachableScorable(servers);
    assert FilterReachable(valid) == valid;
    if |servers| > 0 && |valid| > 0 {
      assert CalculateScores(servers) == ScoreBatch(valid, BatchBounds(valid));
      assert CalculateScores(valid) == ScoreBatch(valid, BatchBounds(valid));
    }
  }

  /** Against the batch extremes, the fastest and nearest possible server scores 1. */
  lemma ScoreOfTop(s: SstpServer, b: Bounds)
    requires FiniteSpeed(s)
    requires EffectiveSpeed(s) == b.maxSpeed && s.ping as real == b.minPing
    ensures ScoreOf(s, b).qualityScore == 1.0
  {
    assert NormalizeSpeed(EffectiveSpeed(s), b) == 1.0;
    assert NormalizePing(s.ping as real, b) == 1.0;
  }

  /** Against the same extremes, being faster and nearer never lowers the score. */
  lemma ScoreOfDominates(s: SstpServer, t: SstpServer, b: Bounds)
    requires FiniteSpeed(s) && FiniteSpeed(t)
    requires EffectiveSpeed(t) <= EffectiveSpeed(s) && s.ping <= t.ping
    ensures ScoreOf(t, b).qualityScore <= ScoreOf(s, b).qualityScore
  {
    NormalizeSpeedMonotone(EffectiveSpeed(t), EffectiveSpeed(s), b);
    NormalizePingAntitone(s.ping as real, t.ping as real, b);
  }

  /** The scores of a non-empty batch are those of its reachable servers against its extremes. */
  lemma CalculateScoresUnfold(servers: seq<SstpServer>)
    requires Scorable(servers)
    ensures AllFinite(FilterReachable(servers))
    ensures var valid := FilterReachable(servers);
      forall i :: 0 <= i < |valid| ==> CalculateScores(servers)[i] == ScoreOf(valid[i], BatchBounds(valid))
  {
    ReachableScorable(servers);
    var valid := FilterReachable(servers);
    if |servers| > 0 && |valid| > 0 {
      ScoreBatchElements(valid, BatchBounds(valid));
    }
  }

  /** When every reachable server has the same effective speed, speed counts fully for each. */
  lemma EqualSpeedsNormalizeToOne(servers: seq<SstpServer>)
    requires Scorable(servers)
    requires AllFinite(FilterReachable(servers))
    requires forall i, j :: 0 <= i < |FilterReachable(servers)| && 0 <= j < |FilterReachable(servers)| ==>
      EffectiveSpeed(FilterReachable(servers)[i]) == EffectiveSpeed(FilterReachable(servers)[j])
    ensures forall i :: 0 <= i < |CalculateScores(servers)| ==> CalculateScores(servers)[i].normalizedSpeed == 1.0
  {
    var valid := FilterReachable(servers);
    if |valid| > 0 {
      EqualSpeedsCollapse(valid);
      CalculateScoresUnfold(servers);
    }
  }

  lemma EqualSpeedsCollapse(valid: seq<SstpServer>)
    requires AllFinite(valid) && |valid| > 0
    requires forall i, j :: 0 <= i < |valid| && 0 <= j < |valid| ==> EffectiveSpeed(valid[i]) == EffectiveSpeed(valid[j])
    ensures BatchBounds(valid).maxSpeed <= BatchBounds(valid).minSpeed
  {
    var b := BatchBounds(valid);
    BatchBoundsAttained(valid);
    var lo :| 0 <= lo < |valid| && EffectiveSpeed(valid[lo]) == b.minSpeed;
    var hi :| 0 <= hi < |valid| && EffectiveSpeed(valid[hi]) == b.maxSpeed;
  }

  /** When every reachable server has the same latency, latency counts fully for each. */
  lemma EqualPingsNormalizeToOne(servers: seq<SstpServer>)
    requires Scorable(servers)
    requires forall i, j :: 0 <= i < |FilterReachable(servers)| && 0 <= j < |FilterReachable(servers)| ==>
      FilterReachable(servers)[i].ping == FilterReachable(servers)[j].ping
    ensures forall i :: 0 <= i < |CalculateScores(servers)| ==> CalculateScores(servers)[i].normalizedPing == 1.0
  {
    var valid := FilterReachable(servers);
    ReachableScorable(servers);
    if |valid| > 0 {
      EqualPingsCollapse(valid);
      CalculateScoresUnfold(servers);
    }
  }

  lemma EqualPingsCollapse(valid: seq<SstpServer>)
    requires AllFinite(valid) && |valid| > 0
    requires forall i, j :: 0 <= i < |valid| && 0 <= j < |valid| ==> valid[i].ping == valid[j].ping
    ensures BatchBounds(valid).maxPing <= BatchBounds(valid).minPing
  {
    var b := BatchBounds(valid);
    BatchBoundsAttained(valid);
    var lo :| 0 <= lo < |valid| && valid[lo].ping as real == b.minPing;
    var hi :| 0 <= hi < |valid| && valid[hi].ping as real == b.maxPing;
  }

  /** The fastest reachable server that also has the lowest latency scores exactly 1. */
  lemma FastestAndNearestScoresOne(servers: seq<SstpServer>, k: nat)
    requires Scorable(servers)
    requires AllFinite(FilterReachable(servers))
    requires k < |FilterReachable(servers)|
    requires forall j :: 0 <= j < |FilterReachable(servers)| ==>
      EffectiveSpeed(FilterReachable(servers)[j]) <= EffectiveSpeed(FilterReachable(servers)[k])
      && FilterReachable(servers)[k].ping <= FilterReachable(servers)[j].ping
    ensures CalculateScores(servers)[k].qualityScore == 1.0
  {
    var valid := FilterReachable(servers);
    TopOfBatch(valid, k);
    ScoreOfTop(valid[k], BatchBounds(valid));
    CalculateScoresUnfold(servers);
  }

  lemma TopOfBatch(valid: seq<SstpServer>, k: nat)
    requires AllFinite(valid) && k < |valid|
    requires forall j :: 0 <= j < |valid| ==>
      EffectiveSpeed(valid[j]) <= EffectiveSpeed(valid[k]) && valid[k].ping <= valid[j].ping
    ensures EffectiveSpeed(valid[k]) == BatchBounds(valid).maxSpeed
    ensures valid[k].ping as real == BatchBounds(valid).minPing
  {
    var b := BatchBounds(valid);
    BatchBoundsAttained(valid);
    var hi :| 0 <= hi < |valid| && EffectiveSpeed(valid[hi]) == b.maxSpeed;
    var lo :| 0 <= lo < |valid| && valid[lo].ping as real == b.minPing;
  }

  /** A reachable server at least as fast and as near as another scores at least as high. */
  lemma DominantServerScoresHigher(servers: seq<SstpServer>, i: nat, j: nat)
    requires Scorable(servers)
    requires AllFinite(FilterReachable(servers))
    requires i < |FilterReachable(servers)| && j < |FilterReachable(servers)|
    requires EffectiveSpeed(FilterReachable(servers)[j]) <= EffectiveSpeed(FilterReachable(servers)[i])
    requires FilterReachable(servers)[i].ping <= FilterReachable(servers)[j].ping
    ensures CalculateScores(servers)[j].qualityScore <= CalculateScores(servers)[i].qualityScore
  {
    var valid := FilterReachable(servers);
    ScoreOfDominates(valid[i], valid[j], BatchBounds(valid));
    CalculateScoresUnfold(servers);
  }

  lemma NormalizeSpeedMonotone(x: real, y: real, b: Bounds)
    requires x <= y
    ensures NormalizeSpeed(x, b) <= NormalizeSpeed(y, b)
  {
    var range := b.maxSpeed - b.minSpeed;
    if range > 0.0 {
      DivMonotone(x - b.minSpeed, y - b.minSpeed, range);
    }
  }

  lemma NormalizePingAntitone(p: real, q: real, b: Bounds)
    requires p <= q
    ensures NormalizePing(q, b) <= NormalizePing(p, b)
  {
    var range := b.maxPing - b.minPing;
    if range > 0.0 {
      DivMonotone(p - b.minPing, q - b.minPing, range);
    }
  }

  lemma DivMonotone(a: real, c: real, d: real)
    requires a <= c && d > 0.0
    ensures a / d <= c / d
  {
    assert a / d * d == a && c / d * d == c;
  }

  /** `a` is ranked ahead of `b`: a strictly higher quality score. */
  predicate ScoresHigher(a: ServerScore, b: ServerScore) {
    a.qualityScore > b.qualityScore
  }

  lemma ScoresHigherIsStrictWeakOrder()
    ensures StrictWeakOrder(ScoresHigher)
  {
  }

  /** The scores, best first; equal scores keep their input order. */
  function RankedScores(servers: seq<SstpServer>): (r: seq<ServerScore>)
    requires Scorable(servers)
    ensures multiset(r) == multiset(CalculateScores(servers))
    ensures |r| == |CalculateScores(servers)|
    ensures forall i, j :: 0 <= i < j < |r| ==> r[j].qualityScore <= r[i].qualityScore
  {
    ScoresHigherIsStrictWeakOrder();
    Sort(CalculateScores(servers), ScoresHigher)
  }

  /** Servers whose scores tie keep the order they had in the input. */
  lemma RankedScoresStable(servers: seq<SstpServer>, k: ServerScore)
    requires Scorable(servers)
    ensures TiedWith(RankedScores(servers), ScoresHigher, k) == TiedWith(CalculateScores(servers), ScoresHigher, k)
  {
    ScoresHigherIsStrictWeakOrder();
    SortStable(CalculateScores(servers), ScoresHigher, k);
  }

  /** The servers of a list of scores. */
  function ServersOf(scores: seq<ServerScore>): (r: seq<SstpServer>)
    ensures |r| == |scores| && forall i :: 0 <= i < |scores| ==> r[i] == scores[i].server
  {
    seq(|scores|, i requires 0 <= i < |scores| => scores[i].server)
  }

  function ServerOf(score: ServerScore): SstpServer {
    score.server
  }

  /** Reordering the scores reorders their servers the same way. */
  lemma ServersOfPermutation(a: seq<ServerScore>, b: seq<ServerScore>)
    requires multiset(a) == multiset(b)
    ensures multiset(ServersOf(a)) == multiset(ServersOf(b))
  {
    assert ServersOf(a) == Map(ServerOf, a);
    assert ServersOf(b) == Map(ServerOf, b);
    MapPermutation(ServerOf, a, b);
  }

  /** Every ranked entry is the batch score of a reachable server of the batch. */
  lemma RankedAreBatchScores(servers: seq<SstpServer>)
    requires Scorable(servers)
    ensures forall i :: 0 <= i < |RankedScores(servers)| ==>
      && Reachable(RankedScores(servers)[i].server) && FiniteSpeed(RankedScores(servers)[i].server)
      && RankedScores(servers)[i] == BatchScore(servers, RankedScores(servers)[i].server)
  {
    forall i | 0 <= i < |RankedScores(servers)|
      ensures Reachable(RankedScores(servers)[i].server) && FiniteSpeed(RankedScores(servers)[i].server)
      ensures RankedScores(servers)[i] == BatchScore(servers, RankedScores(servers)[i].server)
    {
      RankedIsBatchScore(servers, i);
    }
  }

  lemma RankedIsBatchScore(servers: seq<SstpServer>, i: nat)
    requires Scorable(servers) && i < |RankedScores(servers)|
    ensures var e := RankedScores(servers)[i];
      Reachable(e.server) && FiniteSpeed(e.server) && e == BatchScore(servers, e.server)
  {
    var scores, e := CalculateScores(servers), RankedScores(servers)[i];
    assert e in scores by {
      assert e in multiset(RankedScores(servers));
    }
    var k :| 0 <= k < |scores| && scores[k] == e;
    assert Reachable(e.server) && FiniteSpeed(e.server);
    assert e == BatchScore(servers, e.server) by {
      ScoresAreBatchScores(servers);
      assert scores[k] == BatchScore(servers, scores[k].server);
    }
  }

  /**
   * The reachable servers, best quality score first: a permutation of the
   * reachable servers in which no server's batch score exceeds that of the
   * server before it.
   */
  function SortByScore(servers: seq<SstpServer>): (r: seq<SstpServer>)
    requires Scorable(servers)
    ensures multiset(r) == multiset(FilterReachable(servers))
    ensures |r| == |FilterReachable(servers)|
    ensures forall i :: 0 <= i < |r| ==> Reachable(r[i]) && FiniteSpeed(r[i])
    ensures forall i, j :: 0 <= i < j < |r| ==>
      BatchScore(servers, r[j]).qualityScore <= BatchScore(servers, r[i]).qualityScore
  {
    if |servers| == 0 then []
    else
      var ranked := RankedScores(servers);
      RankedAreBatchScores(servers);
      assert multiset(ServersOf(ranked)) == multiset(FilterReachable(servers)) by {
        ServersOfPermutation(ranked, CalculateScores(servers));
        assert ServersOf(CalculateScores(servers)) == FilterReachable(servers);
      }
      ServersOf(ranked)
  }

  /** `take(count)` of the ranking; a negative count is refused (Kotlin throws). */
  function GetTopServers(servers: seq<SstpServer>, count: int): (r: Option<seq<SstpServer>>)
    requires Scorable(servers)
    ensures r.None? <==> count < 0
    ensures r.Some? ==>
      && |r.value| == (if count < |FilterReachable(servers)| then count else |FilterReachable(servers)|)
      && r.value == SortByScore(servers)[..|r.value|]
  {
    if count < 0 then None
    else
      var ranked := SortByScore(servers);
      Some(if count < |ranked| then ranked[..count] else ranked)
  }

  /** `getTopServers(servers)` with the default count of 3. */
  function GetTopServersDefault(servers: seq<SstpServer>): (r: seq<SstpServer>)
    requires Scorable(servers)
    ensures |r| == (if |FilterReachable(servers)| < DEFAULT_TOP_COUNT then |FilterReachable(servers)| else DEFAULT_TOP_COUNT)
    ensures r == SortByScore(servers)[..|r|]
  {
    GetTopServers(servers, DEFAULT_TOP_COUNT).value
  }

  /** The first of the ranking, or nothing when every server timed out. */
  function GetBestServer(servers: seq<SstpServer>): (r: Option<SstpServer>)
    requires Scorable(servers)
    ensures r.None? <==> forall i :: 0 <= i < |servers| ==> !Reachable(servers[i])
    ensures r.Some? ==> r.value in servers && Reachable(r.value)
    ensures r.Some? ==> |SortByScore(servers)| > 0 && r.value == SortByScore(servers)[0]
  {
    var ranked := SortByScore(servers);
    FilterReachableEmpty(servers);
    if |ranked| == 0 then None
    else
      assert ranked[0] in servers by {
        FilterReachableMembers(servers);
        assert ranked[0] in multiset(FilterReachable(servers));
      }
      Some(ranked[0])
  }

  /** No reachable server of the batch scores higher than the best one. */
  lemma BestServerScoresHighest(servers: seq<SstpServer>, s: SstpServer)
    requires Scorable(servers)
    requires s in servers && Reachable(s)
    ensures GetBestServer(servers).Some?
    ensures FiniteSpeed(s) && FiniteSpeed(GetBestServer(servers).value)
    ensures BatchScore(servers, s).qualityScore <= BatchScore(servers, GetBestServer(servers).value).qualityScore
  {
    var ranked := SortByScore(servers);
    FilterReachableMembers(servers);
    assert s in multiset(ranked);
    var j :| 0 <= j < |ranked| && ranked[j] == s;
    assert GetBestServer(servers) == Some(ranked[0]);
  }

  /** The absolute score of one server: its effective speed, or -1 when it timed out. */
  function CalculateScore(s: SstpServer): (r: real)
    requires Reachable(s) ==> FiniteSpeed(s)
    ensures !Reachable(s) ==> r == -1.0
    ensures Reachable(s) ==> r * SessionsWithUs(s) as real == s.speed as real
  {
    if s.ping <= 0 then -1.0 else EffectiveSpeed(s)
  }

  /** The first score whose server is named `host`. */
  predicate FirstWithHost(scores: seq<ServerScore>, host: string, i: int) {
    && 0 <= i < |scores| && scores[i].server.hostName == host
    && forall j :: 0 <= j < i ==> scores[j].server.hostName != host
  }

  /** Kotlin's `find` on the host name: the position of the first match, if any. */
  function FindByHost(scores: seq<ServerScore>, host: string): (r: Option<nat>)
    ensures r.None? <==> forall i :: 0 <= i < |scores| ==> scores[i].server.hostName != host
    ensures r.Some? ==> FirstWithHost(scores, host, r.value)
  {
    if |scores| == 0 then None
    else if scores[0].server.hostName == host then Some(0)
    else
      var rest := FindByHost(scores[1..], host);
      assert forall i :: 1 <= i < |scores| ==> scores[i] == scores[1..][i - 1];
      if rest.None? then None else Some(rest.value + 1)
  }

  /** There is only one first match. */
  lemma FirstWithHostUnique(scores: seq<ServerScore>, host: string, i: int, j: int)
    requires FirstWithHost(scores, host, i) && FirstWithHost(scores, host, j)
    ensures i == j
  {
    assert !(i < j) && !(j < i);
  }

  /** A host no reachable server of the batch has gets no score. */
  lemma NoScoreForAbsentHost(all: seq<SstpServer>, host: string)
    requires Scorable(all)
    requires forall i :: 0 <= i < |all| && Reachable(all[i]) ==> all[i].hostName != host
    ensures FindByHost(CalculateScores(all), host).None?
  {
    var scores := CalculateScores(all);
    forall k | 0 <= k < |scores| ensures scores[k].server.hostName != host {
      FilterReachableMembers(all);
      assert scores[k].server in FilterReachable(all);
    }
  }

  /** `Double.toInt()`: rounds toward zero and saturates at the `Int` range. */
  function DoubleToInt(x: real): (n: int)
    ensures IsInt(n)
    ensures 0.0 <= x <= INT_MAX as real ==> n as real <= x < n as real + 1.0
  {
    if x >= INT_MAX as real then INT_MAX
    else if x <= INT_MIN as real then INT_MIN
    else if x >= 0.0 then x.Floor
    else 0 - (0.0 - x).Floor
  }

  /** A score in 0..1 as a whole percentage, rounded down. */
  function Percent(q: real): (pct: int)
    requires 0.0 <= q <= 1.0
    ensures 0 <= pct <= 100
    ensures pct as real <= 100.0 * q < pct as real + 1.0
  {
    DoubleToInt(q * 100.0)
  }

  /**
   * The score shown in the list, as a percentage: that of the first reachable
   * server with the same host name in the batch, or 0 when there is none.
   */
  function GetDisplayScore(s: SstpServer, all: seq<SstpServer>): (pct: int)
    requires Scorable(all)
    ensures 0 <= pct <= 100
  {
    var scores := CalculateScores(all);
    var found := FindByHost(scores, s.hostName);
    Percent(if found.Some? then scores[found.value].qualityScore else 0.0)
  }

  /**
   * The percentage shown is the floor of the first same-named server's
   * score, and 0 when no reachable server of the batch has that name.
   */
  lemma DisplayScoreMeaning(s: SstpServer, all: seq<SstpServer>)
    requires Scorable(all)
    ensures (forall i :: 0 <= i < |all| && Reachable(all[i]) ==> all[i].hostName != s.hostName) ==>
      GetDisplayScore(s, all) == 0
    ensures forall i :: FirstWithHost(CalculateScores(all), s.hostName, i) ==>
      GetDisplayScore(s, all) as real <= 100.0 * CalculateScores(all)[i].qualityScore < GetDisplayScore(s, all) as real + 1.0
  {
    var scores := CalculateScores(all);
    var found := FindByHost(scores, s.hostName);
    if forall i :: 0 <= i < |all| && Reachable(all[i]) ==> all[i].hostName != s.hostName {
      NoScoreForAbsentHost(all, s.hostName);
    }
    forall i | FirstWithHost(scores, s.hostName, i)
      ensures GetDisplayScore(s, all) as real <= 100.0 * scores[i].qualityScore < GetDisplayScore(s, all) as real + 1.0
    {
      FirstWithHostUnique(scores, s.hostName, i, found.value);
    }
  }

  /** The servers of the two-server example below. */
  predicate ExamplePair(a: SstpServer, b: SstpServer) {
    && a.speed == 100 && a.sessions == 0 && a.ping == 50
    && b.speed == 300 && b.sessions == 0 && b.ping == 150
  }

  /** The extremes of an ordered pair are its two elements. */
  lemma PairExtremes(x: real, y: real, dMin: real, dMax: real)
    requires x <= y
    ensures MinOr([x, y], dMin) == x && MaxOr([x, y], dMax) == y
  {
    assert [x, y][1..] == [y];
  }

  lemma ExampleBounds(a: SstpServer, b: SstpServer)
    requires ExamplePair(a, b)
    ensures AllFinite([a, b]) && FilterReachable([a, b]) == [a, b]
    ensures BatchBounds([a, b]) == Bounds(100.0, 300.0, 50.0, 150.0)
  {
    assert AllFinite([a, b]) && FilterReachable([a, b]) == [a, b] by {
      FilterReachableKeepsReachable([a, b]);
    }
    assert Speeds([a, b]) == [100.0, 300.0] by {
      assert EffectiveSpeed(a) == 100.0 && EffectiveSpeed(b) == 300.0;
    }
    assert Pings([a, b]) == [50.0, 150.0];
    PairExtremes(100.0, 300.0, 0.0, 1.0);
    PairExtremes(50.0, 150.0, 0.0, 1000.0);
  }

  lemma ExampleScores(a: SstpServer, b: SstpServer)
    requires ExamplePair(a, b)
    ensures FiniteSpeed(a) && FiniteSpeed(b)
    ensures ScoreOf(a, Bounds(100.0, 300.0, 50.0, 150.0)).qualityScore == 0.4
    ensures ScoreOf(b, Bounds(100.0, 300.0, 50.0, 150.0)).qualityScore == 0.6
  {
    assert EffectiveSpeed(a) == 100.0 && EffectiveSpeed(b) == 300.0;
  }

  /**
   * Two reachable servers: A at 100 bit/s and 50 ms, B at 300 bit/s and
   * 150 ms, neither with sessions. A scores 0.4 (latency only), B 0.6 (speed
   * only).
   */
  lemma TwoServerScores(a: SstpServer, b: SstpServer)
    requires ExamplePair(a, b)
    ensures Scorable([a, b]) && FiniteSpeed(a) && FiniteSpeed(b)
    ensures FilterReachable([a, b]) == [a, b]
    ensures |CalculateScores([a, b])| == 2
    ensures CalculateScores([a, b])[0].qualityScore == 0.4
    ensures CalculateScores([a, b])[1].qualityScore == 0.6
  {
    ExampleBounds(a, b);
    CalculateScoresUnfold([a, b]);
    ExampleScores(a, b);
  }

  /**
   * A server a quarter of the way up the speed range and 35% of the way
   * down the latency range scores exactly 0.29 and displays as 29. (In
   * binary64 the app computes 0.6 * 0.25 + 0.4 * 0.35 as just below 0.29
   * and displays 28; see the rounding note in the README.)
   */
  lemma ExactScoreDisplay(c: SstpServer)
    requires c.speed == 1 && c.sessions == 0 && c.ping == 23
    ensures FiniteSpeed(c)
    ensures ScoreOf(c, Bounds(0.0, 4.0, 10.0, 30.0)).qualityScore == 0.29
    ensures Percent(0.29) == 29
  {
    assert EffectiveSpeed(c) == 1.0;
  }

  /** Ranking two scores of different quality puts the higher one first. */
  lemma RankTwo(scores: seq<ServerScore>, r: seq<ServerScore>)
    requires |scores| == 2 && scores[0].qualityScore < scores[1].qualityScore
    requires |r| == 2 && multiset(r) == multiset(scores) && r[1].qualityScore <= r[0].qualityScore
    ensures r[0] == scores[1] && r[1] == scores[0]
  {
    var lo, hi := scores[0], scores[1];
    assert multiset(scores) == multiset{lo, hi} by {
      assert scores == [lo, hi];
    }
    assert multiset(r) == multiset{r[0], r[1]} by {
      assert r == [r[0], r[1]];
    }
    assert hi == r[0] || hi == r[1] by {
      assert hi in multiset(r);
    }
    assert r[0] == lo || r[0] == hi by {
      assert r[0] in multiset(scores);
    }
    assert lo == r[0] || lo == r[1] by {
      assert lo in multiset(r);
    }
  }

  /** In the two-server example the ranked scores are B's, then A's. */
  lemma TwoServerRankedScores(a: SstpServer, b: SstpServer)
    requires ExamplePair(a, b)
    ensures Scorable([a, b])
    ensures |RankedScores([a, b])| == 2
    ensures RankedScores([a, b])[0].server == b && RankedScores([a, b])[1].server == a
  {
    TwoServerScores(a, b);
    var scores := CalculateScores([a, b]);
    assert scores[0].server == a && scores[1].server == b by {
      assert FilterReachable([a, b])[0] == a && FilterReachable([a, b])[1] == b;
    }
    RankTwo(scores, RankedScores([a, b]));
  }

  /** In the two-server example, B (score 0.6) is ranked before A (score 0.4). */
  lemma TwoServerRanking(a: SstpServer, b: SstpServer)
    requires ExamplePair(a, b)
    ensures Scorable([a, b])
    ensures SortByScore([a, b]) == [b, a]
  {
    TwoServerRankedScores(a, b);
    SortByScoreRanks([a, b]);
    ServersOfTwo(RankedScores([a, b]), b, a);
  }

  /** A non-empty batch is sorted by listing the servers of its ranked scores. */
  lemma SortByScoreRanks(servers: seq<SstpServer>)
    requires Scorable(servers) && |servers| > 0
    ensures SortByScore(servers) == ServersOf(RankedScores(servers))
  {
  }

  /** The servers of two scores, in order. */
  lemma ServersOfTwo(scores: seq<ServerScore>, x: SstpServer, y: SstpServer)
    requires |scores| == 2 && scores[0].server == x && scores[1].server == y
    ensures ServersOf(scores) == [x, y]
  {
    var r := ServersOf(scores);
    assert |r| == 2 && r[0] == x && r[1] == y;
  }

}

=== FILE: stable_sort.dfy ===
/**
 * The stable sort behind Kotlin's `sortedWith` and `sortedByDescending`:
 * an insertion sort over a comparator `lt` ("ranks strictly before"), which
 * must be a strict weak order. The result is ordered, a permutation of the
 * input, and keeps the input order of elements that `lt` cannot tell apart.
 */
module StableSort {

  /** Irreflexive, transitive, and with a transitive incomparability. */
  ghost predicate StrictWeakOrder<T(!new)>(lt: (T, T) -> bool) {
    && (forall a :: !lt(a, a))
    && (forall a, b, c :: lt(a, b) && lt(b, c) ==> lt(a, c))
    && (forall a, b, c :: !lt(a, b) && !lt(b, c) ==> !lt(a, c))
  }

  /** No element ranks strictly before an element to its left. */
  ghost predicate Sorted<T>(s: seq<T>, lt: (T, T) -> bool) {
    forall i, j :: 0 <= i < j < |s| ==> !lt(s[j], s[i])
  }

  /** `a` and `b` rank equally. */
  predicate Tied<T>(lt: (T, T) -> bool, a: T, b: T) {
    !lt(a, b) && !lt(b, a)
  }

  /** The elements of `s` that tie with `k`, in the order of `s`. */
  function TiedWith<T>(s: seq<T>, lt: (T, T) -> bool, k: T): seq<T> {
    if |s| == 0 then []
    else (if Tied(lt, s[0], k) then [s[0]] else []) + TiedWith(s[1..], lt, k)
  }

  /** `x` placed before the first element of `s` that does not rank strictly before it. */
  function Insert<T(!new)>(x: T, s: seq<T>, lt: (T, T) -> bool): (r: seq<T>)
    requires StrictWeakOrder(lt)
    requires Sorted(s, lt)
    ensures Sorted(r, lt)
    ensures multiset(r) == multiset(s) + multiset{x}
  {
    if |s| == 0 || !lt(s[0], x) then
      [x] + s
    else
      var rest := Insert(x, s[1..], lt);
      assert s == [s[0]] + s[1..];
      assert forall k :: 0 <= k < |rest| ==> !lt(rest[k], s[0]) by {
        forall k | 0 <= k < |rest| ensures !lt(rest[k], s[0]) {
          assert rest[k] in multiset(rest);
          if rest[k] != x {
            assert rest[k] in multiset(s[1..]);
            var m :| 0 <= m < |s[1..]| && s[1..][m] == rest[k];
            assert s[m + 1] == rest[k];
          }
        }
      }
      [s[0]] + rest
  }

  /** The stable sort of `s` by `lt`. */
  function Sort<T(!new)>(s: seq<T>, lt: (T, T) -> bool): (r: seq<T>)
    requires StrictWeakOrder(lt)
    ensures Sorted(r, lt)
    ensures multiset(r) == multiset(s)
    ensures |r| == |s|
  {
    if |s| == 0 then []
    else
      assert s == [s[0]] + s[1..];
      var r := Insert(s[0], Sort(s[1..], lt), lt);
      assert |r| == |multiset(r)|;
      r
  }

  lemma {:induction false} TiedWithAppend<T>(a: seq<T>, b: seq<T>, lt: (T, T) -> bool, k: T)
    ensures TiedWith(a + b, lt, k) == TiedWith(a, lt, k) + TiedWith(b, lt, k)
    decreases |a|
  {
    if |a| > 0 {
      assert (a + b)[1..] == a[1..] + b;
      TiedWithAppend(a[1..], b, lt, k);
    } else {
      assert a + b == b;
    }
  }

  /** Inserting `x` keeps the relative order of `x` and the elements of `s` it ties with. */
  lemma {:induction false} InsertStable<T(!new)>(x: T, s: seq<T>, lt: (T, T) -> bool, k: T)
    requires StrictWeakOrder(lt)
    requires Sorted(s, lt)
    ensures TiedWith(Insert(x, s, lt), lt, k) == TiedWith([x] + s, lt, k)
    decreases |s|
  {
    if |s| == 0 || !lt(s[0], x) {
    } else {
      var rest := Insert(x, s[1..], lt);
      InsertStable(x, s[1..], lt, k);
      TiedWithAppend([s[0]], rest, lt, k);
      TiedWithAppend([x], s[1..], lt, k);
      TiedWithAppend([s[0]], s[1..], lt, k);
      TiedWithAppend([x], s, lt, k);
      assert s == [s[0]] + s[1..];
      TiedWithAppend([x, s[0]], s[1..], lt, k);
      TiedWithAppend([s[0], x], s[1..], lt, k);
      TiedWithAppend([s[0]], [x] + s[1..], lt, k);
      assert [x] + s == [x, s[0]] + s[1..];
      assert [s[0]] + ([x] + s[1..]) == [s[0], x] + s[1..];
      // s[0] ranks strictly before x, so at most one of them ties with k
      assert !(Tied(lt, s[0], k) && Tied(lt, x, k));
      assert TiedWith([x, s[0]], lt, k) == TiedWith([s[0], x], lt, k);
    }
  }

  /**
   * Stability: among the elements that tie with any `k`, the sorted output
   * keeps exactly the input order.
   */
  lemma {:induction false} SortStable<T(!new)>(s: seq<T>, lt: (T, T) -> bool, k: T)
    requires StrictWeakOrder(lt)
    ensures TiedWith(Sort(s, lt), lt, k) == TiedWith(s, lt, k)
    decreases |s|
  {
    if |s| > 0 {
      var t := Sort(s[1..], lt);
      InsertStable(s[0], t, lt, k);
      SortStable(s[1..], lt, k);
      TiedWithAppend([s[0]], t, lt, k);
      TiedWithAppend([s[0]], s[1..], lt, k);
      assert s == [s[0]] + s[1..];
    }
  }

  /** `f` applied to every element of `s`, in order. */
  function Map<A, B>(f: A -> B, s: seq<A>): (r: seq<B>)
    ensures |r| == |s| && forall i :: 0 <= i < |s| ==> r[i] == f(s[i])
  {
    if |s| == 0 then [] else [f(s[0])] + Map(f, s[1..])
  }

  lemma MapAppend<A, B>(f: A -> B, a: seq<A>, b: seq<A>)
    ensures Map(f, a + b) == Map(f, a) + Map(f, b)
  {
  }

  /** Permuting the elements permutes their images the same way. */
  lemma {:induction false} MapPermutation<A, B>(f: A -> B, a: seq<A>, b: seq<A>)
    requires multiset(a) == multiset(b)
    ensures multiset(Map(f, a)) == multiset(Map(f, b))
    decreases |a|
  {
    if |a| == 0 {
      assert |b| == |multiset(b)| == 0;
    } else {
      assert a[0] in multiset(b);
      var j :| 0 <= j < |b| && b[j] == a[0];
      var rest := b[..j] + b[j + 1..];
      assert multiset(a[1..]) == multiset(rest) by {
        assert a == [a[0]] + a[1..];
        assert b == b[..j] + [b[j]] + b[j + 1..];
        calc {
          multiset(a[1..]);
          multiset(a) - multiset{a[0]};
          multiset(b) - multiset{b[j]};
          multiset(b[..j]) + multiset(b[j + 1..]);
          multiset(rest);
        }
      }
      assert b == b[..j] + [b[j]] + b[j + 1..];
      assert a == [a[0]] + a[1..];
      MapPermutation(f, a[1..], rest);
      MapAppend(f, b[..j], b[j + 1..]);
      MapAppend(f, b[..j] + [b[j]], b[j + 1..]);
      MapAppend(f, b[..j], [b[j]]);
      MapAppend(f, [a[0]], a[1..]);
    }
  }
}

=== FILE: text.dfy ===
/**
 * The Kotlin `String` operations the parsers rely on, over `string` (a
 * sequence of Unicode scalar values): `isWhitespace`, `trim`, `isBlank`,
 * `split` on one delimiter, `lines()`, and the ASCII part of the
 * case-insensitive comparisons.
 */
module Text {

  /**
   * Kotlin's `Char.isWhitespace()`: Java's `Character.isWhitespace` or
   * `Character.isSpaceChar`, i.e. the controls TAB..CR and FS..US plus every
   * space, line and paragraph separator of the Unicode tables.
   */
  predicate IsWhitespace(c: char) {
    || c == ' '
    || '\t' <= c <= '\r'
    || '\U{1C}' <= c <= '\U{1F}'
    || c == '\U{A0}'
    || c == '\U{1680}'
    || '\U{2000}' <= c <= '\U{200A}'
    || c == '\U{2028}' || c == '\U{2029}'
    || c == '\U{202F}' || c == '\U{205F}' || c == '\U{3000}'
  }

  /** Kotlin's `isBlank()`: empty or whitespace only. */
  predicate IsBlank(s: string) {
    forall i :: 0 <= i < |s| ==> IsWhitespace(s[i])
  }

  /** How many whitespace characters `s` starts with. */
  function LeadingWhitespace(s: string): (n: nat)
    ensures n <= |s|
    ensures forall i :: 0 <= i < n ==> IsWhitespace(s[i])
    ensures n < |s| ==> !IsWhitespace(s[n])
  {
    if |s| > 0 && IsWhitespace(s[0]) then
      var n := 1 + LeadingWhitespace(s[1..]);
      assert forall i :: 1 <= i < n ==> s[i] == s[1..][i - 1];
      n
    else 0
  }

  /** How many whitespace characters `s` ends with. */
  function TrailingWhitespace(s: string): (n: nat)
    ensures n <= |s|
    ensures forall i :: |s| - n <= i < |s| ==> IsWhitespace(s[i])
    ensures n < |s| ==> !IsWhitespace(s[|s| - n - 1])
  {
    if |s| > 0 && IsWhitespace(s[|s| - 1]) then
      var n := 1 + TrailingWhitespace(s[..|s| - 1]);
      assert forall i :: |s| - n <= i < |s| - 1 ==> s[i] == s[..|s| - 1][i];
      n
    else 0
  }

  /** `s` with its leading whitespace removed. */
  function TrimStart(s: string): (r: string)
    ensures |r| <= |s| && r == s[|s| - |r|..]
    ensures |r| > 0 ==> !IsWhitespace(r[0])
    ensures forall i :: 0 <= i < |s| - |r| ==> IsWhitespace(s[i])
  {
    s[LeadingWhitespace(s)..]
  }

  /** `s` with its trailing whitespace removed. */
  function TrimEnd(s: string): (r: string)
    ensures |r| <= |s| && r == s[..|r|]
    ensures |r| > 0 ==> !IsWhitespace(r[|r| - 1])
    ensures forall i :: |r| <= i < |s| ==> IsWhitespace(s[i])
  {
    s[..|s| - TrailingWhitespace(s)]
  }

  /**
   * Kotlin's `trim()`: `s` without its leading and trailing whitespace. The
   * result neither starts nor ends with whitespace, and is empty exactly
   * when `s` is blank; `TrimInfix` says what was cut off.
   */
  function Trim(s: string): (r: string)
    ensures |r| <= |s|
    ensures |r| > 0 ==> !IsWhitespace(r[0]) && !IsWhitespace(r[|r| - 1])
    ensures r == [] <==> IsBlank(s)
  {
    TrimEnd(TrimStart(s))
  }

  /** A prefix of a suffix of `s` is an infix of `s`. */
  lemma PrefixOfSuffix<T>(s: seq<T>, k: nat, t: seq<T>, r: seq<T>)
    requires k <= |s| && t == s[k..] && |r| <= |t| && r == t[..|r|]
    ensures k + |r| <= |s| && r == s[k..k + |r|] && t[|r|..] == s[k + |r|..]
  {
  }

  /** `Trim(s)` is the infix of `s` that starts after its leading whitespace. */
  lemma {:induction false} TrimInfix(s: string)
    ensures var r := Trim(s); var k := |s| - |TrimStart(s)|;
      k + |r| <= |s| && r == s[k..k + |r|]
  {
    var t := TrimStart(s);
    var k, r := |s| - |t|, TrimEnd(t);
    assert Trim(s) == r;
    PrefixOfSuffix(s, k, t, r);
  }

  /** Everything `Trim` cuts off, at either end, is whitespace. */
  lemma {:induction false} TrimCutsWhitespace(s: string)
    ensures var r := Trim(s); var k := |s| - |TrimStart(s)|;
      k + |r| <= |s| && IsBlank(s[..k]) && IsBlank(s[k + |r|..])
  {
    var t := TrimStart(s);
    var k, r := |s| - |t|, TrimEnd(t);
    PrefixOfSuffix(s, k, t, r);
    var head, tail := s[..k], t[|r|..];
    assert IsBlank(head) by {
      forall i | 0 <= i < |head| ensures IsWhitespace(head[i]) {
        assert head[i] == s[i];
      }
    }
    assert IsBlank(tail) by {
      forall i | 0 <= i < |tail| ensures IsWhitespace(tail[i]) {
        assert tail[i] == t[|r| + i];
      }
    }
  }

  /** Trimming a string that has no whitespace at either end changes nothing. */
  lemma TrimNoOp(s: string)
    requires |s| > 0 ==> !IsWhitespace(s[0]) && !IsWhitespace(s[|s| - 1])
    ensures Trim(s) == s
  {
  }

  /** Trimming is idempotent. */
  lemma TrimIdempotent(s: string)
    ensures Trim(Trim(s)) == Trim(s)
  {
    TrimNoOp(Trim(s));
  }

  /** No character of `s` is `d`. */
  predicate Lacks(s: string, d: char) {
    forall i :: 0 <= i < |s| ==> s[i] != d
  }

  /** The position of the first `d` in `s`. */
  function IndexOf(s: string, d: char): (i: nat)
    requires !Lacks(s, d)
    ensures i < |s| && s[i] == d && Lacks(s[..i], d)
  {
    if s[0] == d then 0 else 1 + IndexOf(s[1..], d)
  }

  /** The parts joined back together with `d` between each pair. */
  function Join(parts: seq<string>, d: char): string
    requires |parts| > 0
  {
    if |parts| == 1 then parts[0] else parts[0] + [d] + Join(parts[1..], d)
  }

  /**
   * Kotlin's `split(d)` with no limit: every maximal `d`-free run, empty
   * ones included, so a string with k delimiters has k + 1 parts.
   */
  function Split(s: string, d: char): (parts: seq<string>)
    ensures |parts| > 0
    ensures forall i :: 0 <= i < |parts| ==> Lacks(parts[i], d)
    decreases |s|
  {
    if Lacks(s, d) then [s]
    else
      var i := IndexOf(s, d);
      [s[..i]] + Split(s[i + 1..], d)
  }

  /** Joining the parts of a split gives the string back. */
  lemma {:induction false} JoinSplit(s: string, d: char)
    ensures Join(Split(s, d), d) == s
    decreases |s|
  {
    if !Lacks(s, d) {
      var i := IndexOf(s, d);
      JoinSplit(s[i + 1..], d);
      assert s == s[..i] + [d] + s[i + 1..];
    }
  }

  /** Splitting undoes joining: the inverse direction of `Split`'s contract. */
  lemma {:induction false} SplitJoin(parts: seq<string>, d: char)
    requires |parts| > 0
    requires forall i :: 0 <= i < |parts| ==> Lacks(parts[i], d)
    ensures Split(Join(parts, d), d) == parts
    decreases |parts|
  {
    if |parts| > 1 {
      var s := Join(parts, d);
      var tail := Join(parts[1..], d);
      assert s == parts[0] + [d] + tail;
      assert s[|parts[0]|] == d;
      var i := IndexOf(s, d);
      assert i == |parts[0]|;
      assert s[..i] == parts[0];
      assert s[i + 1..] == tail;
      SplitJoin(parts[1..], d);
    } else {
      assert Join(parts, d) == parts[0];
    }
  }

  /** Joining one more part appends the delimiter and that part. */
  lemma {:induction false} JoinAppend(parts: seq<string>, q: string, d: char)
    requires |parts| > 0
    ensures Join(parts + [q], d) == Join(parts, d) + [d] + q
    decreases |parts|
  {
    if |parts| > 1 {
      assert (parts + [q])[1..] == parts[1..] + [q];
      JoinAppend(parts[1..], q, d);
    } else {
      assert (parts + [q])[1..] == [q];
    }
  }

  predicate IsLineBreak(c: char) { c == '\n' || c == '\r' }

  function FirstBreak(s: string): (i: nat)
    requires exists j :: 0 <= j < |s| && IsLineBreak(s[j])
    ensures i < |s| && IsLineBreak(s[i])
    ensures forall j :: 0 <= j < i ==> !IsLineBreak(s[j])
  {
    if IsLineBreak(s[0]) then 0 else 1 + FirstBreak(s[1..])
  }

  /**
   * Kotlin's `lines()`: `s` cut at every CRLF, LF or CR, with a trailing
   * empty line when `s` ends with a break. No line holds a break.
   */
  function Lines(s: string): (r: seq<string>)
    ensures |r| > 0
    ensures forall i, j :: 0 <= i < |r| && 0 <= j < |r[i]| ==> !IsLineBreak(r[i][j])
    ensures (forall j :: 0 <= j < |s| ==> !IsLineBreak(s[j])) ==> r == [s]
    decreases |s|
  {
    if forall j :: 0 <= j < |s| ==> !IsLineBreak(s[j]) then [s]
    else
      var i := FirstBreak(s);
      var next := if s[i] == '\r' && i + 1 < |s| && s[i + 1] == '\n' then i + 2 else i + 1;
      [s[..i]] + Lines(s[next..])
  }

  /**
   * The first line ends at the first break: after a break-free `a`, an LF,
   * a CRLF, or a CR not followed by LF ends one line, and the rest of the
   * text is cut the same way.
   */
  lemma LinesAfterBreak(a: string, br: string, b: string)
    requires forall j :: 0 <= j < |a| ==> !IsLineBreak(a[j])
    requires br == "\n" || br == "\r\n" || (br == "\r" && (|b| == 0 || b[0] != '\n'))
    ensures Lines(a + br + b) == [a] + Lines(b)
  {
    var s := a + br + b;
    assert forall j :: 0 <= j < |a| ==> s[j] == a[j];
    assert s[|a|] == br[0];
    var i := FirstBreak(s);
    assert i == |a|;
    assert s[..i] == a;
    if br == "\r\n" {
      assert s[i + 1] == '\n';
      assert s[i + 2..] == b;
    } else if br == "\r" {
      if i + 1 < |s| { assert s[i + 1] == b[0]; }
      assert s[i + 1..] == b;
    } else {
      assert s[i + 1..] == b;
    }
  }

  /** For text broken only by LF, joining the lines with LF gives the text back. */
  lemma {:induction false} JoinLines(s: string)
    requires forall j :: 0 <= j < |s| ==> s[j] != '\r'
    ensures Join(Lines(s), '\n') == s
    decreases |s|
  {
    if !forall j :: 0 <= j < |s| ==> !IsLineBreak(s[j]) {
      var i := FirstBreak(s);
      assert s[i] == '\n';
      var tail := s[i + 1..];
      assert forall j :: 0 <= j < |tail| ==> tail[j] != '\r' by {
        forall j | 0 <= j < |tail| ensures tail[j] != '\r' {
          assert tail[j] == s[i + 1 + j];
        }
      }
      var a, rest := s[..i], Lines(tail);
      calc {
        Join(Lines(s), '\n');
        { assert Lines(s) == [a] + rest; }
        Join([a] + rest, '\n');
        { JoinCons(a, rest, '\n'); }
        a + ['\n'] + Join(rest, '\n');
        { JoinLines(tail); }
        a + ['\n'] + tail;
        { SplitAround(s, i); }
        s;
      }
    }
  }

  /** A sequence is its part before `i`, its element at `i`, and its part after. */
  lemma SplitAround<T>(s: seq<T>, i: nat)
    requires i < |s|
    ensures s == s[..i] + [s[i]] + s[i + 1..]
  {
  }

  /** Joining a first part in front of at least one more. */
  lemma JoinCons(p: string, rest: seq<string>, d: char)
    requires |rest| > 0
    ensures Join([p] + rest, d) == p + [d] + Join(rest, d)
  {
    assert ([p] + rest)[1..] == rest;
  }

  /** Every line of a blank string is blank. */
  lemma {:induction false} LinesOfBlank(s: string)
    requires IsBlank(s)
    ensures forall i :: 0 <= i < |Lines(s)| ==> IsBlank(Lines(s)[i])
    decreases |s|
  {
    if !forall j :: 0 <= j < |s| ==> !IsLineBreak(s[j]) {
      var i := FirstBreak(s);
      var next := if s[i] == '\r' && i + 1 < |s| && s[i + 1] == '\n' then i + 2 else i + 1;
      assert IsBlank(s[next..]) by {
        forall k | 0 <= k < |s[next..]| ensures IsWhitespace(s[next..][k]) {
          assert s[next..][k] == s[next + k];
        }
      }
      LinesOfBlank(s[next..]);
      var rest := Lines(s[next..]);
      assert Lines(s) == [s[..i]] + rest;
      assert IsBlank(s[..i]) by {
        forall k | 0 <= k < i ensures IsWhitespace(s[..i][k]) {
          assert s[..i][k] == s[k];
        }
      }
    }
  }

  /** Kotlin's `uppercaseChar()` restricted to ASCII letters. */
  function UpperAscii(c: char): (u: char)
    ensures 'a' <= c <= 'z' ==> 'A' <= u <= 'Z' && u as int == c as int - 32
    ensures !('a' <= c <= 'z') ==> u == c
  {
    if 'a' <= c <= 'z' then (c as int - 32) as char else c
  }

  function UpperAsciiString(s: string): (u: string)
    ensures |u| == |s|
    ensures forall i :: 0 <= i < |s| ==> u[i] == UpperAscii(s[i])
  {
    seq(|s|, i requires 0 <= i < |s| => UpperAscii(s[i]))
  }

  predicate CharEqualsIgnoreCase(a: char, b: char) { UpperAscii(a) == UpperAscii(b) }

  /** `a.equals(b, ignoreCase = true)`. */
  predicate EqualsIgnoreCase(a: string, b: string) {
    |a| == |b| && forall i :: 0 <= i < |a| ==> CharEqualsIgnoreCase(a[i], b[i])
  }

  /** `s.endsWith(suffix, ignoreCase = true)`. */
  predicate EndsWithIgnoreCase(s: string, suffix: string) {
    |suffix| <= |s| && EqualsIgnoreCase(s[|s| - |suffix|..], suffix)
  }

  /** `s.contains(t, ignoreCase = true)`. */
  predicate ContainsIgnoreCase(s: string, t: string) {
    exists i :: 0 <= i <= |s| - |t| && MatchesIgnoreCaseAt(s, t, i)
  }

  predicate MatchesIgnoreCaseAt(s: string, t: string, i: int) {
    0 <= i <= |s| - |t| && EqualsIgnoreCase(s[i..i + |t|], t)
  }

  /** `s.endsWith(suffix)`, case-sensitive. */
  predicate EndsWith(s: string, suffix: string) {
    |suffix| <= |s| && s[|s| - |suffix|..] == suffix
  }

  /** `s.removePrefix(p)`: at most one copy of `p` is removed. */
  function RemovePrefix(s: string, p: string): (r: string)
    ensures |p| <= |s| && s[..|p|] == p ==> p + r == s
    ensures !(|p| <= |s| && s[..|p|] == p) ==> r == s
  {
    if |p| <= |s| && s[..|p|] == p then s[|p|..] else s
  }
}

=== FILE: update_check_result.dfy ===
/**
 * The record an update check hands to its callback, and the two shorthand
 * constructors for "nothing newer" and "the update check failed".
 */
module UpdateCheckResults {
  import opened Wrappers

  /**
   * One outcome of an update check. `latestVersion` is the release's version
   * (absent when the update check failed), `apkSize` is a `Long` that defaults to 0,
   * and `error` is present exactly for failed checks.
   */
  datatype UpdateCheckResult = UpdateCheckResult(
    updateAvailable: bool,
    latestVersion: Option<string>,
    currentVersion: string,
    downloadUrl: Option<string>,
    releaseNotes: Option<string>,
    releaseDate: Option<string>,
    apkSize: int,
    error: Option<string>)

  const DEFAULT_APK_SIZE: int := 0

  /** A failed check: it carries an error and no release information at all. */
  predicate IsFailure(r: UpdateCheckResult) {
    && r.error.Some?
    && r.latestVersion.None?
    && r.downloadUrl.None? && r.releaseNotes.None? && r.releaseDate.None?
    && r.apkSize == DEFAULT_APK_SIZE
  }

  /**
   * What every result the app builds respects: an offered update comes with
   * the version it offers, and an error rules out an update.
   */
  predicate Coherent(r: UpdateCheckResult) {
    && (r.updateAvailable ==> r.latestVersion.Some? && r.error.None?)
    && (r.error.Some? ==> !r.updateAvailable)
  }

  /** `noUpdate(cv)`: the installed version is the latest one. */
  function NoUpdate(currentVersion: string): (r: UpdateCheckResult)
    ensures !r.updateAvailable && r.error.None?
    ensures r.latestVersion == Some(r.currentVersion) && r.currentVersion == currentVersion
    ensures r.downloadUrl.None? && r.releaseNotes.None? && r.releaseDate.None?
    ensures r.apkSize == DEFAULT_APK_SIZE
  {
    UpdateCheckResult(false, Some(currentVersion), currentVersion, None, None, None, DEFAULT_APK_SIZE, None)
  }

  /** `error(cv, msg)`: the update check failed with `errorMessage`. */
  function Error(currentVersion: string, errorMessage: string): (r: UpdateCheckResult)
    ensures IsFailure(r) && !r.updateAvailable
    ensures r.error == Some(errorMessage) && r.currentVersion == currentVersion
  {
    UpdateCheckResult(false, None, currentVersion, None, None, None, DEFAULT_APK_SIZE, Some(errorMessage))
  }

  /**
   * Both shorthands build coherent results that never offer an update, and
   * they can never be confused: one is a failure, the other is not.
   */
  lemma FactoriesAreCoherent(cv: string, msg: string)
    ensures Coherent(NoUpdate(cv)) && Coherent(Error(cv, msg))
    ensures !IsFailure(NoUpdate(cv)) && IsFailure(Error(cv, msg))
    ensures NoUpdate(cv) != Error(cv, msg)
  {
  }
}

=== FILE: update_manager.dfy ===
/**
 * The decision logic of the self-updater: comparing dotted version strings,
 * turning a release description into an `UpdateCheckResult`, and the
 * percentage reported while an APK downloads. The HTTP calls, the JSON
 * decoding and the file streaming around them are not modelled: a release
 * arrives already decoded, and a download as the sizes of its chunks.
 */
module UpdateManager {
  import opened Wrappers
  import opened KotlinInts
  import opened Text
  import opened Decimal
  import opened UpdateCheckResults
  import VpnRepository

  // ---------------------------------------------------------------------
  // Version comparison
  // ---------------------------------------------------------------------

  /** `v.split(".").map { it.toIntOrNull() ?: 0 }`: one number per dotted component. */
  function VersionParts(v: string): (parts: seq<int>)
    ensures |parts| == |Split(v, '.')| > 0
    ensures forall i :: 0 <= i < |parts| ==> parts[i] == IntOrZero(Split(v, '.')[i])
  {
    var fields := Split(v, '.');
    seq(|fields|, i requires 0 <= i < |fields| => IntOrZero(fields[i]))
  }

  /** `parts.getOrElse(i) { 0 }`: missing components count as 0. */
  function PartAt(parts: seq<int>, i: nat): int {
    if i < |parts| then parts[i] else 0
  }

  /** The 0-padded component lists agree on every position below `k`. */
  ghost predicate AgreeBelow(x: seq<int>, y: seq<int>, k: nat) {
    forall j: nat :: j < k ==> PartAt(x, j) == PartAt(y, j)
  }

  /**
   * The reference order: at the first position where the 0-padded
   * component lists differ, `x` has the larger component.
   */
  ghost predicate NewerParts(x: seq<int>, y: seq<int>) {
    exists k: nat :: AgreeBelow(x, y, k) && PartAt(x, k) > PartAt(y, k)
  }

  /** The two lists denote the same version once padded with zeros. */
  ghost predicate SameVersion(x: seq<int>, y: seq<int>) {
    forall j: nat :: PartAt(x, j) == PartAt(y, j)
  }

  function MaxLen(x: seq<int>, y: seq<int>): nat {
    if |x| < |y| then |y| else |x|
  }

  /** The loop of `isNewerVersion` from position `i` on, once the earlier positions tied. */
  function NewerFrom(x: seq<int>, y: seq<int>, i: nat): (r: bool)
    requires AgreeBelow(x, y, i)
    ensures r <==> NewerParts(x, y)
    decreases MaxLen(x, y) - i
  {
    if i >= MaxLen(x, y) then
      assert !NewerParts(x, y) by {
        forall k: nat | AgreeBelow(x, y, k) ensures PartAt(x, k) <= PartAt(y, k) {
          if k < i {
            assert PartAt(x, k) == PartAt(y, k);
          }
        }
      }
      false
    else if PartAt(x, i) > PartAt(y, i) then
      true
    else if PartAt(x, i) < PartAt(y, i) then
      assert !NewerParts(x, y) by {
        forall k: nat | AgreeBelow(x, y, k) ensures PartAt(x, k) <= PartAt(y, k) {
          assert k <= i;
        }
      }
      false
    else
      NewerFrom(x, y, i + 1)
  }

  /**
   * `isNewerVersion(newVersion, currentVersion)`: the dotted versions are
   * compared component by component, a non-numeric component counting as 0
   * and a missing one as 0.
   */
  function IsNewerVersion(newVersion: string, currentVersion: string): (r: bool)
    ensures r <==> NewerParts(VersionParts(newVersion), VersionParts(currentVersion))
  {
    NewerFrom(VersionParts(newVersion), VersionParts(currentVersion), 0)
  }

  /** No version is newer than itself. */
  lemma NewerIrreflexive(x: seq<int>)
    ensures !NewerParts(x, x)
  {
  }

  /** Two versions are never each newer than the other. */
  lemma NewerAsymmetric(x: seq<int>, y: seq<int>)
    ensures NewerParts(x, y) ==> !NewerParts(y, x)
  {
    if NewerParts(x, y) {
      var k1: nat :| AgreeBelow(x, y, k1) && PartAt(x, k1) > PartAt(y, k1);
      forall k2: nat | AgreeBelow(y, x, k2) ensures PartAt(y, k2) <= PartAt(x, k2) {
        assert k2 <= k1;
      }
    }
  }

  /** Newer-than is transitive. */
  lemma NewerTransitive(x: seq<int>, y: seq<int>, z: seq<int>)
    requires NewerParts(x, y) && NewerParts(y, z)
    ensures NewerParts(x, z)
  {
    var k1: nat :| AgreeBelow(x, y, k1) && PartAt(x, k1) > PartAt(y, k1);
    var k2: nat :| AgreeBelow(y, z, k2) && PartAt(y, k2) > PartAt(z, k2);
    var k := if k1 < k2 then k1 else k2;
    assert AgreeBelow(x, z, k) by {
      forall j: nat | j < k ensures PartAt(x, j) == PartAt(z, j) {
        assert PartAt(x, j) == PartAt(y, j) && PartAt(y, j) == PartAt(z, j);
      }
    }
    if k1 < k2 {
      assert PartAt(y, k1) == PartAt(z, k1);
    } else if k2 < k1 {
      assert PartAt(x, k2) == PartAt(y, k2);
    }
    assert PartAt(x, k) > PartAt(z, k);
  }

  /** Where two lists differ at `k`, there is a first position where they differ. */
  lemma {:induction false} FirstDifference(x: seq<int>, y: seq<int>, k: nat)
    requires PartAt(x, k) != PartAt(y, k)
    ensures exists m: nat :: AgreeBelow(x, y, m) && PartAt(x, m) != PartAt(y, m)
  {
    if !AgreeBelow(x, y, k) {
      var j: nat :| j < k && PartAt(x, j) != PartAt(y, j);
      FirstDifference(x, y, j);
    }
  }

  /** Versions that do not denote the same numbers are ordered one way or the other. */
  lemma NewerTotal(x: seq<int>, y: seq<int>)
    ensures SameVersion(x, y) || NewerParts(x, y) || NewerParts(y, x)
  {
    if !SameVersion(x, y) {
      var k: nat :| PartAt(x, k) != PartAt(y, k);
      FirstDifference(x, y, k);
      var m: nat :| AgreeBelow(x, y, m) && PartAt(x, m) != PartAt(y, m);
      assert AgreeBelow(y, x, m);
    }
  }

  /** Versions that denote the same numbers compare alike against everything. */
  lemma NewerRespectsSameVersion(x: seq<int>, x': seq<int>, y: seq<int>)
    requires SameVersion(x, x')
    ensures NewerParts(x, y) <==> NewerParts(x', y)
    ensures NewerParts(y, x) <==> NewerParts(y, x')
  {
    if NewerParts(x, y) {
      var k: nat :| AgreeBelow(x, y, k) && PartAt(x, k) > PartAt(y, k);
      assert AgreeBelow(x', y, k);
    }
    if NewerParts(x', y) {
      var k: nat :| AgreeBelow(x', y, k) && PartAt(x', k) > PartAt(y, k);
      assert AgreeBelow(x, y, k);
    }
    if NewerParts(y, x) {
      var k: nat :| AgreeBelow(y, x, k) && PartAt(y, k) > PartAt(x, k);
      assert AgreeBelow(y, x', k);
    }
    if NewerParts(y, x') {
      var k: nat :| AgreeBelow(y, x', k) && PartAt(y, k) > PartAt(x', k);
      assert AgreeBelow(y, x, k);
    }
  }

  /** A version is never newer than itself. */
  lemma VersionIrreflexive(v: string)
    ensures !IsNewerVersion(v, v)
  {
    NewerIrreflexive(VersionParts(v));
  }

  /** Appending a dotted component appends its number to the parts. */
  lemma AppendComponent(v: string, p: string)
    requires Lacks(p, '.')
    ensures VersionParts(v + "." + p) == VersionParts(v) + [IntOrZero(p)]
  {
    var fields := Split(v, '.');
    JoinSplit(v, '.');
    JoinAppend(fields, p, '.');
    assert v + "." + p == Join(fields + [p], '.');
    assert forall i :: 0 <= i < |fields + [p]| ==> Lacks((fields + [p])[i], '.');
    SplitJoin(fields + [p], '.');
  }

  /** Version strings whose parts denote the same numbers compare alike against every version. */
  lemma ComparesAlike(v: string, v': string, w: string)
    requires SameVersion(VersionParts(v), VersionParts(v'))
    ensures IsNewerVersion(v, w) == IsNewerVersion(v', w)
    ensures IsNewerVersion(w, v) == IsNewerVersion(w, v')
  {
    NewerRespectsSameVersion(VersionParts(v), VersionParts(v'), VersionParts(w));
  }

  /** Padding with a zero component changes no position. */
  lemma PadSameVersion(x: seq<int>)
    ensures SameVersion(x, x + [0])
  {
    forall j: nat ensures PartAt(x, j) == PartAt(x + [0], j) {
      if j < |x| {
        assert (x + [0])[j] == x[j];
      }
    }
  }

  lemma ZeroComponent()
    ensures IntOrZero("0") == 0 && Lacks("0", '.')
  {
    assert DigitsValue("0") == 0 by {
      assert "0"[..0] == [];
    }
  }

  /** A trailing ".0" never changes the comparison, in either position. */
  lemma TrailingZeroIgnored(v: string, w: string)
    ensures IsNewerVersion(v + ".0", w) == IsNewerVersion(v, w)
    ensures IsNewerVersion(w, v + ".0") == IsNewerVersion(w, v)
  {
    ZeroComponent();
    assert v + ".0" == v + "." + "0";
    AppendComponent(v, "0");
    PadSameVersion(VersionParts(v));
    ComparesAlike(v + ".0", v, w);
  }

  /** A component that is not an `Int` compares as 0. */
  lemma NonNumericIsZero(v: string, p: string, w: string)
    requires Lacks(p, '.') && (!IsSignedDecimal(p) || !IsInt(SignedValue(p)))
    ensures IsNewerVersion(v + "." + p, w) == IsNewerVersion(v + ".0", w)
    ensures IsNewerVersion(w, v + "." + p) == IsNewerVersion(w, v + ".0")
  {
    ZeroComponent();
    assert v + ".0" == v + "." + "0";
    AppendComponent(v, p);
    AppendComponent(v, "0");
    ComparesAlike(v + "." + p, v + ".0", w);
  }

  /** "1.2" and "1.2.0" are the same release: neither is newer than the other. */
  lemma TrailingZeroNeverNewer(v: string)
    ensures !IsNewerVersion(v + ".0", v) && !IsNewerVersion(v, v + ".0")
  {
    TrailingZeroIgnored(v, v);
    VersionIrreflexive(v);
  }

  /** "1.x" and "1.0" are the same release: neither is newer than the other. */
  lemma NonNumericNeverNewer(v: string, p: string)
    requires Lacks(p, '.') && (!IsSignedDecimal(p) || !IsInt(SignedValue(p)))
    ensures !IsNewerVersion(v + "." + p, v + ".0") && !IsNewerVersion(v + ".0", v + "." + p)
  {
    NonNumericIsZero(v, p, v + ".0");
    VersionIrreflexive(v + ".0");
  }

  // ---------------------------------------------------------------------
  // Update check
  // ---------------------------------------------------------------------

  /** One entry of the release's `assets` array, missing fields already defaulted. */
  datatype Asset = Asset(name: string, browserDownloadUrl: string, size: int)

  /** The fields of the latest-release object the update check reads. */
  datatype Release = Release(tagName: string, body: string, publishedAt: string, assets: seq<Asset>)

  /**
   * How the request for the latest release ended: an HTTP status with the
   * decoded release, or an exception (a network failure, or a body that is
   * not a JSON object) with its optional message.
   */
  datatype ReleaseFetch =
    | Fetched(status: int, release: Release)
    | Thrown(message: Option<string>)

  const TAG_PREFIX: string := "v"
  const APK_EXTENSION: string := ".apk"
  const UNKNOWN_ERROR: string := "Unknown error"

  /** The asset's name ends with ".apk", with case. */
  predicate IsApk(a: Asset) {
    EndsWith(a.name, APK_EXTENSION)
  }

  /** `assets[i]` is the first APK asset. */
  predicate FirstApkAt(assets: seq<Asset>, i: int) {
    && 0 <= i < |assets| && IsApk(assets[i])
    && forall j :: 0 <= j < i ==> !IsApk(assets[j])
  }

  /** The position of the first APK asset, if any. */
  function FirstApk(assets: seq<Asset>): (r: Option<nat>)
    ensures r.None? <==> forall i :: 0 <= i < |assets| ==> !IsApk(assets[i])
    ensures r.Some? ==> FirstApkAt(assets, r.value)
  {
    if |assets| == 0 then None
    else if IsApk(assets[0]) then Some(0)
    else match FirstApk(assets[1..])
      case None => None
      case Some(i) => Some(i + 1)
  }

  /** The download the result offers: a URL and the APK's size in bytes. */
  datatype Download = Download(url: Option<string>, size: int)

  /**
   * The asset loop of `checkForUpdates`: the URL and size of the first APK
   * asset, and no URL with size 0 when there is none.
   */
  function ApkDownload(assets: seq<Asset>): (d: Download)
    ensures d.url.None? ==> d.size == 0
    ensures d.url.None? <==> forall i :: 0 <= i < |assets| ==> !IsApk(assets[i])
    ensures d.url.Some? ==> exists i :: FirstApkAt(assets, i) && d == Download(Some(assets[i].browserDownloadUrl), assets[i].size)
  {
    match FirstApk(assets)
    case None => Download(None, 0)
    case Some(i) => Download(Some(assets[i].browserDownloadUrl), assets[i].size)
  }

  /** The message for an unsuccessful status: "HTTP " and the code. */
  function HttpError(status: int): string {
    "HTTP " + DecimalString(status)
  }

  /** The version a release tag names: at most one leading "v" removed. */
  function TagVersion(tag: string): (v: string)
    ensures |v| <= |tag|
    ensures |tag| > 0 && tag[0] == 'v' ==> TAG_PREFIX + v == tag
    ensures !(|tag| > 0 && tag[0] == 'v') ==> v == tag
  {
    RemovePrefix(tag, TAG_PREFIX)
  }

  /** Tagging a version the way releases are tagged, then reading the tag, gives the version back. */
  lemma TagVersionRoundTrip(version: string)
    ensures TagVersion(TAG_PREFIX + version) == version
  {
    assert (TAG_PREFIX + version)[0] == 'v';
  }

  /**
   * `checkForUpdates` as a function of what the request produced: a
   * non-2xx status and any exception become error results; otherwise the
   * release's version, notes, date and first APK are reported, with an
   * update offered exactly when the release is newer than `currentVersion`.
   */
  function CheckForUpdates(currentVersion: string, fetch: ReleaseFetch): (r: UpdateCheckResult)
    ensures r.currentVersion == currentVersion && Coherent(r)
    ensures r.error.None? <==> fetch.Fetched? && VpnRepository.IsSuccessful(fetch.status)
    ensures fetch.Thrown? ==> r == Error(currentVersion, fetch.message.GetOr(UNKNOWN_ERROR))
    ensures fetch.Fetched? && !VpnRepository.IsSuccessful(fetch.status) ==>
      r == Error(currentVersion, HttpError(fetch.status))
    ensures r.error.None? ==> r.latestVersion == Some(TagVersion(fetch.release.tagName))
    ensures r.updateAvailable <==> r.error.None? && IsNewerVersion(r.latestVersion.value, currentVersion)
  {
    match fetch
    case Thrown(message) => Error(currentVersion, message.GetOr(UNKNOWN_ERROR))
    case Fetched(status, release) =>
      if !VpnRepository.IsSuccessful(status) then Error(currentVersion, HttpError(status))
      else
        var latest := TagVersion(release.tagName);
        var download := ApkDownload(release.assets);
        UpdateCheckResult(
          IsNewerVersion(latest, currentVersion), Some(latest), currentVersion,
          download.url, Some(release.body), Some(release.publishedAt), download.size, None)
  }

  /** A successful check reports the release's notes, date and first APK. */
  lemma CheckReportsRelease(currentVersion: string, status: int, release: Release)
    requires VpnRepository.IsSuccessful(status)
    ensures var r := CheckForUpdates(currentVersion, Fetched(status, release));
      && r.releaseNotes == Some(release.body) && r.releaseDate == Some(release.publishedAt)
      && Download(r.downloadUrl, r.apkSize) == ApkDownload(release.assets)
  {
  }

  /**
   * A release tagged with the installed version, with or without the "v",
   * offers no update (an installed version that itself starts with "v" is
   * compared without it, so its bare tag is excluded).
   */
  lemma SameReleaseOffersNothing(currentVersion: string, status: int, release: Release)
    requires || release.tagName == TAG_PREFIX + currentVersion
             || (release.tagName == currentVersion && !(|currentVersion| > 0 && currentVersion[0] == 'v'))
    ensures !CheckForUpdates(currentVersion, Fetched(status, release)).updateAvailable
  {
    if release.tagName == TAG_PREFIX + currentVersion {
      assert release.tagName[..|TAG_PREFIX|] == TAG_PREFIX;
      assert TagVersion(release.tagName) == currentVersion;
    } else {
      assert TagVersion(release.tagName) == currentVersion;
    }
    VersionIrreflexive(currentVersion);
  }

  // ---------------------------------------------------------------------
  // Download progress
  // ---------------------------------------------------------------------

  /**
   * The percentage reported after `totalRead` of `contentLength` bytes:
   * `((totalRead * 100) / contentLength).toInt()` in `Long` arithmetic, and
   * nothing when the length is unknown (not positive).
   */
  function Progress(totalRead: int, contentLength: int): (r: Option<int>)
    ensures r.Some? <==> contentLength > 0
    ensures r.Some? ==> IsInt(r.value)
    ensures r.Some? && 0 <= totalRead <= contentLength && totalRead * 100 <= LONG_MAX ==>
      0 <= r.value <= 100 && r.value * contentLength <= totalRead * 100 < (r.value + 1) * contentLength
  {
    if contentLength > 0 then
      var q := TruncDiv(WrapLong(totalRead * 100), contentLength);
      assert 0 <= totalRead <= contentLength && totalRead * 100 <= LONG_MAX ==> 0 <= q <= 100 by {
        if 0 <= totalRead <= contentLength && totalRead * 100 <= LONG_MAX {
          ProgressQuotient(totalRead, contentLength, q);
        }
      }
      Some(ToInt(q))
    else
      None
  }

  /** Cancelling a positive factor from a strict inequality. */
  lemma MulLess(a: int, b: int, c: int)
    requires c > 0 && a * c < b * c
    ensures a < b
  {
    assert (b - a) * c == b * c - a * c;
  }

  lemma ProgressQuotient(totalRead: int, contentLength: int, q: int)
    requires 0 <= totalRead <= contentLength && totalRead * 100 <= LONG_MAX
    requires contentLength > 0 && q == TruncDiv(WrapLong(totalRead * 100), contentLength)
    ensures 0 <= q <= 100
  {
    assert q == (totalRead * 100) / contentLength by {
      TruncDivNonNegative(totalRead * 100, contentLength);
    }
    assert q * contentLength <= totalRead * 100 <= 100 * contentLength < 101 * contentLength;
    MulLess(q, 101, contentLength);
  }

  /** More bytes never lower the reported percentage. */
  lemma ProgressMonotone(a: int, b: int, contentLength: int)
    requires 0 <= a <= b <= contentLength && b * 100 <= LONG_MAX
    requires contentLength > 0
    ensures 0 <= Progress(a, contentLength).value <= Progress(b, contentLength).value <= 100
  {
    var pa, pb := Progress(a, contentLength).value, Progress(b, contentLength).value;
    assert pa * contentLength <= a * 100 <= b * 100 < (pb + 1) * contentLength;
    MulLess(pa, pb + 1, contentLength);
  }

  /** The whole body reads as 100 percent. */
  lemma ProgressComplete(contentLength: int)
    requires 0 < contentLength && contentLength * 100 <= LONG_MAX
    ensures Progress(contentLength, contentLength) == Some(100)
  {
    var p := Progress(contentLength, contentLength).value;
    assert 100 * contentLength < (p + 1) * contentLength;
    MulLess(100, p + 1, contentLength);
  }

  /** The bytes received after the given chunks: `totalRead += bytesRead` in `Long`. */
  function TotalRead(chunks: seq<int>): (t: int)
    ensures IsLong(t)
  {
    if |chunks| == 0 then 0 else WrapLong(TotalRead(chunks[..|chunks| - 1]) + chunks[|chunks| - 1])
  }

  /** The exact number of bytes in the chunks. */
  function Sum(chunks: seq<int>): int {
    if |chunks| == 0 then 0 else Sum(chunks[..|chunks| - 1]) + chunks[|chunks| - 1]
  }

  predicate NonNegative(chunks: seq<int>) {
    forall i :: 0 <= i < |chunks| ==> chunks[i] >= 0
  }

  /** Without overflow the running total is the exact sum, and it only grows. */
  lemma {:induction false} TotalReadIsSum(chunks: seq<int>, k: nat)
    requires NonNegative(chunks) && Sum(chunks) <= LONG_MAX
    requires k <= |chunks|
    ensures 0 <= Sum(chunks[..k]) <= Sum(chunks)
    ensures TotalRead(chunks[..k]) == Sum(chunks[..k])
    decreases |chunks|
  {
    if |chunks| > 0 {
      var init := chunks[..|chunks| - 1];
      assert NonNegative(init);
      if k == |chunks| {
        assert chunks[..k] == chunks;
        TotalReadIsSum(init, |init|);
        assert init[..|init|] == init;
      } else {
        assert chunks[..k] == init[..k];
        TotalReadIsSum(init, k);
      }
    }
  }

  /**
   * The download loop: after each chunk the running total grows and, when
   * the length is known, one percentage is reported.
   */
  method ProgressReports(chunks: seq<int>, contentLength: int) returns (reports: seq<int>)
    ensures contentLength <= 0 ==> reports == []
    ensures contentLength > 0 ==> |reports| == |chunks|
    ensures contentLength > 0 ==> forall i :: 0 <= i < |chunks| ==>
      Progress(TotalRead(chunks[..i + 1]), contentLength) == Some(reports[i])
  {
    reports := [];
    var totalRead := 0;
    var i := 0;
    while i < |chunks|
      invariant 0 <= i <= |chunks|
      invariant totalRead == TotalRead(chunks[..i])
      invariant contentLength <= 0 ==> reports == []
      invariant contentLength > 0 ==> |reports| == i
      invariant contentLength > 0 ==> forall j :: 0 <= j < i ==>
        Progress(TotalRead(chunks[..j + 1]), contentLength) == Some(reports[j])
    {
      assert chunks[..i + 1][..i] == chunks[..i];
      totalRead := WrapLong(totalRead + chunks[i]);
      if contentLength > 0 {
        var progress := Progress(totalRead, contentLength).value;
        reports := reports + [progress];
      }
      i := i + 1;
    }
  }

  /**
   * When the chunks add up to at most the announced length, the reports
   * stay within 0..100 and never go down; when they add up to exactly the
   * length, the last report is 100.
   */
  lemma ReportsClimb(chunks: seq<int>, contentLength: int, i: nat, j: nat)
    requires NonNegative(chunks) && Sum(chunks) <= contentLength
    requires 0 < contentLength && contentLength * 100 <= LONG_MAX
    requires i <= j < |chunks|
    ensures var a := Progress(TotalRead(chunks[..i + 1]), contentLength).value;
      var b := Progress(TotalRead(chunks[..j + 1]), contentLength).value;
      0 <= a <= b <= 100
  {
    var a, b := Sum(chunks[..i + 1]), Sum(chunks[..j + 1]);
    assert TotalRead(chunks[..i + 1]) == a && TotalRead(chunks[..j + 1]) == b && 0 <= a <= b <= contentLength by {
      PrefixSums(chunks, i + 1, j + 1);
    }
    assert 0 <= Progress(a, contentLength).value <= Progress(b, contentLength).value <= 100 by {
      ProgressMonotone(a, b, contentLength);
    }
  }

  /** Longer prefixes of non-negative chunks hold more bytes, and no overflow occurs. */
  lemma PrefixSums(chunks: seq<int>, i: nat, j: nat)
    requires NonNegative(chunks) && Sum(chunks) <= LONG_MAX
    requires i <= j <= |chunks|
    ensures TotalRead(chunks[..i]) == Sum(chunks[..i]) && TotalRead(chunks[..j]) == Sum(chunks[..j])
    ensures 0 <= Sum(chunks[..i]) <= Sum(chunks[..j]) <= Sum(chunks)
  {
    TotalReadIsSum(chunks, i);
    TotalReadIsSum(chunks, j);
    var sj := chunks[..j];
    assert NonNegative(sj);
    assert sj[..i] == chunks[..i];
    TotalReadIsSum(sj, i);
  }

  lemma ReportsFinish(chunks: seq<int>, contentLength: int)
    requires NonNegative(chunks) && Sum(chunks) == contentLength
    requires 0 < contentLength && contentLength * 100 <= LONG_MAX
    ensures Progress(TotalRead(chunks), contentLength) == Some(100)
  {
    TotalReadIsSum(chunks, |chunks|);
    assert chunks[..|chunks|] == chunks;
    ProgressComplete(contentLength);
  }
}

=== FILE: vpn_repository.dfy ===
/**
 * The server-list feed parser of the VPN client: comma-separated text in,
 * SSTP server records out. Blank, comment and header lines are skipped,
 * each data line is checked and normalised on its own, and the accepted
 * records come back ordered by sessions, then speed, both descending.
 */
module VpnRepository {
  import opened Wrappers
  import opened KotlinInts
  import opened Text
  import opened Decimal
  import opened StableSort

  /** One server of the feed; `speed` and `sessions` are `Long`s, `ping` an `Int`. */
  datatype SstpServer = SstpServer(
    hostName: string,
    ip: string,
    country: string,
    countryCode: string,
    speed: int,
    sessions: int,
    ping: int)

  const OPENGW_SUFFIX: string := ".opengw.net"
  const EXCLUDED_COUNTRY_CODE: string := "IR"
  const HEADER_TOKEN: string := "HostName"

  /** Columns 0..7 (host, ip, score, ping, speed, country, code, sessions) must be present. */
  const MIN_COLUMNS: nat := 8

  /** The host name with the gateway suffix appended unless some casing of it is already there. */
  function FixHostName(h: string): (r: string)
    ensures EndsWithIgnoreCase(r, OPENGW_SUFFIX)
    ensures EndsWithIgnoreCase(h, OPENGW_SUFFIX) ==> r == h
    ensures !EndsWithIgnoreCase(h, OPENGW_SUFFIX) ==> r == h + OPENGW_SUFFIX
  {
    if EndsWithIgnoreCase(h, OPENGW_SUFFIX) then h
    else
      var r := h + OPENGW_SUFFIX;
      assert r[|r| - |OPENGW_SUFFIX|..] == OPENGW_SUFFIX;
      r
  }

  /** Fixing an already fixed host name changes nothing. */
  lemma FixHostNameIdempotent(h: string)
    ensures FixHostName(FixHostName(h)) == FixHostName(h)
  {
  }

  /** The conditions under which a line yields a record. */
  predicate LineAccepted(line: string) {
    var parts := Split(line, ',');
    && |parts| >= MIN_COLUMNS
    && !EqualsIgnoreCase(Trim(parts[6]), EXCLUDED_COUNTRY_CODE)
    && Trim(parts[0]) != []
    && Trim(parts[1]) != []
  }

  /** What every parsed record satisfies. */
  predicate ValidRecord(s: SstpServer) {
    && EndsWithIgnoreCase(s.hostName, OPENGW_SUFFIX)
    && s.ip != []
    && !EqualsIgnoreCase(s.countryCode, EXCLUDED_COUNTRY_CODE)
    && IsInt(s.ping) && IsLong(s.speed) && IsLong(s.sessions)
  }

  /** A record as the parser produces it. */
  type ParsedServer = s: SstpServer | ValidRecord(s)
    witness SstpServer(OPENGW_SUFFIX, "0", "", "", 0, 0, 0)

  /**
   * One data line to a record, or `None` when the line is rejected;
   * unparsable numbers become 0.
   */
  function ParseServerLine(line: string): (r: Option<ParsedServer>)
    ensures r.Some? <==> LineAccepted(line)
  {
    var parts := Split(line, ',');
    if |parts| < MIN_COLUMNS then None
    else
      var countryCode := Trim(parts[6]);
      if EqualsIgnoreCase(countryCode, EXCLUDED_COUNTRY_CODE) then None
      else
        var hostName := Trim(parts[0]);
        if |hostName| == 0 then None
        else
          var ip := Trim(parts[1]);
          if |ip| == 0 then None
          else
            Some(SstpServer(
              hostName := FixHostName(hostName),
              ip := ip,
              country := Trim(parts[5]),
              countryCode := countryCode,
              speed := LongOrZero(Trim(parts[4])),
              sessions := LongOrZero(Trim(parts[7])),
              ping := IntOrZero(Trim(parts[3]))))
  }

  /**
   * A line is rejected exactly when it has fewer than eight fields, its
   * country code is some casing of "IR", or its host or ip column is blank.
   */
  lemma AcceptedIff(line: string)
    ensures ParseServerLine(line).Some? <==> LineAccepted(line)
  {
  }

  /** Where each field of a parsed record comes from. */
  lemma ParsedColumns(line: string)
    requires LineAccepted(line)
    ensures var parts := Split(line, ',');
      var s := ParseServerLine(line).value;
      && s.hostName == FixHostName(Trim(parts[0]))
      && s.ip == Trim(parts[1])
      && s.ping == IntOrZero(Trim(parts[3]))
      && s.speed == LongOrZero(Trim(parts[4]))
      && s.country == Trim(parts[5])
      && s.countryCode == Trim(parts[6])
      && s.sessions == LongOrZero(Trim(parts[7]))
  {
  }

  /** A text field the feed can carry unchanged: no delimiter, no surrounding whitespace. */
  predicate CleanField(f: string) {
    && Lacks(f, ',')
    && (|f| > 0 ==> !IsWhitespace(f[0]) && !IsWhitespace(f[|f| - 1]))
  }

  /** A record the parser can produce, with every field in its canonical form. */
  predicate Canonical(s: SstpServer) {
    && CleanField(s.hostName) && s.hostName != [] && EndsWithIgnoreCase(s.hostName, OPENGW_SUFFIX)
    && CleanField(s.ip) && s.ip != []
    && CleanField(s.country)
    && CleanField(s.countryCode) && !EqualsIgnoreCase(s.countryCode, EXCLUDED_COUNTRY_CODE)
    && IsInt(s.ping) && IsLong(s.speed) && IsLong(s.sessions)
  }

  /** The eight feed columns that describe `s`, with `score` in the unused column 2. */
  function FeedColumns(s: SstpServer, score: string): (cols: seq<string>)
    ensures |cols| == MIN_COLUMNS
  {
    [s.hostName, s.ip, score, DecimalString(s.ping), DecimalString(s.speed),
     s.country, s.countryCode, DecimalString(s.sessions)]
  }

  function FeedLine(s: SstpServer, score: string): string {
    Join(FeedColumns(s, score), ',')
  }

  /**
   * A line made of eight delimiter-free columns parses to the record those
   * columns describe, when the host, ip and country code columns pass.
   */
  lemma ParseJoinedColumns(cols: seq<string>)
    requires |cols| == MIN_COLUMNS
    requires forall i :: 0 <= i < |cols| ==> Lacks(cols[i], ',')
    requires Trim(cols[0]) != [] && Trim(cols[1]) != []
    requires !EqualsIgnoreCase(Trim(cols[6]), EXCLUDED_COUNTRY_CODE)
    ensures ParseServerLine(Join(cols, ',')) == Some(SstpServer(
      hostName := FixHostName(Trim(cols[0])),
      ip := Trim(cols[1]),
      country := Trim(cols[5]),
      countryCode := Trim(cols[6]),
      speed := LongOrZero(Trim(cols[4])),
      sessions := LongOrZero(Trim(cols[7])),
      ping := IntOrZero(Trim(cols[3]))))
  {
    var line := Join(cols, ',');
    SplitJoin(cols, ',');
    assert LineAccepted(line);
    AcceptedIff(line);
    ParsedColumns(line);
  }

  lemma NumberLacksDelimiter(n: int)
    ensures Lacks(DecimalString(n), ',')
  {
    var d := DecimalString(n);
    forall i | 0 <= i < |d| ensures d[i] != ',' {
      if n < 0 && i > 0 {
        assert d[i] == d[1..][i - 1];
      }
    }
  }

  lemma RenderedNumberClean(n: int)
    ensures Lacks(DecimalString(n), ',')
    ensures Trim(DecimalString(n)) == DecimalString(n)
  {
    NumberLacksDelimiter(n);
    NumberTrimmed(n);
  }

  /** A rendered number starts with a digit or '-' and ends with a digit, so trimming keeps it. */
  lemma NumberTrimmed(n: int)
    ensures Trim(DecimalString(n)) == DecimalString(n)
  {
    var d := DecimalString(n);
    if n >= 0 {
      assert IsDigit(d[0]) && IsDigit(d[|d| - 1]);
    } else {
      assert IsDigit(d[1..][|d| - 2]) && d[1..][|d| - 2] == d[|d| - 1];
    }
    TrimNoOp(d);
  }

  /** A rendered `Long` survives trimming and `toLongOrNull` gives it back. */
  lemma LongColumn(n: int)
    requires IsLong(n)
    ensures Lacks(DecimalString(n), ',')
    ensures LongOrZero(Trim(DecimalString(n))) == n
  {
    RenderedNumberClean(n);
    ParseDecimalString(n, LONG_MIN, LONG_MAX);
  }

  /** A rendered `Int` survives trimming and `toIntOrNull` gives it back. */
  lemma IntColumn(n: int)
    requires IsInt(n)
    ensures Lacks(DecimalString(n), ',')
    ensures IntOrZero(Trim(DecimalString(n))) == n
  {
    RenderedNumberClean(n);
    ParseDecimalString(n, INT_MIN, INT_MAX);
  }

  /** The text columns of a canonical record survive trimming. */
  lemma FeedTextColumns(s: SstpServer, score: string)
    requires Canonical(s)
    ensures var cols := FeedColumns(s, score);
      && Trim(cols[0]) == s.hostName && Trim(cols[1]) == s.ip
      && Trim(cols[5]) == s.country && Trim(cols[6]) == s.countryCode
  {
    CleanFieldsTrimmed(s.hostName, s.ip, s.country, s.countryCode);
    var cols := FeedColumns(s, score);
    assert cols[0] == s.hostName && cols[1] == s.ip && cols[5] == s.country && cols[6] == s.countryCode;
  }

  /** Trimming leaves clean fields as they are. */
  lemma CleanFieldsTrimmed(a: string, b: string, c: string, d: string)
    requires CleanField(a) && CleanField(b) && CleanField(c) && CleanField(d)
    ensures Trim(a) == a && Trim(b) == b && Trim(c) == c && Trim(d) == d
  {
    TrimNoOp(a);
    TrimNoOp(b);
    TrimNoOp(c);
    TrimNoOp(d);
  }

  /** The number columns of a canonical record parse back to its numbers. */
  lemma FeedNumberColumns(s: SstpServer, score: string)
    requires Canonical(s)
    ensures var cols := FeedColumns(s, score);
      && IntOrZero(Trim(cols[3])) == s.ping
      && LongOrZero(Trim(cols[4])) == s.speed
      && LongOrZero(Trim(cols[7])) == s.sessions
  {
    var cols := FeedColumns(s, score);
    assert cols[3] == DecimalString(s.ping) && cols[4] == DecimalString(s.speed) && cols[7] == DecimalString(s.sessions);
    IntColumn(s.ping);
    LongColumn(s.speed);
    LongColumn(s.sessions);
  }

  /** No column of a canonical record's feed line holds the delimiter. */
  lemma FeedColumnsLackDelimiter(s: SstpServer, score: string)
    requires Canonical(s)
    requires Lacks(score, ',')
    ensures var cols := FeedColumns(s, score);
      forall i :: 0 <= i < |cols| ==> Lacks(cols[i], ',')
  {
    var cols := FeedColumns(s, score);
    forall i | 0 <= i < |cols| ensures Lacks(cols[i], ',') {
      if i == 3 {
        NumberLacksDelimiter(s.ping);
      } else if i == 4 {
        NumberLacksDelimiter(s.speed);
      } else if i == 7 {
        NumberLacksDelimiter(s.sessions);
      }
    }
  }

  /** Parsing the feed line of a canonical record gives the record back. */
  lemma ParseFeedLine(s: SstpServer, score: string)
    requires Canonical(s)
    requires Lacks(score, ',')
    ensures ParseServerLine(FeedLine(s, score)) == Some(s)
  {
    FeedTextColumns(s, score);
    FeedNumberColumns(s, score);
    FeedColumnsLackDelimiter(s, score);
    ParseJoinedColumns(FeedColumns(s, score));
  }

  /** Comment lines start with `*` or `#`; header lines mention the host column in any case. */
  predicate IsHeaderLine(line: string) {
    || (|line| > 0 && (line[0] == '*' || line[0] == '#'))
    || ContainsIgnoreCase(line, HEADER_TOKEN)
  }

  /**
   * Comment lines and the column header are skipped, and so is any line
   * that mentions the host column's name in some casing, data or not.
   */
  lemma HeaderLinesSkipped(rest: string, before: string, token: string)
    requires EqualsIgnoreCase(token, HEADER_TOKEN)
    ensures IsHeaderLine(['*'] + rest) && IsHeaderLine(['#'] + rest)
    ensures IsHeaderLine(before + token + rest)
  {
    var line := before + token + rest;
    assert line[|before|..|before| + |HEADER_TOKEN|] == token;
    assert MatchesIgnoreCaseAt(line, HEADER_TOKEN, |before|);
  }

  function NonBlank(lines: seq<string>): (r: seq<string>)
    ensures |r| <= |lines|
    ensures forall i :: 0 <= i < |r| ==> !IsBlank(r[i]) && r[i] in lines
    ensures forall i :: 0 <= i < |lines| && !IsBlank(lines[i]) ==> lines[i] in r
    ensures (forall i :: 0 <= i < |lines| ==> IsBlank(lines[i])) ==> r == []
  {
    if |lines| == 0 then []
    else (if IsBlank(lines[0]) then [] else [lines[0]]) + NonBlank(lines[1..])
  }

  /** Every non-blank line is kept as often as it occurs, and no blank line is kept. */
  lemma {:induction false} NonBlankCounts(lines: seq<string>, l: string)
    ensures multiset(NonBlank(lines))[l] == if IsBlank(l) then 0 else multiset(lines)[l]
    decreases |lines|
  {
    if |lines| > 0 {
      var head := if IsBlank(lines[0]) then [] else [lines[0]];
      var tail := lines[1..];
      NonBlankCounts(tail, l);
      assert NonBlank(lines) == head + NonBlank(tail);
      CountAppend(head, NonBlank(tail), l);
      CountCons(lines, l);
      assert multiset(head)[l] == if IsBlank(l) || l != lines[0] then 0 else 1;
    }
  }

  lemma CountAppend<T>(a: seq<T>, b: seq<T>, x: T)
    ensures multiset(a + b)[x] == multiset(a)[x] + multiset(b)[x]
  {
  }

  lemma CountCons<T>(xs: seq<T>, x: T)
    requires |xs| > 0
    ensures multiset(xs)[x] == multiset([xs[0]])[x] + multiset(xs[1..])[x]
  {
    assert xs == [xs[0]] + xs[1..];
  }

  /** Filtering a concatenation filters each part, so the kept lines keep their order. */
  lemma {:induction false} NonBlankAppend(a: seq<string>, b: seq<string>)
    ensures NonBlank(a + b) == NonBlank(a) + NonBlank(b)
    decreases |a|
  {
    if |a| > 0 {
      assert (a + b)[1..] == a[1..] + b;
      NonBlankAppend(a[1..], b);
    } else {
      assert a + b == b;
    }
  }

  /** The non-blank lines of the feed, in order. */
  function DataLines(data: string): seq<string> {
    NonBlank(Lines(data))
  }

  /** `line` is a data line that yields the record `s`. */
  predicate Yields(line: string, s: SstpServer) {
    !IsHeaderLine(line) && ParseServerLine(line) == Some(s)
  }

  /** What the loop body makes of one line: nothing for a header line, else `parseServerLine`. */
  function LineRecord(line: string): (r: Option<ParsedServer>)
    ensures forall s :: r == Some(s) <==> Yields(line, s)
  {
    if IsHeaderLine(line) then None else ParseServerLine(line)
  }

  /** The values a per-line parser `f` produces, in line order. */
  function Collect<T(==)>(f: string -> Option<T>, lines: seq<string>): (r: seq<T>)
    ensures |r| <= |lines|
    ensures forall i :: 0 <= i < |lines| && f(lines[i]).Some? ==> f(lines[i]).value in r
  {
    if |lines| == 0 then []
    else (if f(lines[0]).Some? then [f(lines[0]).value] else []) + Collect(f, lines[1..])
  }

  lemma {:induction false} CollectAppend<T>(f: string -> Option<T>, a: seq<string>, b: seq<string>)
    ensures Collect(f, a + b) == Collect(f, a) + Collect(f, b)
    decreases |a|
  {
    if |a| == 0 {
      assert a + b == b;
    } else {
      assert (a + b)[0] == a[0];
      assert (a + b)[1..] == a[1..] + b;
      CollectAppend(f, a[1..], b);
    }
  }

  lemma {:induction false} CollectOrigin<T>(f: string -> Option<T>, lines: seq<string>, v: T)
    requires v in Collect(f, lines)
    ensures exists i :: 0 <= i < |lines| && f(lines[i]) == Some(v)
    decreases |lines|
  {
    if f(lines[0]) != Some(v) {
      CollectOrigin(f, lines[1..], v);
      var i :| 0 <= i < |lines[1..]| && f(lines[1..][i]) == Some(v);
      assert lines[i + 1] == lines[1..][i];
    }
  }

  /** The record of every non-header line that yields one, in line order. */
  function ParseLines(lines: seq<string>): (r: seq<ParsedServer>)
    ensures |r| <= |lines|
    ensures forall i, s :: 0 <= i < |lines| && Yields(lines[i], s) ==> s in r
  {
    Collect(LineRecord, lines)
  }

  /** A single line contributes its record when it yields one, and nothing otherwise. */
  lemma ParseLinesSingle(line: string)
    ensures forall s :: ParseLines([line]) == [s] <==> Yields(line, s)
    ensures ParseLines([line]) == [] <==> IsHeaderLine(line) || ParseServerLine(line).None?
  {
    assert [line][0] == line && [line][1..] == [];
  }

  /** The loop handles the lines one at a time, so the records of a concatenation concatenate. */
  lemma ParseLinesAppend(a: seq<string>, b: seq<string>)
    ensures ParseLines(a + b) == ParseLines(a) + ParseLines(b)
  {
    CollectAppend(LineRecord, a, b);
  }

  /** Every record `ParseLines` returns is yielded by one of its lines. */
  lemma ParseLinesOrigin(lines: seq<string>)
    ensures forall s :: s in ParseLines(lines) ==> exists line :: line in lines && Yields(line, s)
  {
    forall s | s in ParseLines(lines) ensures exists line :: line in lines && Yields(line, s) {
      CollectOrigin(LineRecord, lines, s);
      var i :| 0 <= i < |lines| && LineRecord(lines[i]) == Some(s);
      assert Yields(lines[i], s);
    }
  }

  /** The records the feed's lines yield, in feed order, before sorting. */
  function AcceptedRecords(data: string): seq<ParsedServer> {
    ParseLines(DataLines(data))
  }

  /** `a` comes first: more sessions, or as many sessions and more speed. */
  predicate RanksBefore(a: ParsedServer, b: ParsedServer) {
    a.sessions > b.sessions || (a.sessions == b.sessions && a.speed > b.speed)
  }

  lemma RanksBeforeIsStrictWeakOrder()
    ensures StrictWeakOrder(RanksBefore)
  {
  }

  /**
   * The whole feed to the list of servers: the accepted records, reordered
   * by sessions descending and then speed descending.
   */
  function ParseCsv(data: string): (r: seq<ParsedServer>)
    ensures multiset(r) == multiset(AcceptedRecords(data))
    ensures forall i, j :: 0 <= i < j < |r| ==>
      r[i].sessions > r[j].sessions || (r[i].sessions == r[j].sessions && r[i].speed >= r[j].speed)
    ensures |r| <= |DataLines(data)|
  {
    RanksBeforeIsStrictWeakOrder();
    Sort(AcceptedRecords(data), RanksBefore)
  }

  /** Records that tie on sessions and speed keep their feed order. */
  lemma ParseCsvStable(data: string, k: ParsedServer)
    ensures TiedWith(ParseCsv(data), RanksBefore, k) == TiedWith(AcceptedRecords(data), RanksBefore, k)
  {
    RanksBeforeIsStrictWeakOrder();
    SortStable(AcceptedRecords(data), RanksBefore, k);
  }

  /** Every accepted record comes from a non-blank line of the feed that yields it. */
  lemma AcceptedRecordsOrigin(data: string)
    ensures forall s :: s in AcceptedRecords(data) ==>
      exists line :: line in Lines(data) && !IsBlank(line) && Yields(line, s)
  {
    var lines := DataLines(data);
    ParseLinesOrigin(lines);
    forall s | s in AcceptedRecords(data)
      ensures exists line :: line in Lines(data) && !IsBlank(line) && Yields(line, s)
    {
      var line :| line in lines && Yields(line, s);
      DataLineOrigin(data, line);
    }
  }

  lemma DataLineOrigin(data: string, line: string)
    requires line in DataLines(data)
    ensures line in Lines(data) && !IsBlank(line)
  {
    var lines := DataLines(data);
    var j :| 0 <= j < |lines| && lines[j] == line;
  }

  /**
   * Every record of the output comes from a non-blank line that is neither
   * a comment nor a header, so such lines never yield a record.
   */
  lemma RecordsComeFromDataLines(data: string)
    ensures forall s :: s in ParseCsv(data) ==>
      exists line :: line in Lines(data) && !IsBlank(line) && Yields(line, s)
  {
    AcceptedRecordsOrigin(data);
    forall s | s in ParseCsv(data)
      ensures exists line :: line in Lines(data) && !IsBlank(line) && Yields(line, s)
    {
      assert s in multiset(ParseCsv(data));
      assert s in multiset(AcceptedRecords(data));
      assert s in AcceptedRecords(data);
    }
  }

  /** Every non-blank feed line that yields a record puts that record in the result. */
  lemma ParseCsvComplete(data: string, line: string, s: SstpServer)
    requires line in Lines(data) && !IsBlank(line) && Yields(line, s)
    ensures s in ParseCsv(data)
  {
    var k :| 0 <= k < |Lines(data)| && Lines(data)[k] == line;
    assert line in DataLines(data);
    var j :| 0 <= j < |DataLines(data)| && DataLines(data)[j] == line;
    assert s in AcceptedRecords(data);
    assert s in multiset(AcceptedRecords(data));
    assert s in multiset(ParseCsv(data));
  }

  /** A record is in the result exactly when some non-blank feed line yields it. */
  lemma ParseCsvMembership(data: string, s: SstpServer)
    ensures s in ParseCsv(data) <==> exists line :: line in Lines(data) && !IsBlank(line) && Yields(line, s)
  {
    RecordsComeFromDataLines(data);
    if line :| line in Lines(data) && !IsBlank(line) && Yields(line, s) {
      ParseCsvComplete(data, line, s);
    }
  }

  /** A blank feed yields no servers. */
  lemma BlankFeedYieldsNothing(data: string)
    requires IsBlank(data)
    ensures ParseCsv(data) == []
  {
    LinesOfBlank(data);
  }

  /** A bare host name gets the gateway suffix. */
  lemma FixHostNameExample()
    ensures FixHostName("a.example") == "a.example.opengw.net"
  {
    assert !EndsWithIgnoreCase("a.example", OPENGW_SUFFIX) by {
      assert !CharEqualsIgnoreCase("a.example"[0], OPENGW_SUFFIX[0]);
    }
  }

  /** What the network layer hands to the parser. */
  datatype FetchOutcome =
    | Response(status: int, body: Option<string>)
    | NetworkFailure
    | UnexpectedFailure

  /** OkHttp's `isSuccessful`: a 2xx status. */
  predicate IsSuccessful(status: int) { 200 <= status <= 299 }

  /**
   * The list handed to the caller's callback. Every failure (non-2xx status,
   * missing or blank body, I/O or other exception) delivers the empty list.
   */
  function DeliveredServers(outcome: FetchOutcome): (r: seq<SstpServer>)
    ensures r != [] ==>
      && outcome.Response? && IsSuccessful(outcome.status)
      && outcome.body.Some? && !IsBlank(outcome.body.value)
      && r == ParseCsv(outcome.body.value)
    ensures outcome.Response? && IsSuccessful(outcome.status) && outcome.body.Some? && !IsBlank(outcome.body.value) ==>
      r == ParseCsv(outcome.body.value)
    ensures !outcome.Response? ==> r == []
  {
    match outcome
    case Response(status, body) =>
      if !IsSuccessful(status) then []
      else if body.None? || IsBlank(body.value) then []
      else ParseCsv(body.value)
    case NetworkFailure => []
    case UnexpectedFailure => []
  }
}

=== FILE: wrappers.dfy ===
/** The optional value used wherever the source returns a nullable (`T?`). */
module Wrappers {

  datatype Option<+T> = None | Some(value: T) {

    /** The wrapped value, or `default` when there is none (Kotlin's `?:`). */
    function GetOr(default: T): T {
      match this
      case Some(v) => v
      case None => default
    }
  }
}
